=== FILE: README.md ===
# ronesdy-notes-be: a verified model of the note store

This project models the core of the ronesdy-notes backend in Dafny. The backend is an Express and Mongoose service for a note-taking app. The model covers:
- the folder / file / canvas hierarchy with its soft-delete recycle bin;
- page renumbering when a canvas page is deleted;
- the path and canvas controllers' validation, ownership guards and handler sequencing;
- the marketplace listings and cart;
- the admin panel's paged queries and status updates;
- the account and one-time-code logic of the user controller.

The whole database is one `Documents.DocumentStore` object:
- folders, files and canvases are maps from id to record;
- users, admins and marketplace listings are sequences in natural (insertion) order;
- the cart is a set of (user, listing) pairs.

Each repository is a class over that store. Every method of a repository changes only the collection it names, and its `ensures` ties the new collection and the answer to a function of the same name in a pure `…Model` module. The properties the code promises are proved about those functions.

Controllers are classes too. Their guards, validation and decisions are functions. A controller's answer is a `Reply`: the errors it passed to `next` and the status it wrote, if any. A guard can signal and the handler still carry on, so the model keeps both.

The following are parameters, never modelled:
- bcrypt's `hash` and `compare`;
- jsonwebtoken's `verify`;
- the clock (`now`), the random draw of a one-time code (`draw`), and ids the store assigns;
- the Joi validation verdict (`valid`);
- pdf-parse's page count.

Modules, in dependency order:
- `Wrappers`, `Errors`, `Documents`: Option/Result, errors, status codes, records, the store.
- `Query`: Mongoose's find / sort / skip / limit and `$slice` over sequences.
- `PathModel`, `PathRepository`, `PathController`.
- `CanvasModel`, `CanvasRepository`, `CanvasController`.
- `MarketplaceModel`, `MarketplaceRepository`.
- `AdminModel`, `AdminRepository`.
- `UserModel`, `UserRepository`, `UserController`.

## Model

| member | source | states |
|---|---|---|
| Documents.NewFolder | src/models/v1/folder.model.ts:4-24 | a created folder starts neither deleted nor favourite, owned by the caller |
| Documents.NewFile | src/models/v1/file.model.ts:4-45 | a created file starts neither deleted nor favourite; a missing fileTemplate becomes 'BLANK' |
| Documents.BlankPage | src/controllers/v1/path.controller.ts:543 | an upload's page `{ pageNo: i + 1 }` has that number, no paths, no shapes, not bookmarked |
| Query.Select | src/repositories/v1/admin.repository.ts:16 | a `find` filter keeps exactly the records that pass it, never more than there were |
| Query.SelectMultiplicity | src/repositories/v1/admin.repository.ts:20 | a filter keeps every passing record as many times as it occurs |
| Query.SelectPermutation | src/repositories/v1/admin.repository.ts:57-63 | filtering reordered records selects the same records, and as many (so the count taken before a sort is the count after it) |
| Query.Insert | src/repositories/v1/admin.repository.ts:58 | inserting into a newest-first sequence keeps it newest first and adds exactly that record |
| Query.SortDesc | src/repositories/v1/marketplace.repository.ts:20 | `sort({ createdAt: -1 })` returns the same records, newest first |
| Query.LimitBound | src/repositories/v1/marketplace.repository.ts:21 | `limit(0)` means no limit and a negative limit is its absolute value |
| Query.Limit | src/repositories/v1/marketplace.repository.ts:21 | `limit(n)` keeps a prefix of at most the bound's count, all records when unlimited |
| Query.Skip | src/repositories/v1/admin.repository.ts:17 | `skip(n)` drops the first n records and keeps the rest in order |
| Query.Slice | src/repositories/v1/marketplace.repository.ts:48 | `$slice` keeps the first n records for positive n, the last \|n\| for negative n, none for 0 |
| Query.TopOfSorted | src/repositories/v1/marketplace.repository.ts:20-21 | a record left out of a limited newest-first result means the limit was filled by records at least as new |
| Query.IndexWhere | src/repositories/v1/marketplace.repository.ts:168 | `findOne` finds the first matching record, and finds none exactly when no record matches |
| PathModel.GetAllPathsByUserID | src/repositories/v1/path.repository.ts:37-99 | the tree holds exactly the caller's live folders; each folder lists exactly the live files filed under it; top level holds exactly the live files with no folder; thumbnails are the live files' canvases |
| PathModel.LiveFileOfHiddenFolderIsHidden | src/repositories/v1/path.repository.ts:60-61 | a live file whose folder is not live appears nowhere in the tree |
| PathModel.GetFileByFileID | src/repositories/v1/path.repository.ts:134-145 | finds a file exactly when its id is stored, deleted or not, and answers the stored record; its owner is the caller exactly when the caller owns the file |
| PathModel.GetCanvasByFileID | src/repositories/v1/path.repository.ts:118-132 | a missing or deleted file has no canvases; otherwise exactly the canvases with that fileID |
| PathModel.IsFileOwnedByUser | src/repositories/v1/path.repository.ts:245-255 | true iff a file with that id and that owner exists; a missing id is false, not an error |
| PathModel.IsFolderOwnedByUser | src/repositories/v1/path.repository.ts:257-270 | true iff a folder with that id and that owner exists |
| PathModel.GetRecycleBin | src/repositories/v1/path.repository.ts:404-418 | exactly the user's deleted files and deleted folders |
| PathModel.SetFileFlag | src/repositories/v1/path.repository.ts:272-286 | an `updateOne` of isDeleted changes that one file's flag and nothing else |
| PathModel.SetFolderFlag | src/repositories/v1/path.repository.ts:288-296 | an `updateOne` of isDeleted changes that one folder's flag and nothing else |
| PathModel.SetFlagInFolder | src/repositories/v1/path.repository.ts:297-300 | an `updateMany({ folderID })` sets the flag on every file of the folder and touches no other file |
| PathModel.SoftDeleteFile | src/repositories/v1/path.repository.ts:272-286 | only that file becomes deleted; every other record is unchanged |
| PathModel.SoftDeleteFolder | src/repositories/v1/path.repository.ts:288-307 | the folder and every file filed under it become deleted, whatever their prior flag; everything else unchanged |
| PathModel.RecoverFile | src/repositories/v1/path.repository.ts:329-343 | only that file becomes live |
| PathModel.RecoverFolder | src/repositories/v1/path.repository.ts:345-365 | the folder and every file under it become live; everything else unchanged |
| PathModel.RecoverAll | src/repositories/v1/path.repository.ts:309-327 | every folder and file of the user becomes live; other users' records are untouched |
| PathModel.RecoverAllIdempotent | src/repositories/v1/path.repository.ts:309-327 | running recoverAll twice equals running it once |
| PathModel.RecoverAllEmptiesBin | src/repositories/v1/path.repository.ts:309-327 | after recoverAll the user's bin is empty |
| PathModel.RecoverFolderResurrectsSeparatelyDeletedFile | src/repositories/v1/path.repository.ts:345-365 | recovering a folder also recovers a file of it that was deleted on its own before |
| PathModel.SoftDeleteRecoverFolderRoundTrip | src/repositories/v1/path.repository.ts:288-307 | deleting then recovering a live folder whose files are all live restores the store exactly |
| PathModel.DeleteFile | src/repositories/v1/path.repository.ts:101-116 | the file and every canvas with its fileID are removed, nothing else; the answer is true iff the file existed |
| PathModel.DeleteFolder | src/repositories/v1/path.repository.ts:226-243 | the folder, every file filed under it and their canvases are removed, nothing else; true iff the folder existed |
| PathModel.DeleteFolderLeavesNoOrphans | src/repositories/v1/path.repository.ts:226-243 | after a folder delete no canvas points at a removed file |
| PathModel.HardDeleteAll | src/repositories/v1/path.repository.ts:367-402 | nothing changes when the user has no deleted file with a canvas; otherwise those canvases, the deleted folders and the deleted files go, and the answer is true iff a deleted folder existed |
| PathModel.HardDeleteAllPurgesFolderCascade | src/repositories/v1/path.repository.ts:367-402 | when emptyBin acts, a deleted folder goes with all its files and their canvases |
| PathModel.HardDeleteAllKeepsCanvaslessBin | src/repositories/v1/path.repository.ts:375-397 | a bin whose deleted files have no canvases is left full |
| PathModel.PurgeBin | src/repositories/v1/path.repository.ts:367-402 | emptying the bin as intended leaves it empty, keeps every live record, and reports whether it had anything |
| PathModel.LiveTreeDependsOnLiveRecords | src/repositories/v1/path.repository.ts:37-99 | two stores with the same live records show the same tree |
| PathModel.PurgeBinKeepsLiveTree | src/repositories/v1/path.repository.ts:367-402 | emptying the bin leaves the live tree exactly as it was |
| PathModel.HardDeleteAllAgreesWithPurgeBinWhenItActs | src/repositories/v1/path.repository.ts:375-397 | whenever hardDeleteAll does act, it does what emptying the bin should |
| PathModel.RemoveUser | src/repositories/v1/path.repository.ts:451 | `deleteOne({ _id })` removes exactly one user with that id, or nothing for an unknown id |
| PathModel.DeleteAllUserData | src/repositories/v1/path.repository.ts:420-455 | the user is always removed and the answer is always true; their folders, files and canvases go only when some file of theirs has a canvas |
| PathModel.Patched | src/repositories/v1/path.repository.ts:207-224 | an update overwrites exactly the fields the request carries; owner, deletion flag and link stay |
| PathModel.UpdateFile | src/repositories/v1/path.repository.ts:207-224 | only the named file changes; an unknown id changes nothing |
| PathModel.RenameFolder | src/repositories/v1/path.repository.ts:195-205 | only the named folder's name changes |
| PathModel.InsertCanvas | src/repositories/v1/path.repository.ts:175-183 | inserting under a taken id fails with a 500 repository error; otherwise the canvas is stored under its id |
| PathRepository.PathRepository.DeleteFileByFileID | src/repositories/v1/path.repository.ts:101-116 | the store after the call and the answer are DeleteFile's |
| PathRepository.PathRepository.CreateFile | src/repositories/v1/path.repository.ts:160-173 | a named file under a fresh id is stored; an empty or missing fileName (a required path) or a taken id is a 500 and changes nothing |
| PathRepository.PathRepository.CreateCanvas | src/repositories/v1/path.repository.ts:175-183 | the canvases become InsertCanvas's result; every failure is a 500 |
| PathRepository.PathRepository.CreateFolder | src/repositories/v1/path.repository.ts:185-193 | a named folder under a fresh id is stored; an empty or missing folderName (a required path) or a taken id is a 500 and changes nothing |
| PathRepository.PathRepository.RenameFolder | src/repositories/v1/path.repository.ts:195-205 | the store becomes RenameFolder's; the answer says whether a folder matched |
| PathRepository.PathRepository.UpdateFile | src/repositories/v1/path.repository.ts:207-224 | the store becomes UpdateFile's; the answer says whether a file matched |
| PathRepository.PathRepository.DeleteFolderByFolderID | src/repositories/v1/path.repository.ts:226-243 | the store after the call and the answer are DeleteFolder's |
| PathRepository.PathRepository.SoftDeleteFile | src/repositories/v1/path.repository.ts:272-286 | the store becomes SoftDeleteFile's and the answer is true |
| PathRepository.PathRepository.SoftDeleteFolder | src/repositories/v1/path.repository.ts:288-307 | the store becomes SoftDeleteFolder's and the answer is true |
| PathRepository.PathRepository.RecoverAll | src/repositories/v1/path.repository.ts:309-327 | the store becomes RecoverAll's |
| PathRepository.PathRepository.RecoverFile | src/repositories/v1/path.repository.ts:329-343 | the store becomes RecoverFile's |
| PathRepository.PathRepository.RecoverFolder | src/repositories/v1/path.repository.ts:345-365 | the store becomes RecoverFolder's |
| PathRepository.PathRepository.HardDeleteAll | src/repositories/v1/path.repository.ts:367-402 | the store after the call and the answer are HardDeleteAll's |
| PathRepository.PathRepository.DeleteAllUserData | src/repositories/v1/path.repository.ts:420-455 | the store after the call and the answer are DeleteAllUserData's |
| PathController.ParseItemRequest | src/controllers/v1/path.controller.ts:379-406 | a request is accepted iff the id is non-empty and the type is exactly '1' or '2'; '1' selects a folder; anything else is a ValidationError |
| PathController.RecoverAcceptsMissingId | src/controllers/v1/path.controller.ts:445-448 | recover turns a missing id into "undefined" and accepts it, where moveToRecycleBin refuses it |
| PathController.FolderGuard | src/controllers/v1/path.controller.ts:573-590 | silent for an empty id; otherwise Forbidden exactly when the caller does not own the folder |
| PathController.FileGuard | src/controllers/v1/path.controller.ts:592-609 | silent for an empty id; otherwise Forbidden exactly when the caller does not own the file |
| PathController.BinListing | src/controllers/v1/path.controller.ts:301-324 | lists every deleted folder; lists a deleted file iff it has no folder or the user has no deleted folder |
| PathController.IntendedBinListing | src/controllers/v1/path.controller.ts:308-324 | lists every deleted folder, and a deleted file iff its folder is not itself in the bin |
| PathController.IntendedBinListingReachesEveryBinnedFile | src/controllers/v1/path.controller.ts:308-324 | with the intended listing every binned file is listed or reachable by recovering its listed folder |
| PathController.BinListingsAgreeWithoutDeletedFolders | src/controllers/v1/path.controller.ts:308-324 | the two listings agree when the user has no deleted folder |
| PathController.BinListingLosesFileOfLiveFolder | src/controllers/v1/path.controller.ts:308-324 | a deleted file of a live folder is missing from the listing as written |
| PathController.CreateCanvases | src/controllers/v1/path.controller.ts:501-516 | each canvas is stamped with the file's id and inserted in order; the first taken id stops the run with a 500 |
| PathController.FreshIdsStep | src/controllers/v1/path.controller.ts:501-516 | the ids of a list are fresh iff the head's is and the tail's are without it |
| PathController.CreateCanvasesFrame | src/controllers/v1/path.controller.ts:501-516 | creating pages never changes a stored page, and every new entry comes from the list |
| PathController.CreateCanvasesSucceedsIffFresh | src/controllers/v1/path.controller.ts:501-516 | creating pages succeeds exactly when the ids are fresh and pairwise distinct |
| PathController.CreateCanvasesResult | src/controllers/v1/path.controller.ts:501-516 | a successful run returns the stamped pages in input order, each stored under its id |
| PathController.UploadPages | src/controllers/v1/path.controller.ts:543 | an upload of n pages makes n blank pages numbered 1..n |
| PathController.UploadedPagesContiguous | src/controllers/v1/path.controller.ts:543-558 | a new upload whose pages were all created has exactly the pages 1..n |
| PathController.UserFileKeysDistinct | src/controllers/v1/path.controller.ts:530 | one user's uploads under different names get different keys |
| PathController.UploadFolder | src/controllers/v1/path.controller.ts:547-549 | an upload is filed under the given folder only when it is non-empty and not the string 'null' |
| PathController.UploadedFile | src/controllers/v1/path.controller.ts:540-552 | the uploaded file record carries the original name, the stored object's location and the schema defaults |
| PathController.PathController.RecycleBin | src/controllers/v1/path.controller.ts:295-349 | answers 200 with BinListing of the store |
| PathController.PathController.MoveToRecycleBin | src/controllers/v1/path.controller.ts:374-418 | a refused request changes nothing; type '1' guards then soft-deletes the folder, '2' the file, whatever the guard said |
| PathController.PathController.Recover | src/controllers/v1/path.controller.ts:443-485 | as moveToRecycleBin, with the id `String(req.query.id)`, recovering and answering 204 |
| PathController.PathController.DeleteFileByFileID | src/controllers/v1/path.controller.ts:122-149 | the guard signals but the delete always runs; an unknown id then fails with 500; a file with a link also gets a delete request for its stored object |
| PathController.PathController.RenameFolder | src/controllers/v1/path.controller.ts:209-240 | guard, then the rename regardless; 200 |
| PathController.PathController.DeleteFolderByFolderID | src/controllers/v1/path.controller.ts:242-269 | guard, then the cascading delete regardless; 204 |
| PathController.PathController.RenameFile | src/controllers/v1/path.controller.ts:271-293 | guard, then the file update regardless; 200 |
| PathController.PathController.CreateCanvasesForFile | src/controllers/v1/path.controller.ts:501-516 | the canvases and the answer are CreateCanvases'; a missing list creates nothing |
| PathController.PathController.CreateFile | src/controllers/v1/path.controller.ts:151-180 | the folder guard signals but does not stop the create; a request without a fileName or with a taken id is a 500 that stores nothing; otherwise the file then its pages are stored, 201 unless a page fails (500) |
| PathController.PathController.UploadFileToS3 | src/controllers/v1/path.controller.ts:526-571 | no file, no answer; a PDF that does not parse is a 500 before anything is sent; otherwise the object is sent to storage, and a rejected upload is a 500 that stores nothing; an answer without a location ends with no answer; with one the file and pages 1..numOfPages are created and the answer is 201 |
| CanvasModel.PageDown | src/repositories/v1/canvas.repository.ts:84 | `pageNo--` lowers the page number by one and changes nothing else |
| CanvasModel.ShiftPagesAfter | src/repositories/v1/canvas.repository.ts:78-90 | the file's canvases after the deleted page move down one; all others keep their page |
| CanvasModel.DeleteCanvas | src/repositories/v1/canvas.repository.ts:64-103 | an unknown id is a 404 and changes nothing; otherwise the page goes and exactly the later pages of its file move down one |
| CanvasModel.DeleteKeepsPagesContiguous | src/repositories/v1/canvas.repository.ts:82-90 | deleting a page of a file paged 1..n leaves it paged 1..n-1 |
| CanvasModel.DeleteKeepsPageOrder | src/repositories/v1/canvas.repository.ts:82-90 | surviving pages keep their relative order |
| CanvasModel.DeleteLeavesOtherFilesAlone | src/repositories/v1/canvas.repository.ts:78-86 | another file's pages are untouched |
| CanvasModel.DeleteMiddlePageScenario | src/repositories/v1/canvas.repository.ts:64-103 | deleting page 2 of 3 keeps page 1 and turns page 3 into page 2 |
| CanvasModel.IsCanvasOwnedByUser | src/repositories/v1/canvas.repository.ts:105-124 | true iff the canvas and its file exist and the file's owner as a string equals the caller |
| CanvasModel.CreateCanvasError | src/repositories/v1/canvas.repository.ts:36-43 | a duplicate key (11000/11001) becomes a 400 repository error, a cast failure a validation error, anything else is rethrown |
| CanvasModel.Synced | src/repositories/v1/canvas.repository.ts:47-54 | a sync overwrites exactly the fields the request carries |
| CanvasModel.SyncCanvas | src/repositories/v1/canvas.repository.ts:47-62 | only the canvas with the request's id changes, and it is returned; unknown id returns nothing |
| CanvasModel.SyncCanvasIdempotent | src/repositories/v1/canvas.repository.ts:47-62 | syncing the same request twice equals syncing once |
| CanvasRepository.CanvasRepository.CreateCanvas | src/repositories/v1/canvas.repository.ts:29-45 | a cast failure or taken id changes nothing and returns the mapped error; otherwise the canvas is stored |
| CanvasRepository.CanvasRepository.SyncCanvas | src/repositories/v1/canvas.repository.ts:47-62 | canvases and answer are SyncCanvas' |
| CanvasRepository.CanvasRepository.DeleteCanvasAndUpdatePageNumber | src/repositories/v1/canvas.repository.ts:64-103 | the renumbering loop leaves the canvases DeleteCanvas describes; unknown id is a 404 |
| CanvasRepository.CanvasRepository.IsCanvasOwnedByUser | src/repositories/v1/canvas.repository.ts:105-124 | the answer is IsCanvasOwnedByUser's |
| CanvasController.CanvasGuard | src/controllers/v1/canvas.controller.ts:90-108 | silent for an empty id; otherwise Forbidden exactly when the page's file is not the caller's |
| CanvasController.CreateCanvasReply | src/controllers/v1/canvas.controller.ts:31-47 | 201 on success; a repository error is a NotFoundError, anything else an InternalServerError |
| CanvasController.DuplicateCanvasIsReportedNotFound | src/controllers/v1/canvas.controller.ts:40-46 | a duplicate page id is answered NotFoundError, not a conflict |
| CanvasController.TemplatePatch | src/controllers/v1/canvas.controller.ts:55-58 | the file update carries only lastCanvasTemplate, taken from the request's canvasTemplate |
| CanvasController.SyncRequest | src/controllers/v1/canvas.controller.ts:49-70 | the file's template is updated first, then the page |
| CanvasController.SyncKeepsFileTemplateInStep | src/controllers/v1/canvas.controller.ts:55-58 | after a sync the file's last template equals the page's template |
| CanvasController.CanvasController.CreateCanvas | src/controllers/v1/canvas.controller.ts:31-47 | 201 and the page stored; 404 for a taken id; 500 for a cast failure, with nothing changed |
| CanvasController.CanvasController.SyncCanvas | src/controllers/v1/canvas.controller.ts:49-70 | the guard signals but the sync always runs and answers 200 |
| CanvasController.CanvasController.DeleteCanvas | src/controllers/v1/canvas.controller.ts:72-88 | the guard signals but the delete always runs; an unknown page is a 500; otherwise 204 |
| MarketplaceModel.RecentFilesSpec | src/repositories/v1/marketplace.repository.ts:12-23 | only approved listings of other users, newest first, at most `limit`; any matching listing left out is no newer than all returned ones |
| MarketplaceModel.RecentFilesDefaultLimit | src/repositories/v1/marketplace.repository.ts:14 | the default page holds at most ten listings, and ten when there are that many |
| MarketplaceModel.CourseNames | src/repositories/v1/marketplace.repository.ts:38-43 | one group key per course present, each once |
| MarketplaceModel.RecentFiles | src/repositories/v1/marketplace.repository.ts:12-23 | only approved listings of other users, and no more than the absolute limit when the limit is not 0 |
| MarketplaceModel.CategoryListings | src/repositories/v1/marketplace.repository.ts:25-36 | exactly the approved listings of other users whose courseName key exists (null included), newest first |
| MarketplaceModel.CategoryFiles | src/repositories/v1/marketplace.repository.ts:25-57 | at most six groups, each the course (or the null course) of some matching listing |
| MarketplaceModel.NullCourseIsGrouped | src/repositories/v1/marketplace.repository.ts:30 | `$exists` matches a stored null, so a listing on sale with a null course is grouped under the null course, shown whenever fewer than six groups are returned |
| MarketplaceModel.Groups | src/repositories/v1/marketplace.repository.ts:38-51 | one group per course, its files the course's listings sliced to `limit`, its count all of them |
| MarketplaceModel.ReturnedGroupWasBuilt | src/repositories/v1/marketplace.repository.ts:52-53 | every returned group is one of the built groups |
| MarketplaceModel.CourseCount | src/repositories/v1/marketplace.repository.ts:28-43 | a group's count is the number of matching listings of its course |
| MarketplaceModel.CourseMembers | src/repositories/v1/marketplace.repository.ts:28-40 | a group's listings are matching listings of its course, newest first |
| MarketplaceModel.SliceKeepsOrder | src/repositories/v1/marketplace.repository.ts:48 | a slice of a newest-first list is drawn from it and stays newest first |
| MarketplaceModel.CategoryGroupSpec | src/repositories/v1/marketplace.repository.ts:25-57 | each returned group counts its course, holds only approved, others', categorised listings of it, newest first, capped at `limit` |
| MarketplaceModel.SelectOfSelect | src/repositories/v1/marketplace.repository.ts:28-39 | matching then grouping by course equals one filter with both conditions |
| MarketplaceModel.SelectKeepsOrder | src/repositories/v1/marketplace.repository.ts:35-40 | grouping after the sort keeps each group newest first |
| MarketplaceModel.CategoryFilesOrdered | src/repositories/v1/marketplace.repository.ts:52-53 | at most six groups, largest first |
| MarketplaceModel.CategoryFilesDistinct | src/repositories/v1/marketplace.repository.ts:38-39 | no course is returned twice |
| MarketplaceModel.CategoryFilesTopSix | src/repositories/v1/marketplace.repository.ts:52-53 | a course left out means six groups were returned, each at least as large |
| MarketplaceModel.DistinctNamesSurviveSorting | src/repositories/v1/marketplace.repository.ts:52 | sorting groups by count keeps course names distinct |
| MarketplaceModel.UserUploads | src/repositories/v1/marketplace.repository.ts:139-153 | exactly the user's approved, pending and rejected listings |
| MarketplaceModel.FilesByStatus | src/repositories/v1/marketplace.repository.ts:180-189 | exactly the user's listings with that status |
| MarketplaceModel.UploadsAreThePublishedStatuses | src/repositories/v1/marketplace.repository.ts:139-153 | uploads never include a draft, and are the three other statuses together |
| MarketplaceModel.Upload | src/repositories/v1/marketplace.repository.ts:59-66 | a well-formed listing with fresh id and file is appended; anything else is UPLOAD_FAILED and changes nothing |
| MarketplaceModel.UploadKeepsListingsValid | src/models/v1/marketplace.model.ts:24-38 | uploads keep listings well formed with unique ids and fileIDs |
| MarketplaceModel.SecondListingOfAFileFails | src/models/v1/marketplace.model.ts:27 | a second listing for the same file is UPLOAD_FAILED |
| MarketplaceModel.Assigned | src/repositories/v1/marketplace.repository.ts:176 | `Object.assign` never changes the owner, the id or the creation time |
| MarketplaceModel.AssignedOverwritesOnlyGivenKeys | src/repositories/v1/marketplace.repository.ts:176 | for each of the eight listing keys: an absent key keeps the stored value, a given value replaces it, a given null replaces an optional path (a null status reads as no status); owner, id and creation time stay; an empty update changes nothing; assigning twice is assigning once |
| MarketplaceModel.Find | src/repositories/v1/marketplace.repository.ts:168 | findById finds the listing with that id, none exactly when absent |
| MarketplaceModel.Edit | src/repositories/v1/marketplace.repository.ts:163-178 | NO_FILE_FOUND for a missing listing, EDIT_UNAUTHORIZED for a non-owner; for the owner, a schema validation error when a required path is nulled or the assigned listing is malformed, a store error when it collides with another listing's fileID; succeeds exactly when none of these holds, and then stores and returns the assigned listing; every failure changes nothing |
| MarketplaceModel.EditKeepsListingsValid | src/repositories/v1/marketplace.repository.ts:163-178 | edits keep listings well formed with unique ids and fileIDs |
| MarketplaceModel.AddToCart | src/repositories/v1/marketplace.repository.ts:68-82 | a pair already in the cart is ALREADY_IN_CART and changes nothing; otherwise it is added |
| MarketplaceModel.RemoveFromCart | src/repositories/v1/marketplace.repository.ts:191-202 | only that pair goes |
| MarketplaceModel.CartRoundTrip | src/repositories/v1/marketplace.repository.ts:68-82 | add then remove restores the cart; adding twice fails the second time |
| MarketplaceModel.RemoveAbsentIsNoOp | src/repositories/v1/marketplace.repository.ts:191-197 | removing an absent pair changes nothing |
| MarketplaceRepository.MarketplaceRepository.UploadToMarketplace | src/repositories/v1/marketplace.repository.ts:59-66 | listings and answer are Upload's |
| MarketplaceRepository.MarketplaceRepository.AddToCart | src/repositories/v1/marketplace.repository.ts:68-82 | cart and answer are AddToCart's |
| MarketplaceRepository.MarketplaceRepository.RemoveFromCart | src/repositories/v1/marketplace.repository.ts:191-202 | the cart is RemoveFromCart's |
| MarketplaceRepository.MarketplaceRepository.UpdateMarketplaceFile | src/repositories/v1/marketplace.repository.ts:163-178 | listings and answer are Edit's |
| AdminModel.Page | src/repositories/v1/admin.repository.ts:13-19 | a negative skip is a store error; otherwise the page holds only records of the result set |
| AdminModel.SkipThenLimit | src/repositories/v1/admin.repository.ts:17-18 | skip then a positive limit is the window at the skip |
| AdminModel.PageIsSlice | src/repositories/v1/admin.repository.ts:13-19 | page p of a positive limit l holds the records at positions (p-1)*l up to p*l |
| AdminModel.PageBounds | src/repositories/v1/admin.repository.ts:13-19 | every page is a stretch of consecutive records |
| AdminModel.PageKeepsOrder | src/repositories/v1/admin.repository.ts:57-61 | a page of a newest-first result set is newest first |
| AdminModel.TotalPages | src/controllers/v1/admin.controller.ts:58 | `Math.ceil(total / limit)`: the least page count covering the total for a positive limit |
| AdminModel.EveryRecordIsOnAPage | src/controllers/v1/admin.controller.ts:58 | every record lies on a page within the reported page count |
| AdminModel.AllUsers | src/repositories/v1/admin.repository.ts:13-25 | a store error exactly for a negative skip; the total equals the number of positions holding a non-admin user |
| AdminModel.AllUsersSpec | src/repositories/v1/admin.repository.ts:12-23 | never shows an admin; the total equals the number of non-admin users |
| AdminModel.AllUsersCoversEveryUser | src/repositories/v1/admin.repository.ts:12-23 | every non-admin user appears on some reported page |
| AdminModel.AllAdmins | src/repositories/v1/admin.repository.ts:81-92 | a store error exactly for a negative skip; the total equals the number of positions holding an admin who is not a super admin |
| AdminModel.AllAdminsSpec | src/repositories/v1/admin.repository.ts:81-92 | never shows a super admin; the total equals the number of the other admins |
| AdminModel.AllRequests | src/repositories/v1/admin.repository.ts:45-67 | a store error exactly for a negative skip; with a status, the total equals the number of listings holding it |
| AdminModel.AllRequestsTotal | src/repositories/v1/admin.repository.ts:45-67 | fails only for a negative skip; with a status the total equals the number of listings holding it, without one it is every listing |
| AdminModel.AllRequestsPage | src/repositories/v1/admin.repository.ts:53-61 | a page holds listings of the requested status, newest first |
| AdminModel.NothingSelected | src/repositories/v1/admin.repository.ts:85 | a filter no record passes selects nothing |
| AdminModel.SelectAll | src/repositories/v1/admin.repository.ts:51-57 | an empty query keeps every record |
| AdminModel.PendingRequestsCount | src/repositories/v1/admin.repository.ts:38-43 | equals the number of positions holding a pending listing; zero iff none is pending |
| AdminModel.PendingCountMatchesRequestTotal | src/repositories/v1/admin.repository.ts:38-67 | the pending count is the total getAllRequests reports for PENDING |
| AdminModel.SelectSameFilter | src/repositories/v1/admin.repository.ts:39-40 | two filters that agree everywhere select the same records |
| AdminModel.UpdateUserStatus | src/repositories/v1/admin.repository.ts:25-36 | null for an unknown id and nothing changes; otherwise only that user's status changes and the updated user is returned |
| AdminModel.UpdateRequestStatus | src/repositories/v1/admin.repository.ts:69-79 | the same for a marketplace listing |
| AdminModel.ApprovingLowersPendingCount | src/repositories/v1/admin.repository.ts:38-79 | approving a pending request lowers the pending count by exactly one |
| AdminModel.SelectUpdateDrops | src/repositories/v1/admin.repository.ts:69-79 | replacing a matching record by a non-matching one removes one result |
| AdminModel.AddAdmin | src/repositories/v1/admin.repository.ts:99-114 | a missing name or email is a validation error; a taken email or id a store error; otherwise a non-super admin is appended |
| AdminModel.DeleteAdmin | src/repositories/v1/admin.repository.ts:94-97 | returns and removes the admin with that id, nothing for an unknown id |
| AdminModel.AddThenDeleteAdmin | src/repositories/v1/admin.repository.ts:94-114 | deleting an admin just added restores the list |
| AdminRepository.AdminRepository.UpdateUserStatus | src/repositories/v1/admin.repository.ts:25-36 | users and answer are UpdateUserStatus' |
| AdminRepository.AdminRepository.UpdateRequestStatus | src/repositories/v1/admin.repository.ts:69-79 | listings and answer are UpdateRequestStatus' |
| AdminRepository.AdminRepository.DeleteAdmin | src/repositories/v1/admin.repository.ts:94-97 | admins and answer are DeleteAdmin's |
| AdminRepository.AdminRepository.AddAdmin | src/repositories/v1/admin.repository.ts:99-114 | admins and answer are AddAdmin's |
| UserModel.FindByEmail | src/repositories/v1/user.repository.ts:55-62 | the first user with that email; none iff no user has it; an undefined email matches the first user |
| UserModel.Deserialize | src/repositories/v1/user.repository.ts:31-36 | the DTO read from a user never carries an expiry; a stored null code reads as unset |
| UserModel.FindAfterUpdate | src/repositories/v1/user.repository.ts:126-132 | rewriting the found user without changing its email keeps the lookup in place |
| UserModel.Persist | src/repositories/v1/user.repository.ts:126-140 | `$set` of a DTO never changes the id, status, admin flag or stored expiry; an undefined password or code keeps the stored one; a given code, null included, is written |
| UserModel.ReadByEmail | src/repositories/v1/user.repository.ts:55-62 | findByEmail answers the deserialised first match, or nothing |
| UserModel.CreateUser | src/repositories/v1/user.repository.ts:44-48 | a record the schema accepts with a fresh email and id is appended; otherwise nothing changes |
| UserModel.UpdateUserByEmail | src/repositories/v1/user.repository.ts:126-140 | only the first user with the DTO's email is rewritten |
| UserModel.UpdateNeverWritesExpiry | src/repositories/v1/user.repository.ts:126-140 | no update ever changes a stored expiry |
| UserModel.WriteBackWhatWasReadIsNoOp | src/repositories/v1/user.repository.ts:126-140 | writing back a DTO just read changes nothing |
| UserModel.DecimalString | src/controllers/v1/user.controller.ts:477 | `toString()` of a natural number gives decimal digits |
| UserModel.DecimalRoundTrip | src/controllers/v1/user.controller.ts:477 | reading the digits back gives the number |
| UserModel.SixDigits | src/controllers/v1/user.controller.ts:477 | numbers 100000..999999 have six digits |
| UserModel.DigitCount | src/controllers/v1/user.controller.ts:477 | a number below 10^(k+1) and at least 10^k has k+1 digits |
| UserModel.OtpCode | src/controllers/v1/user.controller.ts:477 | the code is six digits denoting 100000 + draw |
| UserModel.OtpMatches | src/controllers/v1/user.controller.ts:582 | a stored null code never matches; a missing code matches only a missing stored code; a sent code matches only that same stored code |
| UserModel.NewUser | src/models/v1/user.model.ts:23-53 | a new user is active, not an admin, without expiry; its id is the body's `_id` if given, else the store's; it holds a code exactly when the body carried one, and is verified exactly when the body said `otpVerified: true` |
| UserModel.StoredPassword | src/controllers/v1/user.controller.ts:107-110 | a password is stored exactly when one was sent; hashed for an 'email' registration, as sent otherwise |
| UserModel.Signup | src/controllers/v1/user.controller.ts:73-127 | invalid requests get 400; a taken email is a ConflictError; 201 exactly when the request is valid, the new user passes the schema, an 'email' registration carries a password, and neither the email nor the user's id is taken; it then appends the user with its stored password; every failure changes nothing |
| UserModel.Login | src/controllers/v1/user.controller.ts:138-181 | unknown email is NotFoundError; 200 iff the user is not an 'email' user or a password was sent and matches the stored hash; a mismatch is WRONG_PASSWORD; an 'email' user without a stored hash, or a request without a password, is an internal error |
| UserModel.SignupThenLogin | src/controllers/v1/user.controller.ts:73-181 | after signing up with an email and password, login with that password succeeds |
| UserModel.UpdatePassword | src/controllers/v1/user.controller.ts:303-343 | 200 exactly when the body carries a password, the user is found, has a password and the new one does not match it, and then only its hash changes; a matching password is SAME_AS_OLD_PASSWORD; a body without a password, an unknown user or one without a stored password is an internal error; failures change nothing |
| UserModel.ResetPassword | src/controllers/v1/user.controller.ts:380-459 | invalid body is 400; a missing token, or one for another email, is INVALID_TOKEN; a token that does not verify an internal error; an unknown user or one without a password PASSWORD_NOT_FOUND; the same password SAME_AS_OLD_PASSWORD; 200 only with a token for that email and a changed password, whose hash is stored; failures change nothing |
| UserModel.ForgotPassword | src/controllers/v1/user.controller.ts:461-495 | unknown or Google users are USER_NOT_FOUND; otherwise a six-digit code is stored and returned |
| UserModel.VerifyOtp | src/controllers/v1/user.controller.ts:563-614 | refused only when both otp and email are missing; no answer for an unknown user; INVALID_OTP on a mismatch; on success the code is cleared and otpVerified is false |
| UserModel.OtpIsSingleUse | src/controllers/v1/user.controller.ts:600-604 | after a successful verification the same code is refused |
| UserModel.OtpNeverExpires | src/controllers/v1/user.controller.ts:478-481 | as written, a code is still accepted after its five minutes |
| UserModel.IntendedDeserialize | src/dto/v1/common/user.dto.ts:54-55 | the intended read carries the stored expiry |
| UserModel.IntendedUpdateUserByEmail | src/repositories/v1/user.repository.ts:126-140 | the intended write keeps the list's length and writes the expiry |
| UserModel.IntendedWriteBackIsNoOp | src/repositories/v1/user.repository.ts:126-140 | the intended write-back of a read changes nothing |
| UserModel.IntendedUpdateWritesExpiry | src/models/v1/user.model.ts:39 | the intended write stores a given expiry, clears it on null and keeps it when unset |
| UserModel.IntendedForgotPassword | src/controllers/v1/user.controller.ts:477-488 | the intended issue stores the code and an expiry five minutes ahead |
| UserModel.IntendedVerifyOtp | src/controllers/v1/user.controller.ts:570-604 | the intended verification needs both code and email, and accepts only the stored, unexpired code |
| UserModel.IntendedOtpExpires | src/controllers/v1/user.controller.ts:478-595 | as intended, a code is accepted within five minutes and refused as expired after |
| UserModel.VerifyWithoutCodeSucceeds | src/controllers/v1/user.controller.ts:570-582 | as written, a request with an email and no code succeeds for a user holding no code |
| UserModel.IntendedVerifyNeedsCode | src/controllers/v1/user.controller.ts:570-579 | as intended, a request without a code is refused and changes nothing |
| UserRepository.UserRepository.FindByEmail | src/repositories/v1/user.repository.ts:55-62 | the answer is ReadByEmail's |
| UserRepository.UserRepository.Create | src/repositories/v1/user.repository.ts:44-48 | users and answer are CreateUser's |
| UserRepository.UserRepository.UpdateUserByEmail | src/repositories/v1/user.repository.ts:126-140 | users become UpdateUserByEmail's |
| UserController.UserController.Signup | src/controllers/v1/user.controller.ts:73-127 | users and answer are Signup's |
| UserController.UserController.Login | src/controllers/v1/user.controller.ts:138-181 | the answer is Login's; nothing changes |
| UserController.UserController.UpdatePassword | src/controllers/v1/user.controller.ts:303-343 | users and answer are UpdatePassword's |
| UserController.UserController.ResetPassword | src/controllers/v1/user.controller.ts:380-459 | users and answer are ResetPassword's |
| UserController.UserController.ForgotPassword | src/controllers/v1/user.controller.ts:461-495 | users, answer and code are ForgotPassword's |
| UserController.UserController.VerifyOtp | src/controllers/v1/user.controller.ts:563-614 | users and answer are VerifyOtp's |

## Left out

- Object storage, e-mail, Stripe, Apple receipts and the chat service are network calls. The only storage effect modelled is the log of upload and delete requests sent. A delete is not awaited, so its outcome is not modelled; an upload is awaited, and its outcome (rejected, or resolved with or without a location) is a parameter.
- bcrypt, jsonwebtoken, `Math.random`, `new Date()` and pdf-parse are parameters. Signing the reset token in verifyOTP and the login JWT are not modelled.
- Joi request validation is the boolean `valid`. Its rules (src/validation/auth.validation.ts) are not restated.
- ObjectId casts are not modelled: ids are opaque strings. So a malformed id never raises a cast error, and `page`/`limit` arriving as non-numbers (NaN paging) is out of scope.
- Ties in a sort are left out. Mongoose leaves the order of records with equal `createdAt` or `count` unspecified, while the model's insertion sort fixes one order. The contracts constrain only the order between different keys.
- The default `limit` of 10 for getCategoryFiles is not modelled: CategoryFiles takes `limit` as an argument.
- The OTP echoed in forgotPassword's JSON answer, and the e-mail carrying it, are only modelled as the returned code.
- The wallet, getUserStorage, getThumbnailPreview, getPlan and the storage tally are left out. So are the marketplace aggregations getCartItems, getUserSalesData and searchMarketplaceFiles, and purchase history.
- Thin handlers that only forward to a modelled repository method with no decision of their own are not modelled as controller methods: recoverAll, emptyBin, getAllPathsByUserID, getFileByFileID and createFolder in the path controller.
- The admin and marketplace controllers are outside this model; only their repositories are modelled. Their own decisions are therefore not modelled: a status update without a status is 400 and one for an unknown id 404 (src/controllers/v1/admin.controller.ts:76-90, 182-196); a missing fileID is 400 and ALREADY_IN_CART becomes 409 (src/controllers/v1/marketplace.controller.ts:62-67, 124-131); a missing listingId is 400 (src/controllers/v1/marketplace.controller.ts:202-208, 246-251).
- Mongoose 6 or later is assumed: a key whose value is undefined is dropped from a `$set` and from a query filter. PathModel.Patched, UserModel.Persist and UserModel.FindByEmail (an undefined email matches every user) depend on this.
- The user schema has no `admin` path (src/models/v1/user.model.ts:23-48). So getAllUsers' `admin: { $ne: true }` excludes only records written outside the schema, and only when strictQuery lets the filter through. The model keeps `admin` as a stored flag and filters on it.
- A signup body may carry unknown keys (src/validation/auth.validation.ts:12). The model covers the `_id`, `otp` and `otpVerified` keys the UserDTO keeps. Other unknown keys are dropped by the DTO and not modelled.
- Marketplace listings keep only the keys the core reads and writes. bgColor, university, type and previewCanvases are not modelled, nor is an edit body carrying them. An edit body carrying `_id` or createdAt is not modelled either: ListingPatch has only the eight listing keys.
- A listing whose status is missing or null is modelled with the status "". No modelled query filters on "", so it behaves as a status no filter selects.
- A canvas without a fileID is not modelled: Canvas.fileID is mandatory in the model, though the schema allows it to be absent. For such a canvas, deleteCanvasAndUpdatePageNumber's `find({ fileID: undefined })` would renumber pages across files.
- Express routing, the auth middleware, serializer classes other than the user DTO, and schema boilerplate are not modelled. Schemas are used for their defaults, their unique indexes and their required paths (folderName, fileName; a listing's title, fileID and price; a user's names and email, and its registerType enum; an admin's names and email), not for their other validators.
- Concurrency and partial failure are not modelled: every repository method is one atomic step.
- UserModel.UpdatePassword: it finds the user by id in the store, standing in for the document the auth middleware attached to the request.

## Findings

| source | as written | input that shows it | evidently intended | confidence | as-written member | corrected member |
|---|---|---|---|---|---|---|
| src/controllers/v1/path.controller.ts:308-324 | the `some` callback never returns true, so once the user has a deleted folder, every deleted file that has a folder is dropped from the bin listing | folder "d1" deleted, file "f" under live folder "d2" deleted on its own: "f" is in neither the bin listing nor the live tree | list a deleted file unless its own folder is in the bin | not executed | PathController.BinListingLosesFileOfLiveFolder | PathController.IntendedBinListing |
| src/repositories/v1/path.repository.ts:375-397 | emptyBin deletes only when some deleted file has a canvas | a deleted folder and a deleted file with no canvases: nothing is deleted | delete every deleted folder and file of the user, and their canvases | not executed | PathModel.HardDeleteAllKeepsCanvaslessBin | PathModel.PurgeBin |
| src/controllers/v1/user.controller.ts:478-481 | the DTO's `otpExpiration` is not the schema's `otExpiration`, so the expiry is never stored or read and a code never expires | forgotPassword at time t, verifyOTP with that code at t + 5 min + 1 ms: accepted | refuse a code more than five minutes old | not executed | UserModel.OtpNeverExpires | UserModel.IntendedOtpExpires |
| src/controllers/v1/user.controller.ts:570-582 | only a request missing both otp and email is refused, and an absent otp equals an absent stored code | verifyOTP with an email and no otp, for a user who never asked for a code or already used one: 200 with a reset token | require both otp and email | not executed | UserModel.VerifyWithoutCodeSucceeds | UserModel.IntendedVerifyNeedsCode |

=== FILE: admin_model.dfy ===
/**
 * The admin back office, as values: paged lists of users, admins and
 * marketplace requests with their totals, the page count the controller
 * reports, and the status updates, admin creation and admin deletion.
 */
module AdminModel {
  import opened Wrappers
  import opened Documents
  import opened Errors
  import opened Query
  import MarketplaceModel

  /**
   * One page of a result set: `skip((page - 1) * limit)` then
   * `limit(limit)`. The store refuses a negative skip.
   */
  function Page<T(!new)>(s: seq<T>, page: int, limit: int): (r: Result<seq<T>, RepoError>)
    ensures r.Err? <==> (page - 1) * limit < 0
    ensures r.Err? ==> r.error == StoreError
    ensures r.Ok? ==> forall x :: x in r.value ==> x in s
  {
    var skip := (page - 1) * limit;
    if skip < 0 then Err(StoreError)
    else
      var rest := Skip(s, skip);
      assert forall x :: x in rest ==> x in s by {
        assert s == s[..|s| - |rest|] + rest;
      }
      Ok(Limit(rest, limit))
  }

  /** The records at positions lo up to lo + n, as far as there are any. */
  function Window<T>(s: seq<T>, lo: nat, n: nat): seq<T>
  {
    var from := if lo < |s| then lo else |s|;
    var to := if from + n < |s| then from + n else |s|;
    s[from..to]
  }

  /** Skipping lo records and then taking a positive number n of them is the window at lo. */
  lemma SkipThenLimit<T(!new)>(s: seq<T>, lo: nat, n: int)
    requires n > 0
    ensures Limit(Skip(s, lo), n) == Window(s, lo, n)
  {
    var from := if lo < |s| then lo else |s|;
    assert Skip(s, lo) == s[from..];
    if from + n < |s| {
      assert s[from..][..n] == s[from..from + n];
    }
  }

  /** For a positive limit, page `page` (from 1) holds the records at positions (page-1)*limit up to page*limit. */
  lemma PageIsSlice<T(!new)>(s: seq<T>, page: int, limit: int)
    requires limit > 0 && page >= 1
    ensures (page - 1) * limit >= 0
    ensures Page(s, page, limit) == Ok(Window(s, (page - 1) * limit, limit))
  {
    var skip := (page - 1) * limit;
    assert skip >= 0 by {
      assert page - 1 >= 0;
    }
    SkipThenLimit(s, skip, limit);
  }

  /** Any page that exists is a stretch of consecutive records. */
  lemma PageBounds<T(!new)>(s: seq<T>, page: int, limit: int) returns (lo: nat, hi: nat)
    requires Page(s, page, limit).Ok?
    ensures lo <= hi <= |s| && Page(s, page, limit).value == s[lo..hi]
  {
    var rest := Skip(s, (page - 1) * limit);
    lo := |s| - |rest|;
    hi := lo + |Limit(rest, limit)|;
    assert rest == s[lo..];
  }

  /** A page of a sorted result set is sorted. */
  lemma PageKeepsOrder<T(!new)>(s: seq<T>, page: int, limit: int, key: T -> int)
    requires SortedDesc(s, key) && Page(s, page, limit).Ok?
    ensures SortedDesc(Page(s, page, limit).value, key)
  {
    var lo, hi := PageBounds(s, page, limit);
    var r := s[lo..hi];
    assert forall i :: 0 <= i < |r| ==> r[i] == s[lo + i];
  }

  /**
   * totalPages: `Math.ceil(total / limit)`. A zero limit divides by zero,
   * which the response serialises as null; a negative limit gives a page
   * count of zero or below.
   */
  function TotalPages(total: nat, limit: int): (r: Option<int>)
    ensures limit == 0 <==> r.None?
    ensures limit > 0 ==> r.value >= 0 && r.value * limit >= total && (r.value - 1) * limit < total
    ensures limit < 0 ==> r.value <= 0
  {
    if limit == 0 then None
    else if limit > 0 then
      var q := (total + limit - 1) / limit;
      assert q * limit + (total + limit - 1) % limit == total + limit - 1;
      Some(q)
    else Some(-(total / -limit))
  }

  /** Every record of a result set lies on a page the reported page count includes. */
  lemma {:induction false} EveryRecordIsOnAPage<T(!new)>(s: seq<T>, limit: int, k: nat)
    requires limit > 0 && k < |s|
    ensures var page := k / limit + 1;
            1 <= page <= TotalPages(|s|, limit).value
            && Page(s, page, limit).Ok? && k % limit < |Page(s, page, limit).value|
            && Page(s, page, limit).value[k % limit] == s[k]
  {
    var page := k / limit + 1;
    PageOfIndex(k, limit, |s|);
    PageIsSlice(s, page, limit);
  }

  /** The page of record k is within the page count, and k is at offset k % limit on it. */
  lemma PageOfIndex(k: nat, limit: int, total: nat)
    requires limit > 0 && k < total
    ensures 1 <= k / limit + 1 <= TotalPages(total, limit).value
    ensures (k / limit) * limit + k % limit == k && 0 <= k % limit < limit
  {
  }

  /** getAllUsers' filter: `admin: { $ne: true }`. */
  predicate NotAdmin(u: User) { !u.admin }

  /** getAllUsers: a page of the users who are not admins, and how many such users there are. */
  function AllUsers(users: seq<User>, page: int, limit: int): (r: Result<(seq<User>, nat), RepoError>)
    ensures r.Err? <==> (page - 1) * limit < 0
    ensures r.Ok? ==> r.value.1 == |set i | 0 <= i < |users| && !users[i].admin|
  {
    var filtered := Select(users, NotAdmin);
    SelectCountsPositions(users, NotAdmin);
    assert Positions(users, NotAdmin) == set i | 0 <= i < |users| && !users[i].admin;
    var data := Page(filtered, page, limit);
    if data.Err? then Err(data.error) else Ok((data.value, |filtered|))
  }

  /**
   * getAllUsers shows no admin; its total is the number of users who are not
   * admins; and with a positive limit, each of them is on one of the
   * reported pages.
   */
  lemma AllUsersSpec(users: seq<User>, page: int, limit: int)
    ensures AllUsers(users, page, limit).Err? <==> (page - 1) * limit < 0
    ensures AllUsers(users, page, limit).Ok? ==>
              var (data, total) := AllUsers(users, page, limit).value;
              (forall u :: u in data ==> u in users && !u.admin)
              && total == |set i | 0 <= i < |users| && !users[i].admin|
              && total <= |users|
              && (forall u :: u in users && !u.admin ==> total > 0)
  {
  }

  lemma AllUsersCoversEveryUser(users: seq<User>, limit: int, u: User)
    requires limit > 0 && u in users && !u.admin
    ensures var total := |Select(users, NotAdmin)|;
            exists page :: 1 <= page <= TotalPages(total, limit).value
              && AllUsers(users, page, limit).Ok? && u in AllUsers(users, page, limit).value.0
  {
    var filtered := Select(users, NotAdmin);
    var k :| 0 <= k < |filtered| && filtered[k] == u;
    EveryRecordIsOnAPage(filtered, limit, k);
    var page := k / limit + 1;
    assert u in AllUsers(users, page, limit).value.0;
  }

  /** getAllAdmins' filter: `superAdmin: { $ne: true }`. */
  predicate NotSuperAdmin(a: Admin) { !a.superAdmin }

  /** getAllAdmins: a page of the admins who are not super admins, and how many such admins there are. */
  function AllAdmins(admins: seq<Admin>, page: int, limit: int): (r: Result<(seq<Admin>, nat), RepoError>)
    ensures r.Err? <==> (page - 1) * limit < 0
    ensures r.Ok? ==> r.value.1 == |set i | 0 <= i < |admins| && !admins[i].superAdmin|
  {
    var filtered := Select(admins, NotSuperAdmin);
    SelectCountsPositions(admins, NotSuperAdmin);
    assert Positions(admins, NotSuperAdmin) == set i | 0 <= i < |admins| && !admins[i].superAdmin;
    var data := Page(filtered, page, limit);
    if data.Err? then Err(data.error) else Ok((data.value, |filtered|))
  }

  /** getAllAdmins never shows a super admin, and its total counts exactly the others. */
  lemma AllAdminsSpec(admins: seq<Admin>, page: int, limit: int)
    ensures AllAdmins(admins, page, limit).Err? <==> (page - 1) * limit < 0
    ensures AllAdmins(admins, page, limit).Ok? ==>
              var (data, total) := AllAdmins(admins, page, limit).value;
              (forall a :: a in data ==> a in admins && !a.superAdmin)
              && total == |set i | 0 <= i < |admins| && !admins[i].superAdmin|
              && total <= |admins|
              && (forall a :: a in admins && !a.superAdmin ==> total > 0)
    ensures (forall a :: a in admins ==> a.superAdmin) && AllAdmins(admins, page, limit).Ok? ==>
              AllAdmins(admins, page, limit).value == ([], 0)
  {
    if (forall a :: a in admins ==> a.superAdmin) && AllAdmins(admins, page, limit).Ok? {
      var filtered := Select(admins, NotSuperAdmin);
      NothingSelected(admins, NotSuperAdmin);
    }
  }

  /** getAllRequests' filter: a status is applied only when it is given and non-empty. */
  function RequestFilter(status: Option<string>): Listing -> bool
  {
    (l: Listing) => !Truthy(status) || l.status == status.value
  }

  /** getAllRequests: a page of the matching listings, newest first, and how many listings match. */
  function AllRequests(listings: seq<Listing>, page: int, limit: int, status: Option<string>): (r: Result<(seq<Listing>, nat), RepoError>)
    ensures r.Err? <==> (page - 1) * limit < 0
    ensures r.Ok? && Truthy(status) ==> r.value.1 == |set i | 0 <= i < |listings| && listings[i].status == status.value|
  {
    var filtered := Select(listings, RequestFilter(status));
    RequestTotal(listings, status);
    var data := Page(SortDesc(filtered, MarketplaceModel.CreatedAt), page, limit);
    if data.Err? then Err(data.error) else Ok((data.value, |filtered|))
  }

  /**
   * getAllRequests fails only for a negative skip; with a status its total
   * is the number of listings of that status, without one it is every listing.
   */
  lemma AllRequestsTotal(listings: seq<Listing>, page: int, limit: int, status: Option<string>)
    ensures AllRequests(listings, page, limit, status).Err? <==> (page - 1) * limit < 0
    ensures AllRequests(listings, page, limit, status).Ok? ==> AllRequests(listings, page, limit, status).value.1 <= |listings|
    ensures Truthy(status) && AllRequests(listings, page, limit, status).Ok? ==>
              AllRequests(listings, page, limit, status).value.1 == |set i | 0 <= i < |listings| && listings[i].status == status.value|
    ensures !Truthy(status) && AllRequests(listings, page, limit, status).Ok? ==>
              AllRequests(listings, page, limit, status).value.1 == |listings|
  {
    if !Truthy(status) {
      SelectAll(listings, RequestFilter(status));
    }
  }

  /** With a status given, getAllRequests' filter passes as many listings as have that status. */
  lemma RequestTotal(listings: seq<Listing>, status: Option<string>)
    ensures Truthy(status) ==>
              |Select(listings, RequestFilter(status))| == |set i | 0 <= i < |listings| && listings[i].status == status.value|
  {
    SelectCountsPositions(listings, RequestFilter(status));
    if Truthy(status) {
      assert Positions(listings, RequestFilter(status)) == set i | 0 <= i < |listings| && listings[i].status == status.value;
    }
  }

  /** A page of getAllRequests holds listings of the requested status, newest first. */
  lemma AllRequestsPage(listings: seq<Listing>, page: int, limit: int, status: Option<string>)
    requires AllRequests(listings, page, limit, status).Ok?
    ensures var data := AllRequests(listings, page, limit, status).value.0;
            (forall l :: l in data ==> l in listings && (Truthy(status) ==> l.status == status.value))
            && SortedDesc(data, MarketplaceModel.CreatedAt)
  {
    var filtered := Select(listings, RequestFilter(status));
    var sorted := SortDesc(filtered, MarketplaceModel.CreatedAt);
    var data := AllRequests(listings, page, limit, status).value.0;
    forall l | l in data
      ensures l in listings && (Truthy(status) ==> l.status == status.value)
    {
      assert l in multiset(sorted);
      assert RequestFilter(status)(l);
    }
    PageKeepsOrder(sorted, page, limit, MarketplaceModel.CreatedAt);
  }

  /** A filter no record passes selects nothing. */
  lemma NothingSelected<T(!new)>(s: seq<T>, p: T -> bool)
    requires forall x :: x in s ==> !p(x)
    ensures Select(s, p) == []
  {
  }

  /** A filter every record passes keeps them all. */
  lemma {:induction false} SelectAll<T(!new)>(s: seq<T>, p: T -> bool)
    requires forall x :: p(x)
    ensures Select(s, p) == s
  {
    if s != [] {
      SelectAll(s[1..], p);
    }
  }

  predicate IsPending(l: Listing) { l.status == PENDING }

  /** getPendingRequestsCount: the listings awaiting review. */
  function PendingRequestsCount(listings: seq<Listing>): (n: nat)
    ensures n <= |listings|
    ensures n == 0 <==> forall l :: l in listings ==> l.status != PENDING
    ensures n == |set i | 0 <= i < |listings| && listings[i].status == PENDING|
  {
    var pending := Select(listings, IsPending);
    SelectCountsPositions(listings, IsPending);
    assert Positions(listings, IsPending) == set i | 0 <= i < |listings| && listings[i].status == PENDING;
    assert |pending| == 0 <== forall l :: l in listings ==> l.status != PENDING by {
      if |pending| > 0 {
        assert pending[0] in pending;
      }
    }
    |pending|
  }

  /** The pending count is the total getAllRequests reports for the status PENDING. */
  lemma PendingCountMatchesRequestTotal(listings: seq<Listing>, limit: int)
    requires limit >= 0
    ensures AllRequests(listings, 1, limit, Some(PENDING)).Ok?
    ensures AllRequests(listings, 1, limit, Some(PENDING)).value.1 == PendingRequestsCount(listings)
  {
    SelectSameFilter(listings, RequestFilter(Some(PENDING)), IsPending);
  }

  /** Two filters that agree everywhere select the same records. */
  lemma {:induction false} SelectSameFilter<T(!new)>(s: seq<T>, p: T -> bool, q: T -> bool)
    requires forall x :: p(x) == q(x)
    ensures Select(s, p) == Select(s, q)
  {
    if s != [] {
      SelectSameFilter(s[1..], p, q);
    }
  }

  function UserWithId(id: Id): User -> bool
  {
    (u: User) => u.id == id
  }

  function AdminWithId(id: Id): Admin -> bool
  {
    (a: Admin) => a.id == id
  }

  /**
   * updateUserStatus (`findByIdAndUpdate` with `$set: { status }` and
   * `new: true`): the updated user, or nothing for an unknown id.
   */
  function UpdateUserStatus(users: seq<User>, id: Id, status: string): (r: (seq<User>, Option<User>))
    ensures r.1.None? <==> forall u :: u in users ==> u.id != id
    ensures r.1.None? ==> r.0 == users
    ensures r.1.Some? ==> |r.0| == |users|
    ensures r.1.Some? ==> exists i :: (0 <= i < |users| && users[i].id == id
              && r.1.value == users[i].(status := status) && r.0 == users[i := r.1.value])
  {
    match IndexWhere(users, UserWithId(id))
    case None => (users, None)
    case Some(i) =>
      var updated := users[i].(status := status);
      (users[i := updated], Some(updated))
  }

  /** updaterequestStatus: the same update on a marketplace listing. */
  function UpdateRequestStatus(listings: seq<Listing>, id: Id, status: string): (r: (seq<Listing>, Option<Listing>))
    ensures r.1.None? <==> forall l :: l in listings ==> l.id != id
    ensures r.1.None? ==> r.0 == listings
    ensures r.1.Some? ==> |r.0| == |listings|
    ensures r.1.Some? ==> exists i :: (0 <= i < |listings| && listings[i].id == id
              && r.1.value == listings[i].(status := status) && r.0 == listings[i := r.1.value])
  {
    match MarketplaceModel.Find(listings, id)
    case None => (listings, None)
    case Some(i) =>
      var updated := listings[i].(status := status);
      (listings[i := updated], Some(updated))
  }

  /** Approving a pending request takes exactly it out of the pending count (listing ids are unique in the store). */
  lemma ApprovingLowersPendingCount(listings: seq<Listing>, id: Id)
    requires MarketplaceModel.ListingsValid(listings)
    requires exists l :: l in listings && l.id == id && l.status == PENDING
    ensures PendingRequestsCount(UpdateRequestStatus(listings, id, APPROVED).0) == PendingRequestsCount(listings) - 1
  {
    var i := MarketplaceModel.Find(listings, id).value;
    var l :| l in listings && l.id == id && l.status == PENDING;
    var j :| 0 <= j < |listings| && listings[j] == l;
    assert i == j;
    SelectUpdateDrops(listings, IsPending, i, listings[i].(status := APPROVED));
  }

  /** Replacing a record that passes a filter by one that does not removes one result. */
  lemma {:induction false} SelectUpdateDrops<T(!new)>(s: seq<T>, p: T -> bool, i: nat, u: T)
    requires i < |s| && p(s[i]) && !p(u)
    ensures |Select(s[i := u], p)| == |Select(s, p)| - 1
  {
    if i == 0 {
      assert s[i := u][1..] == s[1..];
    } else {
      assert s[i := u][1..] == s[1..][i - 1 := u];
      SelectUpdateDrops(s[1..], p, i - 1, u);
    }
  }

  /**
   * addAdmin: first name, last name and email are required (empty strings
   * fail the schema); an email already in use breaks the unique index. The
   * new admin is never a super admin.
   */
  function AddAdmin(admins: seq<Admin>, id: Id, firstName: string, lastName: string, email: string,
                    password: Option<string>): (r: (seq<Admin>, Result<Admin, RepoError>))
    ensures r.1.Err? ==> r.0 == admins
    ensures firstName == "" || lastName == "" || email == "" ==> r.1 == Err(SchemaValidationError)
    ensures r.1.Ok? <==> firstName != "" && lastName != "" && email != ""
                         && forall a :: a in admins ==> a.email != email && a.id != id
    ensures r.1.Ok? ==> !r.1.value.superAdmin && r.0 == admins + [r.1.value]
  {
    if firstName == "" || lastName == "" || email == "" then (admins, Err(SchemaValidationError))
    else if exists a :: a in admins && (a.email == email || a.id == id) then (admins, Err(StoreError))
    else
      var admin := Admin(id, firstName, lastName, email, password, false);
      (admins + [admin], Ok(admin))
  }

  /** deleteAdmin (`findByIdAndDelete`): the deleted admin, or nothing for an unknown id. */
  function DeleteAdmin(admins: seq<Admin>, id: Id): (r: (seq<Admin>, Option<Admin>))
    ensures r.1.None? <==> forall a :: a in admins ==> a.id != id
    ensures r.1.None? ==> r.0 == admins
    ensures r.1.Some? ==> r.1.value in admins && r.1.value.id == id && |r.0| == |admins| - 1
    ensures forall a :: a in r.0 ==> a in admins
  {
    match IndexWhere(admins, AdminWithId(id))
    case None => (admins, None)
    case Some(i) => (admins[..i] + admins[i + 1..], Some(admins[i]))
  }

  /** An admin just added can be deleted again, which restores the list. */
  lemma AddThenDeleteAdmin(admins: seq<Admin>, id: Id, firstName: string, lastName: string, email: string,
                           password: Option<string>)
    requires AddAdmin(admins, id, firstName, lastName, email, password).1.Ok?
    ensures var (added, r) := AddAdmin(admins, id, firstName, lastName, email, password);
            DeleteAdmin(added, id) == (admins, Some(r.value))
  {
    var (added, r) := AddAdmin(admins, id, firstName, lastName, email, password);
    var found := IndexWhere(added, AdminWithId(id));
    assert AdminWithId(id)(added[|admins|]);
    assert added[|admins|] in added;
    var i := found.value;
    assert i == |admins|;
    assert added[..|admins|] == admins && added[|admins| + 1..] == [];
    assert added[i] == r.value;
    assert DeleteAdmin(added, id).1 == Some(r.value);
    assert DeleteAdmin(added, id).0 == added[..i] + added[i + 1..] == admins;
  }
}

=== FILE: admin_repository.dfy ===
/**
 * The admin repository's writes on the document store; its paged reads are
 * the AdminModel functions.
 */
module AdminRepository {
  import opened Wrappers
  import opened Documents
  import opened Errors
  import opened Query
  import opened AdminModel

  class AdminRepository {
    const db: DocumentStore

    constructor (db: DocumentStore)
      ensures this.db == db
    {
      this.db := db;
    }

    method UpdateUserStatus(id: Id, status: string) returns (users: Option<User>)
      modifies db
      ensures (db.users, users) == AdminModel.UpdateUserStatus(old(db.users), id, status)
      ensures db.State() == old(db.State()).(users := db.users)
    {
      var found := IndexWhere(db.users, UserWithId(id));
      if found.None? {
        return None;
      }
      var updated := db.users[found.value].(status := status);
      db.users := db.users[found.value := updated];
      users := Some(updated);
    }

    method UpdateRequestStatus(id: Id, status: string) returns (updated: Option<Listing>)
      modifies db
      ensures (db.listings, updated) == AdminModel.UpdateRequestStatus(old(db.listings), id, status)
      ensures db.State() == old(db.State()).(listings := db.listings)
    {
      var found := MarketplaceModel.Find(db.listings, id);
      if found.None? {
        return None;
      }
      var listing := db.listings[found.value].(status := status);
      db.listings := db.listings[found.value := listing];
      updated := Some(listing);
    }

    method DeleteAdmin(id: Id) returns (deletedAdmin: Option<Admin>)
      modifies db
      ensures (db.admins, deletedAdmin) == AdminModel.DeleteAdmin(old(db.admins), id)
      ensures db.State() == old(db.State()).(admins := db.admins)
    {
      var found := IndexWhere(db.admins, AdminWithId(id));
      if found.None? {
        return None;
      }
      var i := found.value;
      deletedAdmin := Some(db.admins[i]);
      db.admins := db.admins[..i] + db.admins[i + 1..];
    }

    /** addAdmin: `id` is the `_id` the store assigns to the new record. */
    method AddAdmin(id: Id, firstName: string, lastName: string, email: string, password: Option<string>)
      returns (savedAdmin: Result<Admin, RepoError>)
      modifies db
      ensures (db.admins, savedAdmin) == AdminModel.AddAdmin(old(db.admins), id, firstName, lastName, email, password)
      ensures db.State() == old(db.State()).(admins := db.admins)
    {
      if firstName == "" || lastName == "" || email == "" {
        return Err(SchemaValidationError);
      }
      if exists a :: a in db.admins && (a.email == email || a.id == id) {
        return Err(StoreError);
      }
      var newAdmin := Admin(id, firstName, lastName, email, password, false);
      db.admins := db.admins + [newAdmin];
      savedAdmin := Ok(newAdmin);
    }
  }
}

=== FILE: canvas_controller.dfy ===
/**
 * The canvas controller: the ownership guard for pages, page creation with
 * its error mapping, sync (file template first, then the page), and delete.
 * Like the path guards, the canvas guard only signals.
 */
module CanvasController {
  import opened Wrappers
  import opened Documents
  import opened Errors
  import opened PathModel
  import opened CanvasModel
  import opened PathRepository
  import opened CanvasRepository

  /** validateCanvasAccess: silent for an empty id; otherwise Forbidden unless the page's file is the caller's. */
  function CanvasGuard(db: Db, canvasID: Option<Id>, userID: Id): (signalled: seq<ApiError>)
    ensures signalled == [] || signalled == [ForbiddenError(NoAccessCanvas)]
    ensures signalled != [] <==> Truthy(canvasID) && !IsCanvasOwnedByUser(db, canvasID.value, userID)
    ensures (userID != "undefined" && Truthy(canvasID) && canvasID.value in db.canvases
             && db.canvases[canvasID.value].fileID in db.files
             && db.files[db.canvases[canvasID.value].fileID].userID != userID) ==> signalled != []
  {
    if Truthy(canvasID) && !IsCanvasOwnedByUser(db, canvasID.value, userID) then [ForbiddenError(NoAccessCanvas)] else []
  }

  /**
   * createCanvas's answer: 201 on success; a RepositoryError (the
   * duplicate-key case) is passed on as NotFoundError; anything else,
   * including a schema validation error, as InternalServerError.
   */
  function CreateCanvasReply(outcome: Result<Canvas, RepoError>): (reply: Reply)
    ensures outcome.Ok? <==> reply == Reply([], Some(CREATED))
    ensures outcome.Err? && outcome.error.RepositoryError? <==> reply == Reply([NotFoundError(NoMessage)], None)
    ensures outcome.Err? && !outcome.error.RepositoryError? <==> reply == Reply([InternalServerError], None)
  {
    if outcome.Ok? then Reply([], Some(CREATED))
    else if outcome.error.RepositoryError? then Reply([NotFoundError(NoMessage)], None)
    else Reply([InternalServerError], None)
  }

  /** Creating a page under an id already in use is answered with NotFoundError, never with a conflict. */
  lemma DuplicateCanvasIsReportedNotFound()
    ensures CreateCanvasReply(Err(CreateCanvasError(DriverError(DUPLICATE_KEY)))) == Reply([NotFoundError(NoMessage)], None)
    ensures CreateCanvasReply(Err(CreateCanvasError(SchemaCastFailure))) == Reply([InternalServerError], None)
  {
  }

  /** The file update syncCanvas makes first: only the file's last canvas template, from the request's canvasTemplate. */
  function TemplatePatch(p: CanvasPatch): (fp: FilePatch)
    ensures fp.fileID == p.fileID && fp.lastCanvasTemplate == p.canvasTemplate
    ensures fp.newFileName.None? && fp.folderID.None? && fp.isFavorite.None? && fp.fileTemplate.None?
  {
    FilePatch(p.fileID, None, None, None, None, p.canvasTemplate)
  }

  /** The store after a sync request: the file's template is updated, then the page. */
  function SyncRequest(db: Db, p: CanvasPatch): (r: (Db, Option<Canvas>))
    ensures r.0 == db.(files := r.0.files, canvases := r.0.canvases)
    ensures r.0.files == UpdateFile(db, TemplatePatch(p)).files
    ensures (r.0.canvases, r.1) == SyncCanvas(db.canvases, p)
  {
    var afterFile := UpdateFile(db, TemplatePatch(p));
    var (canvases, updated) := SyncCanvas(afterFile.canvases, p);
    (afterFile.(canvases := canvases), updated)
  }

  /**
   * After a sync that carried a canvasTemplate, the file and the page agree
   * on it: the file's last template is the page's template.
   */
  lemma SyncKeepsFileTemplateInStep(db: Db, p: CanvasPatch)
    requires p.canvasTemplate.Some? && p.id in db.canvases && p.fileID in db.files
    ensures var r := SyncRequest(db, p).0;
            r.files[p.fileID].lastCanvasTemplate == r.canvases[p.id].canvasTemplate == p.canvasTemplate.value
            && r.canvases[p.id].fileID == p.fileID
  {
  }

  class CanvasController {
    const db: DocumentStore
    const canvasRepository: CanvasRepository
    const pathRepository: PathRepository

    ghost predicate Valid()
    {
      canvasRepository.db == db && pathRepository.db == db
    }

    constructor (db: DocumentStore)
      ensures Valid() && this.db == db
    {
      this.db := db;
      this.canvasRepository := new CanvasRepository(db);
      this.pathRepository := new PathRepository(db);
    }

    method CreateCanvas(canvasID: Id, canvas: Canvas, castFails: bool) returns (reply: Reply)
      requires Valid()
      modifies db
      ensures !castFails && canvasID !in old(db.canvases) ==>
                reply == Reply([], Some(CREATED)) && db.State() == old(db.State()).(canvases := old(db.canvases)[canvasID := canvas])
      ensures !castFails && canvasID in old(db.canvases) ==>
                reply == Reply([NotFoundError(NoMessage)], None) && db.State() == old(db.State())
      ensures castFails ==> reply == Reply([InternalServerError], None) && db.State() == old(db.State())
    {
      var response := canvasRepository.CreateCanvas(canvasID, canvas, castFails);
      reply := CreateCanvasReply(response);
    }

    /**
     * syncCanvas: guard, then the file's last template, then the page; the
     * answer is 200 with the updated page (nothing when no page matched).
     */
    method SyncCanvas(p: CanvasPatch, userID: Id) returns (reply: Reply, response: Option<Canvas>)
      requires Valid()
      modifies db
      ensures reply == Reply(CanvasGuard(old(db.State()), Some(p.id), userID), Some(OK))
      ensures (db.State(), response) == SyncRequest(old(db.State()), p)
    {
      var signalled := CanvasGuard(db.State(), Some(p.id), userID);
      var _ := pathRepository.UpdateFile(TemplatePatch(p));
      response := canvasRepository.SyncCanvas(p);
      reply := Reply(signalled, Some(OK));
    }

    /**
     * deleteCanvas: guard, then the delete whatever the guard said; an
     * unknown page is answered with InternalServerError.
     */
    method DeleteCanvas(canvasID: Id, userID: Id) returns (reply: Reply)
      requires Valid()
      modifies db
      ensures canvasID !in old(db.canvases) ==>
                reply == Reply(CanvasGuard(old(db.State()), Some(canvasID), userID) + [InternalServerError], None)
                && db.State() == old(db.State())
      ensures canvasID in old(db.canvases) ==>
                reply == Reply(CanvasGuard(old(db.State()), Some(canvasID), userID), Some(NO_CONTENT))
                && db.State() == old(db.State()).(canvases := CanvasModel.DeleteCanvas(old(db.canvases), canvasID).value)
    {
      var signalled := CanvasGuard(db.State(), Some(canvasID), userID);
      var response := canvasRepository.DeleteCanvasAndUpdatePageNumber(canvasID);
      if response.Err? {
        return Reply(signalled + [InternalServerError], None);
      }
      reply := Reply(signalled, Some(NO_CONTENT));
    }
  }
}

=== FILE: canvas_model.dfy ===
/**
 * Pages of a file (canvases): what deleting a page does to the page numbers
 * of the pages after it, the ownership check that goes through a canvas's
 * file, and how store failures on creation become repository errors.
 */
module CanvasModel {
  import opened Wrappers
  import opened Documents
  import opened Errors

  // ---------------------------------------------------------------------
  // Deleting a page
  // ---------------------------------------------------------------------

  /** The canvas with its page number moved one place down. */
  function PageDown(c: Canvas): (r: Canvas)
    ensures r.pageNo == c.pageNo - 1 && r == c.(pageNo := r.pageNo)
  {
    c.(pageNo := c.pageNo - 1)
  }

  /**
   * Every canvas of `fileID` that is in `among` and has a page number above
   * `pageNo` moves one page down; every other canvas stays as it is.
   */
  function ShiftPagesAfter(canvases: map<Id, Canvas>, fileID: Id, pageNo: int, among: set<Id>): (r: map<Id, Canvas>)
    ensures r.Keys == canvases.Keys
    ensures forall c :: c in canvases && c in among && canvases[c].fileID == fileID && canvases[c].pageNo > pageNo ==>
              r[c] == PageDown(canvases[c])
    ensures forall c :: c in canvases && !(c in among && canvases[c].fileID == fileID && canvases[c].pageNo > pageNo) ==>
              r[c] == canvases[c]
  {
    map c | c in canvases ::
      if c in among && canvases[c].fileID == fileID && canvases[c].pageNo > pageNo then PageDown(canvases[c]) else canvases[c]
  }

  /**
   * deleteCanvasAndUpdatePageNumber on the canvas collection: an unknown id
   * is a 404 repository error; otherwise the canvas goes and every later page
   * of the same file moves one page down.
   */
  function DeleteCanvas(canvases: map<Id, Canvas>, canvasID: Id): (r: Result<map<Id, Canvas>, RepoError>)
    ensures r.Err? <==> canvasID !in canvases
    ensures r.Err? ==> r.error == RepositoryError(404)
    ensures r.Ok? ==> r.value.Keys == canvases.Keys - {canvasID}
    ensures r.Ok? ==> forall c :: c in r.value && canvases[c].fileID == canvases[canvasID].fileID
                                   && canvases[c].pageNo > canvases[canvasID].pageNo ==>
                        r.value[c].pageNo == canvases[c].pageNo - 1 && r.value[c] == canvases[c].(pageNo := r.value[c].pageNo)
    ensures r.Ok? ==> forall c :: c in r.value && !(canvases[c].fileID == canvases[canvasID].fileID
                                   && canvases[c].pageNo > canvases[canvasID].pageNo) ==>
                        r.value[c] == canvases[c]
  {
    if canvasID !in canvases then Err(RepositoryError(404))
    else
      var deleted := canvases[canvasID];
      var remaining := canvases - {canvasID};
      Ok(ShiftPagesAfter(remaining, deleted.fileID, deleted.pageNo, remaining.Keys))
  }

  /** No two canvases of the file share a page number. */
  ghost predicate DistinctPages(canvases: map<Id, Canvas>, fileID: Id)
  {
    forall c1, c2 ::
      (c1 in canvases && c2 in canvases && canvases[c1].fileID == fileID && canvases[c2].fileID == fileID
       && canvases[c1].pageNo == canvases[c2].pageNo) ==> c1 == c2
  }

  /** Some canvas of the file is page p. */
  ghost predicate HasPage(canvases: map<Id, Canvas>, fileID: Id, p: int)
  {
    exists c :: c in canvases && canvases[c].fileID == fileID && canvases[c].pageNo == p
  }

  /** The file's pages are exactly 1..n, each held by one canvas. */
  ghost predicate PagesExactly(canvases: map<Id, Canvas>, fileID: Id, n: int)
  {
    && (forall c :: c in canvases && canvases[c].fileID == fileID ==> 1 <= canvases[c].pageNo <= n)
    && (forall p :: 1 <= p <= n ==> HasPage(canvases, fileID, p))
    && DistinctPages(canvases, fileID)
  }

  /** Deleting page k of a file paged 1..n leaves it paged 1..n-1. */
  lemma DeleteKeepsPagesContiguous(canvases: map<Id, Canvas>, canvasID: Id, n: int)
    requires canvasID in canvases && PagesExactly(canvases, canvases[canvasID].fileID, n)
    ensures DeleteCanvas(canvases, canvasID).Ok?
    ensures PagesExactly(DeleteCanvas(canvases, canvasID).value, canvases[canvasID].fileID, n - 1)
  {
    var f, k := canvases[canvasID].fileID, canvases[canvasID].pageNo;
    var r := DeleteCanvas(canvases, canvasID).value;
    forall c | c in r && r[c].fileID == f
      ensures 1 <= r[c].pageNo <= n - 1
    {
      assert canvases[c].pageNo != k;
    }
    forall p | 1 <= p <= n - 1
      ensures HasPage(r, f, p)
    {
      if p < k {
        assert HasPage(canvases, f, p);
        var c :| c in canvases && canvases[c].fileID == f && canvases[c].pageNo == p;
        assert c in r && r[c].pageNo == p;
      } else {
        assert HasPage(canvases, f, p + 1);
        var c :| c in canvases && canvases[c].fileID == f && canvases[c].pageNo == p + 1;
        assert c in r && r[c].pageNo == p;
      }
    }
    forall c1, c2 | c1 in r && c2 in r && r[c1].fileID == f && r[c2].fileID == f && r[c1].pageNo == r[c2].pageNo
      ensures c1 == c2
    {
      assert canvases[c1].pageNo != k && canvases[c2].pageNo != k;
    }
  }

  /** Pages of the file that survive a delete keep their relative order. */
  lemma DeleteKeepsPageOrder(canvases: map<Id, Canvas>, canvasID: Id, c1: Id, c2: Id)
    requires canvasID in canvases && DistinctPages(canvases, canvases[canvasID].fileID)
    requires c1 in canvases && c2 in canvases && c1 != canvasID && c2 != canvasID
    requires canvases[c1].fileID == canvases[canvasID].fileID == canvases[c2].fileID
    ensures var r := DeleteCanvas(canvases, canvasID).value;
            canvases[c1].pageNo < canvases[c2].pageNo <==> r[c1].pageNo < r[c2].pageNo
  {
    var k := canvases[canvasID].pageNo;
    assert canvases[c1].pageNo != k && canvases[c2].pageNo != k;
  }

  /** A delete changes nothing in another file's pages. */
  lemma DeleteLeavesOtherFilesAlone(canvases: map<Id, Canvas>, canvasID: Id, c: Id)
    requires canvasID in canvases && c in canvases && canvases[c].fileID != canvases[canvasID].fileID
    ensures c in DeleteCanvas(canvases, canvasID).value && DeleteCanvas(canvases, canvasID).value[c] == canvases[c]
  {
  }

  /** Deleting the second of three pages: the first keeps page 1, the third becomes page 2. */
  lemma DeleteMiddlePageScenario()
    ensures var before := map["a" := BlankPage(1).(fileID := "f"), "b" := BlankPage(2).(fileID := "f"),
                              "c" := BlankPage(3).(fileID := "f")];
            DeleteCanvas(before, "b") == Ok(map["a" := BlankPage(1).(fileID := "f"), "c" := BlankPage(2).(fileID := "f")])
  {
    var before := map["a" := BlankPage(1).(fileID := "f"), "b" := BlankPage(2).(fileID := "f"),
                      "c" := BlankPage(3).(fileID := "f")];
    var after := map["a" := BlankPage(1).(fileID := "f"), "c" := BlankPage(2).(fileID := "f")];
    var r := DeleteCanvas(before, "b").value;
    assert before["b"].pageNo == 2 && before["c"].pageNo == 3;
    assert r.Keys == after.Keys;
    assert r["a"] == after["a"];
    assert r["c"] == after["c"];
    assert r == after;
  }

  // ---------------------------------------------------------------------
  // Ownership through the file
  // ---------------------------------------------------------------------

  /**
   * isCanvasOwnedByUser: `String(file?.userID) === userID`, where the file is
   * looked up through the canvas. A missing canvas or file stringifies to
   * "undefined", so only the user id "undefined" would match then.
   */
  function IsCanvasOwnedByUser(db: Db, canvasID: Id, userID: Id): (owned: bool)
    ensures userID != "undefined" ==>
              (owned <==> canvasID in db.canvases && db.canvases[canvasID].fileID in db.files
                          && db.files[db.canvases[canvasID].fileID].userID == userID)
    ensures canvasID !in db.canvases || db.canvases[canvasID].fileID !in db.files ==> (owned <==> userID == "undefined")
  {
    var owner: Option<Id> :=
      if canvasID in db.canvases && db.canvases[canvasID].fileID in db.files
      then Some(db.files[db.canvases[canvasID].fileID].userID) else None;
    JsString(owner) == userID
  }

  // ---------------------------------------------------------------------
  // Creating and syncing a page
  // ---------------------------------------------------------------------

  /** The ways the store can refuse an insert. */
  datatype StoreFailure =
    | SchemaCastFailure          // the body does not cast to the schema (Mongoose ValidationError)
    | DriverError(code: int)     // a MongoError with its server code
    | ConnectionFailure          // anything else

  /** The code the server gives a duplicate `_id`. */
  const DUPLICATE_KEY := 11000

  /** createCanvas's catch: what the repository raises for each store failure. */
  function CreateCanvasError(failure: StoreFailure): (e: RepoError)
    ensures e == SchemaValidationError <==> failure == SchemaCastFailure
    ensures e == RepositoryError(400) <==> failure.DriverError? && (failure.code == 11000 || failure.code == 11001)
    ensures e == StoreError <==> !(failure == SchemaCastFailure || (failure.DriverError? && (failure.code == 11000 || failure.code == 11001)))
  {
    match failure
    case SchemaCastFailure => SchemaValidationError
    case DriverError(code) => if code == 11000 || code == 11001 then RepositoryError(400) else StoreError
    case ConnectionFailure => StoreError
  }

  /**
   * The fields of a sync request that `$set` may write; `None` is a field
   * the request left undefined, which the update leaves as it is.
   */
  datatype CanvasPatch = CanvasPatch(
    id: Id,
    fileID: Id,
    pageNo: Option<int>,
    localCanvasID: Option<string>,
    paths: Option<seq<Stroke>>,
    shapes: Option<seq<Shape>>,
    isBookmarked: Option<bool>,
    canvasTemplate: Option<Option<string>>,
    localFileID: Option<Option<string>>)

  /** The canvas with the patch's present fields written over it. */
  function Synced(c: Canvas, p: CanvasPatch): (r: Canvas)
    ensures r.fileID == p.fileID
    ensures r.pageNo == (if p.pageNo.Some? then p.pageNo.value else c.pageNo)
    ensures r.localCanvasID == (if p.localCanvasID.Some? then p.localCanvasID else c.localCanvasID)
    ensures r.paths == (if p.paths.Some? then p.paths.value else c.paths)
    ensures r.shapes == (if p.shapes.Some? then p.shapes.value else c.shapes)
    ensures r.isBookmarked == (if p.isBookmarked.Some? then p.isBookmarked.value else c.isBookmarked)
    ensures r.canvasTemplate == (if p.canvasTemplate.Some? then p.canvasTemplate.value else c.canvasTemplate)
    ensures r.localFileID == (if p.localFileID.Some? then p.localFileID.value else c.localFileID)
  {
    Canvas(p.fileID,
           if p.pageNo.Some? then p.pageNo.value else c.pageNo,
           if p.localCanvasID.Some? then p.localCanvasID else c.localCanvasID,
           if p.paths.Some? then p.paths.value else c.paths,
           if p.shapes.Some? then p.shapes.value else c.shapes,
           if p.isBookmarked.Some? then p.isBookmarked.value else c.isBookmarked,
           if p.canvasTemplate.Some? then p.canvasTemplate.value else c.canvasTemplate,
           if p.localFileID.Some? then p.localFileID.value else c.localFileID)
  }

  /**
   * syncCanvas on the canvas collection: `findOneAndUpdate` with `new: true`
   * gives the updated canvas, or nothing when no canvas has that id; only
   * that canvas changes.
   */
  function SyncCanvas(canvases: map<Id, Canvas>, p: CanvasPatch): (r: (map<Id, Canvas>, Option<Canvas>))
    ensures r.0.Keys == canvases.Keys
    ensures r.1.Some? <==> p.id in canvases
    ensures r.1.Some? ==> r.1.value == r.0[p.id] == Synced(canvases[p.id], p)
    ensures forall c :: c in canvases && c != p.id ==> r.0[c] == canvases[c]
  {
    if p.id in canvases then
      var updated := Synced(canvases[p.id], p);
      (canvases[p.id := updated], Some(updated))
    else (canvases, None)
  }

  /** Syncing with the same request twice is the same as syncing once. */
  lemma SyncCanvasIdempotent(canvases: map<Id, Canvas>, p: CanvasPatch)
    ensures SyncCanvas(SyncCanvas(canvases, p).0, p).0 == SyncCanvas(canvases, p).0
  {
    if p.id in canvases {
      var once := SyncCanvas(canvases, p).0;
      assert Synced(once[p.id], p) == once[p.id];
    }
  }
}

=== FILE: canvas_repository.dfy ===
/**
 * The canvas repository: page creation, sync, and the delete that walks the
 * file's remaining pages one at a time, moving each later page down.
 */
module CanvasRepository {
  import opened Wrappers
  import opened Documents
  import opened Errors
  import opened CanvasModel

  class CanvasRepository {
    const db: DocumentStore

    constructor (db: DocumentStore)
      ensures this.db == db
    {
      this.db := db;
    }

    /**
     * createCanvas. `castFails` says whether the body fails the schema's
     * casts (checked before anything is written); an `_id` already in use is
     * the server's duplicate-key error.
     */
    method CreateCanvas(canvasID: Id, canvas: Canvas, castFails: bool) returns (r: Result<Canvas, RepoError>)
      modifies db
      ensures castFails ==> r == Err(SchemaValidationError) && db.State() == old(db.State())
      ensures !castFails && canvasID in old(db.canvases) ==> r == Err(RepositoryError(400)) && db.State() == old(db.State())
      ensures !castFails && canvasID !in old(db.canvases) ==>
                r == Ok(canvas) && db.State() == old(db.State()).(canvases := old(db.canvases)[canvasID := canvas])
    {
      if castFails {
        return Err(CreateCanvasError(SchemaCastFailure));
      }
      if canvasID in db.canvases {
        return Err(CreateCanvasError(DriverError(DUPLICATE_KEY)));
      }
      db.canvases := db.canvases[canvasID := canvas];
      r := Ok(canvas);
    }

    method SyncCanvas(p: CanvasPatch) returns (result: Option<Canvas>)
      modifies db
      ensures (db.canvases, result) == CanvasModel.SyncCanvas(old(db.canvases), p)
      ensures db.State() == old(db.State()).(canvases := db.canvases)
    {
      if p.id in db.canvases {
        var updated := Synced(db.canvases[p.id], p);
        db.canvases := db.canvases[p.id := updated];
        result := Some(updated);
      } else {
        result := None;
      }
    }

    /**
     * deleteCanvasAndUpdatePageNumber: find the canvas (404 when missing),
     * remove it, then visit the file's remaining canvases one by one and
     * move every one above the deleted page one page down.
     */
    method DeleteCanvasAndUpdatePageNumber(canvasID: Id) returns (r: Result<(), RepoError>)
      modifies db
      ensures DeleteCanvas(old(db.canvases), canvasID).Err? ==>
                r == Err(DeleteCanvas(old(db.canvases), canvasID).error) && db.State() == old(db.State())
      ensures DeleteCanvas(old(db.canvases), canvasID).Ok? ==>
                r == Ok(()) && db.State() == old(db.State()).(canvases := DeleteCanvas(old(db.canvases), canvasID).value)
    {
      if canvasID !in db.canvases {
        return Err(RepositoryError(404));
      }
      var canvasToDelete := db.canvases[canvasID];
      var pageNumberToUpdate := canvasToDelete.pageNo;
      db.canvases := db.canvases - {canvasID};
      ghost var start := db.canvases;
      var remainingCanvases := set c | c in db.canvases && db.canvases[c].fileID == canvasToDelete.fileID;
      var todo := remainingCanvases;
      while todo != {}
        invariant todo <= remainingCanvases
        invariant db.canvases == ShiftPagesAfter(start, canvasToDelete.fileID, pageNumberToUpdate, remainingCanvases - todo)
        invariant db.State() == old(db.State()).(canvases := db.canvases)
        decreases todo
      {
        var canvas :| canvas in todo;
        if canvas != canvasID && db.canvases[canvas].pageNo > pageNumberToUpdate {
          db.canvases := db.canvases[canvas := PageDown(db.canvases[canvas])];
        }
        todo := todo - {canvas};
      }
      assert db.canvases == ShiftPagesAfter(start, canvasToDelete.fileID, pageNumberToUpdate, start.Keys);
      r := Ok(());
    }

    method IsCanvasOwnedByUser(canvasID: Id, userID: Id) returns (response: bool)
      ensures response == CanvasModel.IsCanvasOwnedByUser(db.State(), canvasID, userID)
    {
      var file: Option<File> := None;
      if canvasID in db.canvases && db.canvases[canvasID].fileID in db.files {
        file := Some(db.files[db.canvases[canvasID].fileID]);
      }
      response := JsString(if file.Some? then Some(file.value.userID) else None) == userID;
    }
  }
}

=== FILE: documents.dfy ===
/**
 * The document store: every collection the core reads or writes, with its
 * records. Folders, files and canvases are keyed by their `_id`; users,
 * admins and marketplace listings are kept in natural (insertion) order,
 * because the queries over them sort, skip and limit; the cart is a set of
 * (user, listing) pairs, since its unique index forbids duplicates.
 * Timestamps other than a listing's `createdAt` are not modelled.
 */
module Documents {
  import opened Wrappers

  /** A document id (an ObjectId in its string form) or a user id. */
  type Id = string

  /** Freehand stroke and geometric shape payloads of a canvas: carried, never interpreted. */
  datatype Stroke = Stroke(drawer: string, color: string, points: seq<string>, width: int)
  datatype Shape = Shape(kind: string, x: int, y: int, width: int, height: int, color: string, filled: bool)

  /** `folderName` is a required path: "" stands for an empty or missing name, which the schema refuses. */
  datatype Folder = Folder(
    folderName: string,
    userID: Id,
    localFolderID: Option<string>,
    isFavorite: bool,
    isDeleted: bool)

  /**
   * `folderID == None` means the file sits at the top level. `fileName` is a
   * required path: "" stands for an empty or missing name, which the schema
   * refuses.
   */
  datatype File = File(
    fileName: string,
    folderID: Option<Id>,
    userID: Id,
    localFileID: Option<string>,
    isFavorite: bool,
    isDeleted: bool,
    fileTemplate: string,
    lastCanvasTemplate: Option<string>,
    link: Option<string>)

  /** One page of a file; `pageNo` is supplied by the caller, never assigned by the store. */
  datatype Canvas = Canvas(
    fileID: Id,
    pageNo: int,
    localCanvasID: Option<string>,
    paths: seq<Stroke>,
    shapes: seq<Shape>,
    isBookmarked: bool,
    canvasTemplate: Option<string>,
    localFileID: Option<string>)

  /**
   * A document field that may be missing, hold null, or hold a value:
   * JavaScript's `!==` tells the three apart.
   */
  datatype Field<T> = Unset | Null | Present(value: T)

  /**
   * A stored user. `otExpiration` is the schema's own (misspelt) path; the
   * controllers write an `otpExpiration` key instead, see UserController.
   */
  datatype User = User(
    id: Id,
    email: string,
    firstName: string,
    lastName: string,
    password: Option<string>,
    registerType: string,
    status: string,
    admin: bool,
    otp: Field<string>,
    otExpiration: Option<int>,
    otpVerified: bool)

  datatype Admin = Admin(
    id: Id,
    firstName: string,
    lastName: string,
    email: string,
    password: Option<string>,
    superAdmin: bool)

  /**
   * A marketplace listing. Its optional string paths may be missing, hold
   * null or hold a string. A missing or null `status` is written "": every
   * status the core filters on is a non-empty constant, so no query tells
   * the three apart.
   */
  datatype Listing = Listing(
    id: Id,
    title: string,
    description: Field<string>,
    userID: Id,
    fileID: Id,
    status: string,
    courseName: Field<string>,
    noteTaker: Field<string>,
    lecture: Field<string>,
    price: string,
    createdAt: int)

  datatype CartItem = CartItem(userId: Id, fileId: Id)

  /** Listing statuses (MARKETPLACE_CONTROLLER.STATUS). */
  const APPROVED := "APPROVED"
  const DRAFT := "DRAFT"
  const PENDING := "PENDING"
  const REJECTED := "REJECTED"

  /** A snapshot of the whole store. */
  datatype Db = Db(
    folders: map<Id, Folder>,
    files: map<Id, File>,
    canvases: map<Id, Canvas>,
    users: seq<User>,
    admins: seq<Admin>,
    listings: seq<Listing>,
    cart: set<CartItem>)

  /** A folder as `Folder.create` stores it: the schema defaults apply. */
  function NewFolder(folderName: string, userID: Id, localFolderID: Option<string>): (f: Folder)
    ensures !f.isDeleted && !f.isFavorite && f.userID == userID
  {
    Folder(folderName, userID, localFolderID, false, false)
  }

  /**
   * A file as `new File(dto).save()` stores it: a missing `fileTemplate`
   * becomes 'BLANK', `isFavorite`/`isDeleted` start false.
   */
  function NewFile(fileName: string, folderID: Option<Id>, userID: Id, localFileID: Option<string>,
                   fileTemplate: Option<string>, lastCanvasTemplate: Option<string>, link: Option<string>): (f: File)
    ensures !f.isDeleted && !f.isFavorite && f.userID == userID && f.folderID == folderID
    ensures f.fileTemplate == (if fileTemplate.Some? then fileTemplate.value else "BLANK")
  {
    File(fileName, folderID, userID, localFileID, false, false,
         if fileTemplate.Some? then fileTemplate.value else "BLANK", lastCanvasTemplate, link)
  }

  /** A blank page: what `{ pageNo: i + 1 }` becomes once the schema defaults apply. */
  function BlankPage(pageNo: int): (c: Canvas)
    ensures c.pageNo == pageNo && c.paths == [] && c.shapes == [] && !c.isBookmarked
  {
    Canvas("", pageNo, None, [], [], false, None, None)
  }

  /** JavaScript's `String(x)` of an optional id: `undefined` prints as "undefined". */
  function JsString(x: Option<Id>): string
  {
    if x.Some? then x.value else "undefined"
  }

  /** JavaScript truthiness of an optional string: undefined and '' are falsy. */
  predicate Truthy(x: Option<string>)
  {
    x.Some? && x.value != ""
  }

  /** The database: one mutable object holding every collection. */
  class DocumentStore {
    var folders: map<Id, Folder>
    var files: map<Id, File>
    var canvases: map<Id, Canvas>
    var users: seq<User>
    var admins: seq<Admin>
    var listings: seq<Listing>
    var cart: set<CartItem>

    function State(): Db
      reads this
    {
      Db(folders, files, canvases, users, admins, listings, cart)
    }

    constructor (init: Db)
      ensures State() == init
    {
      folders, files, canvases := init.folders, init.files, init.canvases;
      users, admins, listings, cart := init.users, init.admins, init.listings, init.cart;
    }
  }
}

=== FILE: errors.dfy ===
/**
 * The error vocabulary of the service: what repositories raise and what
 * controllers hand to Express's `next`.
 */
module Errors {
  import opened Wrappers

  /** Message keys (the constants of src/utils/enum.ts that the core uses). */
  datatype Reason =
    | NoAccessFolder | NoAccessFile | NoAccessCanvas
    | IncorrectParameters
    | EmailAlreadyExists | EmailNotFound | WrongPassword
    | SameAsOldPassword | InvalidToken | PasswordNotFound | UserNotFound
    | InvalidOtp | OtpExpired
    | AlreadyInCart | NoFileFound | EditUnauthorized | UploadFailed
    | NoMessage

  /** Errors raised by repositories. */
  datatype RepoError =
    | RepositoryError(statusCode: int)   // utils/customError.ts RepositoryError
    | SchemaValidationError              // a Mongoose ValidationError rewrapped as ValidationError
    | DomainError(reason: Reason)        // `throw new Error(<message key>)`
    | StoreError                         // any other store failure, rethrown unchanged

  /** Errors a controller passes to `next` (the HTTP error middleware). */
  datatype ApiError =
    | NotFoundError(reason: Reason)
    | ForbiddenError(reason: Reason)
    | ValidationError(reason: Reason)
    | BadRequestError(reason: Reason)
    | ConflictError(reason: Reason)
    | InternalServerError

  /**
   * What one request handler did: the errors it passed to `next`, in order,
   * and the status code of the response it wrote, if it wrote one. Both can be
   * present: an access guard signals Forbidden and the handler still answers.
   */
  datatype Reply = Reply(signalled: seq<ApiError>, status: Option<int>)

  const OK := 200
  const CREATED := 201
  const NO_CONTENT := 204
  const BAD_REQUEST := 400
}

=== FILE: marketplace_model.dfy ===
/**
 * Marketplace listings and the cart, as values: the listing queries
 * (recent, by category, a user's uploads, by status) and the effect of
 * every write on the listings and on the cart. The stored listings obey
 * the schema: a title and a price are required, and no two listings share
 * a file or an `_id`.
 */
module MarketplaceModel {
  import opened Wrappers
  import opened Documents
  import opened Errors
  import opened Query

  function CreatedAt(l: Listing): int { l.createdAt }

  /** What getRecentFiles matches: approved listings of someone else. */
  predicate OnSaleTo(l: Listing, userID: Id)
  {
    l.status == APPROVED && l.userID != userID
  }

  /** getRecentFiles: the listings on sale to the caller, newest first, at most `limit` of them. */
  function RecentFiles(listings: seq<Listing>, userID: Id, limit: int): (r: seq<Listing>)
    ensures forall l :: l in r ==> l in listings && OnSaleTo(l, userID)
    ensures limit != 0 ==> |r| <= if limit < 0 then -limit else limit
  {
    var onSale := (l: Listing) => OnSaleTo(l, userID);
    var selected := Select(listings, onSale);
    var sorted := SortDesc(selected, CreatedAt);
    var r := Limit(sorted, limit);
    RecentMembers(selected, sorted, r);
    r
  }

  /** A prefix of a reordering of the selected listings holds only selected listings. */
  lemma RecentMembers(selected: seq<Listing>, sorted: seq<Listing>, r: seq<Listing>)
    requires multiset(sorted) == multiset(selected) && r <= sorted
    ensures forall l :: l in r ==> l in selected
  {
    forall l | l in r
      ensures l in selected
    {
      assert l in multiset(sorted);
    }
  }

  /**
   * Everything getRecentFiles promises: only listings on sale to the caller,
   * newest first, no more than the limit; and a listing on sale that is not
   * returned is no newer than any returned one, the limit being full.
   */
  lemma RecentFilesSpec(listings: seq<Listing>, userID: Id, limit: int)
    ensures var r := RecentFiles(listings, userID, limit);
            (forall l :: l in r ==> l in listings && l.status == APPROVED && l.userID != userID)
            && SortedDesc(r, CreatedAt)
            && (limit != 0 ==> |r| <= if limit < 0 then -limit else limit)
    ensures var r := RecentFiles(listings, userID, limit);
            forall l :: l in listings && OnSaleTo(l, userID) && l !in r ==>
              limit != 0 && |r| == (if limit < 0 then -limit else limit)
              && forall k :: k in r ==> k.createdAt >= l.createdAt
  {
    var selected := Select(listings, (l: Listing) => OnSaleTo(l, userID));
    var sorted := SortDesc(selected, CreatedAt);
    var r := RecentFiles(listings, userID, limit);
    forall l | l in r
      ensures l in listings && l.status == APPROVED && l.userID != userID
    {
      assert l in multiset(sorted);
    }
    forall l | l in listings && OnSaleTo(l, userID) && l !in r
      ensures limit != 0 && |r| == (if limit < 0 then -limit else limit)
      ensures forall k :: k in r ==> k.createdAt >= l.createdAt
    {
      TopOfSorted(selected, CreatedAt, limit, l);
    }
    assert forall i :: 0 <= i < |r| ==> r[i] == sorted[i];
  }

  /** The default page of getRecentFiles holds at most ten listings. */
  lemma RecentFilesDefaultLimit(listings: seq<Listing>, userID: Id)
    ensures |RecentFiles(listings, userID, 10)| <= 10
    ensures |Select(listings, (l: Listing) => OnSaleTo(l, userID))| >= 10 ==> |RecentFiles(listings, userID, 10)| == 10
  {
  }

  /**
   * getCategoryFiles' match: on sale to the caller and with a courseName
   * path; `$exists` also matches a courseName that holds null.
   */
  predicate Categorised(l: Listing, userID: Id)
  {
    OnSaleTo(l, userID) && !l.courseName.Unset?
  }

  /** The `$group` key of a listing: its course, or null (None) when the path holds null or is missing. */
  function GroupKey(l: Listing): Option<string>
  {
    if l.courseName.Present? then Some(l.courseName.value) else None
  }

  /**
   * One `$group` result: a course (None for the null course), its newest
   * listings up to the cap, and how many listings it has in all.
   */
  datatype Category = Category(courseName: Option<string>, files: seq<Listing>, count: nat)

  function Count(g: Category): int { g.count }

  /** The group keys of `s`, each once, in order of first appearance. */
  function CourseNames(s: seq<Listing>): (names: seq<Option<string>>)
    ensures forall c :: c in names <==> exists l :: l in s && GroupKey(l) == c
    ensures forall i, j :: 0 <= i < j < |names| ==> names[i] != names[j]
  {
    if s == [] then []
    else
      var rest := CourseNames(s[1..]);
      assert forall l :: l in s <==> l == s[0] || l in s[1..];
      if GroupKey(s[0]) in rest then rest
      else [GroupKey(s[0])] + rest
  }

  /** The filters of getCategoryFiles, as values a query can apply. */
  function InCategories(userID: Id): Listing -> bool
  {
    (l: Listing) => Categorised(l, userID)
  }

  function IsCourse(course: Option<string>): Listing -> bool
  {
    (l: Listing) => GroupKey(l) == course
  }

  function InCourse(userID: Id, course: Option<string>): Listing -> bool
  {
    (l: Listing) => Categorised(l, userID) && GroupKey(l) == course
  }

  /** The listings of one course among `s`, in their order in `s`. */
  function OfCourse(s: seq<Listing>, course: Option<string>): seq<Listing>
  {
    Select(s, IsCourse(course))
  }

  /** The `$group` stage followed by `$project`: one group per course, each group's files sliced to `limit`. */
  function Groups(newestFirst: seq<Listing>, limit: int): (groups: seq<Category>)
    ensures |groups| == |CourseNames(newestFirst)|
    ensures forall i :: 0 <= i < |groups| ==> groups[i].courseName == CourseNames(newestFirst)[i]
    ensures forall g :: g in groups ==>
              g.files == Slice(OfCourse(newestFirst, g.courseName), limit) && g.count == |OfCourse(newestFirst, g.courseName)|
  {
    var names := CourseNames(newestFirst);
    seq(|names|, i requires 0 <= i < |names| =>
      Category(names[i], Slice(OfCourse(newestFirst, names[i]), limit), |OfCourse(newestFirst, names[i])|))
  }

  /** The listings getCategoryFiles works on (`$match` then `$sort`): exactly the matching ones, newest first. */
  function CategoryListings(listings: seq<Listing>, userID: Id): (r: seq<Listing>)
    ensures forall l :: l in r <==> l in listings && Categorised(l, userID)
    ensures SortedDesc(r, CreatedAt)
  {
    var selected := Select(listings, InCategories(userID));
    var sorted := SortDesc(selected, CreatedAt);
    assert forall l :: l in sorted <==> l in multiset(selected);
    sorted
  }

  /**
   * getCategoryFiles: match, sort newest first, group by course, slice, sort
   * groups by size, keep six. Each group returned is the course of some
   * listing on sale to the caller.
   */
  function CategoryFiles(listings: seq<Listing>, userID: Id, limit: int): (r: seq<Category>)
    ensures |r| <= 6
    ensures forall g :: g in r ==> exists l :: l in listings && Categorised(l, userID) && GroupKey(l) == g.courseName
  {
    var sorted := CategoryListings(listings, userID);
    var groups := Groups(sorted, limit);
    var r := Limit(SortDesc(groups, Count), 6);
    assert forall g :: g in r ==> exists l :: l in listings && Categorised(l, userID) && GroupKey(l) == g.courseName by {
      forall g | g in r
        ensures exists l :: l in sorted && GroupKey(l) == g.courseName
      {
        assert g in multiset(SortDesc(groups, Count));
        GroupHasMembers(sorted, limit, g);
      }
    }
    r
  }

  /** Every group built is the course of some listing it was built from. */
  lemma GroupHasMembers(newestFirst: seq<Listing>, limit: int, g: Category)
    requires g in Groups(newestFirst, limit)
    ensures exists l :: l in newestFirst && GroupKey(l) == g.courseName
  {
    var groups := Groups(newestFirst, limit);
    var i :| 0 <= i < |groups| && groups[i] == g;
    assert CourseNames(newestFirst)[i] in CourseNames(newestFirst);
  }

  /** Every group returned is one of the groups built. */
  lemma ReturnedGroupWasBuilt(listings: seq<Listing>, userID: Id, limit: int, g: Category)
    requires g in CategoryFiles(listings, userID, limit)
    ensures g in Groups(CategoryListings(listings, userID), limit)
  {
    var sortedGroups := SortDesc(Groups(CategoryListings(listings, userID), limit), Count);
    assert g in sortedGroups;
    assert g in multiset(sortedGroups);
  }

  /** Sorting before grouping changes no group's size: a course counts its listings on sale to the caller. */
  lemma CourseCount(listings: seq<Listing>, userID: Id, course: Option<string>)
    ensures |OfCourse(CategoryListings(listings, userID), course)| == |Select(listings, InCourse(userID, course))|
  {
    var eligible := Select(listings, InCategories(userID));
    SelectPermutation(CategoryListings(listings, userID), eligible, IsCourse(course));
    SelectOfSelect(listings, InCategories(userID), IsCourse(course), InCourse(userID, course));
  }

  /** A course's listings are listings of that course on sale to the caller, newest first. */
  lemma CourseMembers(listings: seq<Listing>, userID: Id, course: Option<string>)
    ensures forall l :: l in OfCourse(CategoryListings(listings, userID), course) ==>
              l in listings && Categorised(l, userID) && GroupKey(l) == course
    ensures SortedDesc(OfCourse(CategoryListings(listings, userID), course), CreatedAt)
  {
    var sorted := CategoryListings(listings, userID);
    forall l | l in OfCourse(sorted, course)
      ensures l in listings && Categorised(l, userID)
    {
      assert l in multiset(sorted);
    }
    SelectKeepsOrder(sorted, IsCourse(course), CreatedAt);
  }

  /** A slice of a sorted sequence is drawn from it and stays sorted. */
  lemma SliceKeepsOrder(s: seq<Listing>, n: int, key: Listing -> int)
    requires SortedDesc(s, key)
    ensures forall l :: l in Slice(s, n) ==> l in s
    ensures SortedDesc(Slice(s, n), key)
  {
    var r := Slice(s, n);
    var off := if n < 0 then |s| - |r| else 0;
    assert r == s[off..off + |r|];
    forall l | l in r
      ensures l in s
    {
      var i :| 0 <= i < |r| && r[i] == l;
      assert s[off + i] == l;
    }
    forall i, j | 0 <= i < j < |r|
      ensures key(r[i]) >= key(r[j])
    {
      assert r[i] == s[off + i] && r[j] == s[off + j];
    }
  }

  /**
   * A group of getCategoryFiles: its count is the number of listings of that
   * course on sale to the caller, and its files are the newest of them, no
   * more than `limit` for a positive limit.
   */
  lemma CategoryGroupSpec(listings: seq<Listing>, userID: Id, limit: int, g: Category)
    requires g in CategoryFiles(listings, userID, limit)
    ensures g.count == |Select(listings, InCourse(userID, g.courseName))|
    ensures forall l :: l in g.files ==> l in listings && Categorised(l, userID) && GroupKey(l) == g.courseName
    ensures SortedDesc(g.files, CreatedAt)
    ensures limit > 0 ==> |g.files| == if g.count < limit then g.count else limit
  {
    ReturnedGroupWasBuilt(listings, userID, limit, g);
    CourseCount(listings, userID, g.courseName);
    CourseMembers(listings, userID, g.courseName);
    SliceKeepsOrder(OfCourse(CategoryListings(listings, userID), g.courseName), limit, CreatedAt);
  }

  /** Filtering a filtered sequence is one filter with both conditions. */
  lemma {:induction false} SelectOfSelect(s: seq<Listing>, p: Listing -> bool, q: Listing -> bool, pq: Listing -> bool)
    requires forall l :: pq(l) == (p(l) && q(l))
    ensures Select(Select(s, p), q) == Select(s, pq)
  {
    if s != [] {
      SelectOfSelect(s[1..], p, q, pq);
    }
  }

  /** Filtering a sequence sorted on a key leaves it sorted on that key. */
  lemma {:induction false} SelectKeepsOrder(s: seq<Listing>, p: Listing -> bool, key: Listing -> int)
    requires SortedDesc(s, key)
    ensures SortedDesc(Select(s, p), key)
  {
    if s != [] {
      assert SortedDesc(s[1..], key) by {
        forall i, j | 0 <= i < j < |s[1..]|
          ensures key(s[1..][i]) >= key(s[1..][j])
        {
          assert s[1..][i] == s[i + 1] && s[1..][j] == s[j + 1];
        }
      }
      SelectKeepsOrder(s[1..], p, key);
      var rest := Select(s[1..], p);
      if p(s[0]) {
        forall l | l in rest
          ensures key(s[0]) >= key(l)
        {
          var j :| 0 <= j < |s[1..]| && s[1..][j] == l;
          assert s[j + 1] == l;
        }
        var r := [s[0]] + rest;
        forall i, j | 0 <= i < j < |r|
          ensures key(r[i]) >= key(r[j])
        {
          if i > 0 {
            assert r[i] == rest[i - 1] && r[j] == rest[j - 1];
          } else {
            assert r[j] in rest;
          }
        }
      }
    }
  }

  /** The groups of getCategoryFiles: at most six, largest first. */
  lemma CategoryFilesOrdered(listings: seq<Listing>, userID: Id, limit: int)
    ensures |CategoryFiles(listings, userID, limit)| <= 6
    ensures SortedDesc(CategoryFiles(listings, userID, limit), Count)
  {
    var sortedGroups := SortDesc(Groups(CategoryListings(listings, userID), limit), Count);
    var r := CategoryFiles(listings, userID, limit);
    assert forall i :: 0 <= i < |r| ==> r[i] == sortedGroups[i];
  }

  /** No course is returned twice. */
  lemma CategoryFilesDistinct(listings: seq<Listing>, userID: Id, limit: int)
    ensures var r := CategoryFiles(listings, userID, limit);
            forall i, j :: 0 <= i < j < |r| ==> r[i].courseName != r[j].courseName
  {
    var groups := Groups(CategoryListings(listings, userID), limit);
    var sortedGroups := SortDesc(groups, Count);
    DistinctNamesSurviveSorting(groups, sortedGroups);
    var r := CategoryFiles(listings, userID, limit);
    assert forall i :: 0 <= i < |r| ==> r[i] == sortedGroups[i];
  }

  /**
   * A course left out of getCategoryFiles has no more listings on sale than
   * any course shown, and was left out only because six were shown.
   */
  lemma CategoryFilesTopSix(listings: seq<Listing>, userID: Id, limit: int, l: Listing)
    requires l in listings && Categorised(l, userID)
    requires forall g :: g in CategoryFiles(listings, userID, limit) ==> g.courseName != GroupKey(l)
    ensures |CategoryFiles(listings, userID, limit)| == 6
    ensures forall g :: g in CategoryFiles(listings, userID, limit) ==>
              g.count >= |Select(listings, InCourse(userID, GroupKey(l)))|
  {
    var sorted := CategoryListings(listings, userID);
    var groups := Groups(sorted, limit);
    var course := GroupKey(l);
    assert l in Select(listings, InCategories(userID));
    assert l in multiset(sorted);
    assert course in CourseNames(sorted);
    var k :| 0 <= k < |groups| && groups[k].courseName == course;
    TopOfSorted(groups, Count, 6, groups[k]);
    CourseCount(listings, userID, course);
  }

  /**
   * A listing on sale whose courseName holds null is grouped under the null
   * course, which is shown unless six larger courses fill the answer.
   */
  lemma NullCourseIsGrouped(listings: seq<Listing>, userID: Id, limit: int, l: Listing)
    requires l in listings && OnSaleTo(l, userID) && l.courseName == Null
    requires |CategoryFiles(listings, userID, limit)| < 6
    ensures exists g :: g in CategoryFiles(listings, userID, limit) && g.courseName == None
  {
    if forall g :: g in CategoryFiles(listings, userID, limit) ==> g.courseName != None {
      CategoryFilesTopSix(listings, userID, limit, l);
    }
  }

  /** Reordering a sequence of groups with distinct course names keeps them distinct. */
  lemma DistinctNamesSurviveSorting(a: seq<Category>, b: seq<Category>)
    requires forall i, j :: 0 <= i < j < |a| ==> a[i].courseName != a[j].courseName
    requires multiset(a) == multiset(b)
    ensures forall i, j :: 0 <= i < j < |b| ==> b[i].courseName != b[j].courseName
  {
    forall i, j | 0 <= i < j < |b|
      ensures b[i].courseName != b[j].courseName
    {
      if b[i].courseName == b[j].courseName {
        assert b[i] in multiset(a) && b[j] in multiset(a);
        var x :| 0 <= x < |a| && a[x] == b[i];
        var y :| 0 <= y < |a| && a[y] == b[j];
        assert x == y;
        OccursOnce(a, x);
        TwiceInSeq(b, i, j);
        assert false;
      }
    }
  }

  /** In a sequence of groups with distinct course names, each group occurs once. */
  lemma OccursOnce(a: seq<Category>, x: int)
    requires forall i, j :: 0 <= i < j < |a| ==> a[i].courseName != a[j].courseName
    requires 0 <= x < |a|
    ensures multiset(a)[a[x]] == 1
  {
    assert a == a[..x] + [a[x]] + a[x + 1..];
    assert a[x] !in a[..x];
    assert a[x] !in a[x + 1..];
  }

  /** An element at two positions occurs at least twice. */
  lemma TwiceInSeq(b: seq<Category>, i: int, j: int)
    requires 0 <= i < j < |b| && b[i] == b[j]
    ensures multiset(b)[b[i]] >= 2
  {
    assert b == b[..j] + [b[j]] + b[j + 1..];
    assert b[i] in b[..j];
  }

  /** getUserUploads: the user's listings past the draft stage. */
  function UserUploads(listings: seq<Listing>, userID: Id): (r: seq<Listing>)
    ensures forall l :: l in r <==> l in listings && l.userID == userID && l.status in {APPROVED, PENDING, REJECTED}
  {
    Select(listings, (l: Listing) => l.userID == userID && l.status in {APPROVED, PENDING, REJECTED})
  }

  /** getFilesByStatus: the user's listings with exactly the given status. */
  function FilesByStatus(listings: seq<Listing>, userID: Id, status: string): (r: seq<Listing>)
    ensures forall l :: l in r <==> l in listings && l.userID == userID && l.status == status
  {
    Select(listings, (l: Listing) => l.userID == userID && l.status == status)
  }

  /** A user's uploads never include a draft, and are the approved, pending and rejected listings together. */
  lemma UploadsAreThePublishedStatuses(listings: seq<Listing>, userID: Id)
    ensures forall l :: l in UserUploads(listings, userID) ==> l !in FilesByStatus(listings, userID, DRAFT)
    ensures forall l :: l in UserUploads(listings, userID) <==>
              l in FilesByStatus(listings, userID, APPROVED) || l in FilesByStatus(listings, userID, PENDING)
              || l in FilesByStatus(listings, userID, REJECTED)
  {
  }

  /** The schema's rules for one listing: title and price are required strings, which rejects empty ones. */
  predicate WellFormed(l: Listing)
  {
    l.title != "" && l.price != ""
  }

  /** The stored listings: each well formed, `_id` and fileID each unique. */
  ghost predicate ListingsValid(listings: seq<Listing>)
  {
    (forall i :: 0 <= i < |listings| ==> WellFormed(listings[i]))
    && (forall i, j :: 0 <= i < j < |listings| ==> listings[i].id != listings[j].id && listings[i].fileID != listings[j].fileID)
  }

  /** Whether saving `l` beside `others` would break a unique index. */
  predicate Collides(others: seq<Listing>, l: Listing)
  {
    exists k :: k in others && (k.id == l.id || k.fileID == l.fileID)
  }

  /**
   * uploadToMarketplace: the new listing is appended; any failure of the
   * save (a missing title or price, a file already listed) is UPLOAD_FAILED
   * and stores nothing.
   */
  function Upload(listings: seq<Listing>, entry: Listing): (r: (seq<Listing>, Result<Listing, RepoError>))
    ensures r.1.Ok? <==> WellFormed(entry) && !Collides(listings, entry)
    ensures r.1.Ok? ==> r == (listings + [entry], Ok(entry))
    ensures r.1.Err? ==> r == (listings, Err(DomainError(UploadFailed)))
  {
    if !WellFormed(entry) || Collides(listings, entry) then (listings, Err(DomainError(UploadFailed)))
    else (listings + [entry], Ok(entry))
  }

  /** Uploading keeps the stored listings valid. */
  lemma UploadKeepsListingsValid(listings: seq<Listing>, entry: Listing)
    requires ListingsValid(listings)
    ensures ListingsValid(Upload(listings, entry).0)
  {
    var r := Upload(listings, entry).0;
    if r != listings {
      forall i, j | 0 <= i < j < |r|
        ensures r[i].id != r[j].id && r[i].fileID != r[j].fileID
      {
        if j == |listings| {
          assert r[i] in listings;
        }
      }
    }
  }

  /** A second listing for a file already on the marketplace is refused. */
  lemma SecondListingOfAFileFails(listings: seq<Listing>, entry: Listing, other: Listing)
    requires other in listings && other.fileID == entry.fileID
    ensures Upload(listings, entry) == (listings, Err(DomainError(UploadFailed)))
  {
  }

  /**
   * The listing keys of an edit request (`updateData`: the body without
   * userID and listingId). Each key may be absent, null, or a value.
   */
  datatype ListingPatch = ListingPatch(
    title: Field<string>,
    description: Field<string>,
    fileID: Field<Id>,
    status: Field<string>,
    courseName: Field<string>,
    noteTaker: Field<string>,
    lecture: Field<string>,
    price: Field<string>)

  /** An optional path under `Object.assign`: an absent key keeps it, null or a value replaces it. */
  function Over(update: Field<string>, current: Field<string>): Field<string>
  {
    if update.Unset? then current else update
  }

  /** A required path under `Object.assign`: a value replaces it (a null is refused on save, see ClearsRequired). */
  function Pick<T>(update: Field<T>, current: T): T
  {
    if update.Present? then update.value else current
  }

  /** Whether the update sets a required path (title, fileID, price) to null, which the schema refuses on save. */
  predicate ClearsRequired(p: ListingPatch)
  {
    p.title.Null? || p.fileID.Null? || p.price.Null?
  }

  /** `Object.assign(file, updateData)`: owner, id and creation time are never among the keys. */
  function Assigned(l: Listing, p: ListingPatch): (r: Listing)
    ensures r.id == l.id && r.userID == l.userID && r.createdAt == l.createdAt
  {
    l.(title := Pick(p.title, l.title), description := Over(p.description, l.description),
       fileID := Pick(p.fileID, l.fileID), status := if p.status.Null? then "" else Pick(p.status, l.status),
       courseName := Over(p.courseName, l.courseName),
       noteTaker := Over(p.noteTaker, l.noteTaker), lecture := Over(p.lecture, l.lecture),
       price := Pick(p.price, l.price))
  }

  /**
   * An edit overwrites exactly the keys it carries, each with what it
   * carries (null included); an empty update changes nothing, and assigning
   * the same update twice is assigning it once.
   */
  lemma AssignedOverwritesOnlyGivenKeys(l: Listing, p: ListingPatch)
    ensures var r := Assigned(l, p);
            r.id == l.id && r.userID == l.userID && r.createdAt == l.createdAt
            && (p.title.Unset? ==> r.title == l.title) && (p.title.Present? ==> r.title == p.title.value)
            && (p.price.Unset? ==> r.price == l.price) && (p.price.Present? ==> r.price == p.price.value)
            && (p.fileID.Unset? ==> r.fileID == l.fileID) && (p.fileID.Present? ==> r.fileID == p.fileID.value)
            && (p.status.Unset? ==> r.status == l.status) && (p.status.Present? ==> r.status == p.status.value)
            && (p.status.Null? ==> r.status == "")
            && (p.description.Unset? ==> r.description == l.description) && (!p.description.Unset? ==> r.description == p.description)
            && (p.courseName.Unset? ==> r.courseName == l.courseName) && (!p.courseName.Unset? ==> r.courseName == p.courseName)
            && (p.noteTaker.Unset? ==> r.noteTaker == l.noteTaker) && (!p.noteTaker.Unset? ==> r.noteTaker == p.noteTaker)
            && (p.lecture.Unset? ==> r.lecture == l.lecture) && (!p.lecture.Unset? ==> r.lecture == p.lecture)
    ensures p == ListingPatch(Unset, Unset, Unset, Unset, Unset, Unset, Unset, Unset) ==> Assigned(l, p) == l
    ensures Assigned(Assigned(l, p), p) == Assigned(l, p)
  {
  }

  /** The position of the listing with `_id` `id`, if there is one (`findById`). */
  function Find(listings: seq<Listing>, id: Id): (r: Option<nat>)
    ensures r.Some? ==> r.value < |listings| && listings[r.value].id == id
    ensures r.None? <==> forall l :: l in listings ==> l.id != id
  {
    IndexWhere(listings, (l: Listing) => l.id == id)
  }

  /** The listings without position `i`: the others a saved listing must not collide with. */
  function Others(listings: seq<Listing>, i: nat): seq<Listing>
    requires i < |listings|
  {
    listings[..i] + listings[i + 1..]
  }

  /**
   * updateMarketplaceFile: NO_FILE_FOUND for an unknown listing,
   * EDIT_UNAUTHORIZED for someone else's; otherwise the assigned listing is
   * saved, which the schema refuses (a validation error) when a required
   * path became null or empty, and the unique index refuses (a store error)
   * when the fileID became that of another listing.
   */
  function Edit(listings: seq<Listing>, userID: Id, listingId: Id, p: ListingPatch): (r: (seq<Listing>, Result<Listing, RepoError>))
    ensures Find(listings, listingId).None? ==> r == (listings, Err(DomainError(NoFileFound)))
    ensures Find(listings, listingId).Some? && listings[Find(listings, listingId).value].userID != userID ==>
              r == (listings, Err(DomainError(EditUnauthorized)))
    ensures Find(listings, listingId).Some? && listings[Find(listings, listingId).value].userID == userID
            && (ClearsRequired(p) || !WellFormed(Assigned(listings[Find(listings, listingId).value], p))) ==>
              r == (listings, Err(SchemaValidationError))
    ensures Find(listings, listingId).Some? && listings[Find(listings, listingId).value].userID == userID
            && !ClearsRequired(p) && WellFormed(Assigned(listings[Find(listings, listingId).value], p))
            && Collides(Others(listings, Find(listings, listingId).value), Assigned(listings[Find(listings, listingId).value], p)) ==>
              r == (listings, Err(StoreError))
    ensures r.1.Ok? <==>
              Find(listings, listingId).Some?
              && var i := Find(listings, listingId).value;
                 listings[i].userID == userID && !ClearsRequired(p) && WellFormed(Assigned(listings[i], p))
                 && !Collides(Others(listings, i), Assigned(listings[i], p))
    ensures r.1.Err? ==> r.0 == listings
    ensures r.1.Ok? ==> var i := Find(listings, listingId).value;
              r.1.value == Assigned(listings[i], p) && r.0 == listings[i := r.1.value]
  {
    match Find(listings, listingId)
    case None => (listings, Err(DomainError(NoFileFound)))
    case Some(i) =>
      if listings[i].userID != userID then (listings, Err(DomainError(EditUnauthorized)))
      else
        var edited := Assigned(listings[i], p);
        if ClearsRequired(p) || !WellFormed(edited) then (listings, Err(SchemaValidationError))
        else if Collides(Others(listings, i), edited) then (listings, Err(StoreError))
        else (listings[i := edited], Ok(edited))
  }

  /** A successful edit is the owner's, and keeps the stored listings valid; a refused one changes nothing. */
  lemma EditKeepsListingsValid(listings: seq<Listing>, userID: Id, listingId: Id, p: ListingPatch)
    requires ListingsValid(listings)
    ensures ListingsValid(Edit(listings, userID, listingId, p).0)
  {
    var (r, result) := Edit(listings, userID, listingId, p);
    if result.Ok? {
      var i := Find(listings, listingId).value;
      var edited := result.value;
      assert !Collides(Others(listings, i), edited);
      forall a, b | 0 <= a < b < |r|
        ensures r[a].id != r[b].id && r[a].fileID != r[b].fileID
      {
        if a == i {
          assert r[b] in Others(listings, i) by {
            assert r[b] == listings[b];
            assert Others(listings, i)[b - 1] == listings[b];
          }
        } else if b == i {
          assert r[a] in Others(listings, i) by {
            assert r[a] == listings[a];
            assert Others(listings, i)[a] == listings[a];
          }
        }
      }
    }
  }

  /** addToCart: a pair already in the cart is ALREADY_IN_CART (the unique index) and changes nothing. */
  function AddToCart(cart: set<CartItem>, item: CartItem): (r: (set<CartItem>, Result<CartItem, RepoError>))
    ensures item in cart <==> r.1 == Err(DomainError(AlreadyInCart))
    ensures item in cart ==> r.0 == cart
    ensures item !in cart ==> r == (cart + {item}, Ok(item))
  {
    if item in cart then (cart, Err(DomainError(AlreadyInCart))) else (cart + {item}, Ok(item))
  }

  /** removeFromCart: the one matching pair goes; an absent pair is not an error. */
  function RemoveFromCart(cart: set<CartItem>, item: CartItem): (r: set<CartItem>)
    ensures item !in r
    ensures forall other :: other != item ==> (other in r <==> other in cart)
  {
    cart - {item}
  }

  /** Adding then removing a pair restores the cart; adding twice fails the second time. */
  lemma CartRoundTrip(cart: set<CartItem>, item: CartItem)
    requires item !in cart
    ensures RemoveFromCart(AddToCart(cart, item).0, item) == cart
    ensures AddToCart(AddToCart(cart, item).0, item) == (cart + {item}, Err(DomainError(AlreadyInCart)))
  {
  }

  /** Removing a pair that is not in the cart changes nothing. */
  lemma RemoveAbsentIsNoOp(cart: set<CartItem>, item: CartItem)
    requires item !in cart
    ensures RemoveFromCart(cart, item) == cart
  {
  }
}

=== FILE: marketplace_repository.dfy ===
/**
 * The marketplace repository's writes: each a step on the document store
 * whose effect is the MarketplaceModel function of the same name. The
 * listing queries are the MarketplaceModel functions themselves.
 */
module MarketplaceRepository {
  import opened Wrappers
  import opened Documents
  import opened Errors
  import opened MarketplaceModel

  class MarketplaceRepository {
    const db: DocumentStore

    constructor (db: DocumentStore)
      ensures this.db == db
    {
      this.db := db;
    }

    /** uploadToMarketplace: `entry` carries the `_id` and `createdAt` the store assigns. */
    method UploadToMarketplace(entry: Listing) returns (r: Result<Listing, RepoError>)
      modifies db
      ensures (db.listings, r) == Upload(old(db.listings), entry)
      ensures db.State() == old(db.State()).(listings := db.listings)
    {
      if !WellFormed(entry) || Collides(db.listings, entry) {
        return Err(DomainError(UploadFailed));
      }
      db.listings := db.listings + [entry];
      r := Ok(entry);
    }

    method AddToCart(userId: Id, fileId: Id) returns (r: Result<CartItem, RepoError>)
      modifies db
      ensures (db.cart, r) == MarketplaceModel.AddToCart(old(db.cart), CartItem(userId, fileId))
      ensures db.State() == old(db.State()).(cart := db.cart)
    {
      var cartItem := CartItem(userId, fileId);
      if cartItem in db.cart {
        return Err(DomainError(AlreadyInCart));
      }
      db.cart := db.cart + {cartItem};
      r := Ok(cartItem);
    }

    method RemoveFromCart(userId: Id, fileId: Id)
      modifies db
      ensures db.cart == MarketplaceModel.RemoveFromCart(old(db.cart), CartItem(userId, fileId))
      ensures db.State() == old(db.State()).(cart := db.cart)
    {
      db.cart := db.cart - {CartItem(userId, fileId)};
    }

    /** updateMarketplaceFile: look the listing up, check the owner, assign the update, save. */
    method UpdateMarketplaceFile(userID: Id, listingId: Id, updateData: ListingPatch) returns (r: Result<Listing, RepoError>)
      modifies db
      ensures (db.listings, r) == Edit(old(db.listings), userID, listingId, updateData)
      ensures db.State() == old(db.State()).(listings := db.listings)
    {
      var found := Find(db.listings, listingId);
      if found.None? {
        return Err(DomainError(NoFileFound));
      }
      var i := found.value;
      var file := db.listings[i];
      if file.userID != userID {
        return Err(DomainError(EditUnauthorized));
      }
      file := Assigned(file, updateData);
      if ClearsRequired(updateData) || !WellFormed(file) {
        return Err(SchemaValidationError);
      }
      if Collides(Others(db.listings, i), file) {
        return Err(StoreError);
      }
      db.listings := db.listings[i := file];
      r := Ok(file);
    }
  }
}

=== FILE: path_controller.dfy ===
/**
 * The path controller: request validation, the ownership guards, the
 * recycle-bin listing, page generation for uploaded documents, and the
 * handlers that sequence a guard and a repository step.
 *
 * The guards report a failed ownership check by passing ForbiddenError to
 * `next`, then return normally; the handler that awaited them carries on
 * with its repository step. A `Reply` therefore records both what was
 * signalled and the status written.
 */
module PathController {
  import opened Wrappers
  import opened Documents
  import opened Errors
  import opened PathModel
  import opened CanvasModel
  import opened PathRepository

  // ---------------------------------------------------------------------
  // Request parameters
  // ---------------------------------------------------------------------

  /** What the `type` query parameter selects: '1' a folder, '2' a file. */
  datatype ItemKind = FolderItem | FileItem

  /**
   * The check shared by moveToRecycleBin and recover: the id must be truthy
   * and the type exactly '1' or '2'; anything else is a ValidationError.
   */
  function ParseItemRequest(id: Option<string>, kind: Option<string>): (r: Result<(Id, ItemKind), ApiError>)
    ensures r.Ok? <==> Truthy(id) && (kind == Some("1") || kind == Some("2"))
    ensures r.Err? ==> r.error == ValidationError(IncorrectParameters)
    ensures r.Ok? ==> r.value.0 == id.value && (r.value.1 == FolderItem <==> kind == Some("1"))
  {
    if Truthy(id) && (kind == Some("1") || kind == Some("2")) then
      Ok((id.value, if kind == Some("1") then FolderItem else FileItem))
    else Err(ValidationError(IncorrectParameters))
  }

  /**
   * recover builds its id with `String(req.query.id)`, so a request without
   * an id passes validation with the id "undefined", where moveToRecycleBin
   * rejects the same request.
   */
  lemma RecoverAcceptsMissingId()
    ensures ParseItemRequest(Some(JsString(None)), Some("1")) == Ok(("undefined", FolderItem))
    ensures ParseItemRequest(None, Some("1")) == Err(ValidationError(IncorrectParameters))
  {
  }

  // ---------------------------------------------------------------------
  // Ownership guards
  // ---------------------------------------------------------------------

  /** validateFolderAccess: silent for an empty id; otherwise Forbidden unless the caller owns the folder. */
  function FolderGuard(db: Db, folderID: Option<Id>, userID: Id): (signalled: seq<ApiError>)
    ensures signalled == [] || signalled == [ForbiddenError(NoAccessFolder)]
    ensures signalled != [] <==>
              Truthy(folderID) && !(folderID.value in db.folders && db.folders[folderID.value].userID == userID)
  {
    if Truthy(folderID) && !IsFolderOwnedByUser(db, folderID.value, userID) then [ForbiddenError(NoAccessFolder)] else []
  }

  /** validateFileAccess: silent for an empty id; otherwise Forbidden unless the caller owns the file. */
  function FileGuard(db: Db, fileID: Option<Id>, userID: Id): (signalled: seq<ApiError>)
    ensures signalled == [] || signalled == [ForbiddenError(NoAccessFile)]
    ensures signalled != [] <==>
              Truthy(fileID) && !(fileID.value in db.files && db.files[fileID.value].userID == userID)
  {
    if Truthy(fileID) && !IsFileOwnedByUser(db, fileID.value, userID) then [ForbiddenError(NoAccessFile)] else []
  }

  // ---------------------------------------------------------------------
  // The recycle-bin listing
  // ---------------------------------------------------------------------

  /**
   * recycleBin as written: all the user's deleted folders; a deleted file is
   * listed when it has no folder or the user has no deleted folder at all.
   * The `some` callback never returns true, so whenever a deleted folder
   * exists every deleted file that has a folder is dropped.
   */
  function BinListing(db: Db, userID: Id): (l: BinContents)
    ensures forall d :: d in l.folders <==> d in db.folders && db.folders[d].userID == userID && db.folders[d].isDeleted
    ensures forall f :: f in l.files <==>
              && f in db.files && db.files[f].userID == userID && db.files[f].isDeleted
              && (!Truthy(db.files[f].folderID) || l.folders == {})
  {
    var bin := GetRecycleBin(db, userID);
    var files := set f | f in bin.files && (!Truthy(db.files[f].folderID) || |bin.folders| == 0);
    BinContents(files, bin.folders)
  }

  /**
   * The listing as evidently intended: a deleted file is listed unless its
   * folder is itself in the bin (recovering that folder brings it back).
   */
  function IntendedBinListing(db: Db, userID: Id): (l: BinContents)
    ensures forall d :: d in l.folders <==> d in db.folders && db.folders[d].userID == userID && db.folders[d].isDeleted
    ensures forall f :: f in l.files <==>
              && f in db.files && db.files[f].userID == userID && db.files[f].isDeleted
              && (!Truthy(db.files[f].folderID) || db.files[f].folderID.value !in l.folders)
  {
    var bin := GetRecycleBin(db, userID);
    var files := set f | f in bin.files && (!Truthy(db.files[f].folderID) || db.files[f].folderID.value !in bin.folders);
    BinContents(files, bin.folders)
  }

  /**
   * With the intended listing every binned file can be reached: it is
   * listed itself, or its folder is listed and recovering the folder
   * recovers it.
   */
  lemma IntendedBinListingReachesEveryBinnedFile(db: Db, userID: Id, f: Id)
    requires f in db.files && db.files[f].userID == userID && db.files[f].isDeleted
    ensures var l := IntendedBinListing(db, userID);
            f in l.files || (db.files[f].folderID.Some? && db.files[f].folderID.value in l.folders
                             && !RecoverFolder(db, db.files[f].folderID.value).files[f].isDeleted)
  {
  }

  /** When the user has no deleted folder the two listings agree. */
  lemma BinListingsAgreeWithoutDeletedFolders(db: Db, userID: Id)
    requires GetRecycleBin(db, userID).folders == {}
    ensures BinListing(db, userID) == IntendedBinListing(db, userID)
  {
    var a, b := BinListing(db, userID), IntendedBinListing(db, userID);
    assert a.files == b.files;
  }

  /**
   * The listing as written loses a file: the user deleted folder "d1" and,
   * separately, file "f" filed under the live folder "d2". The file is not in
   * the bin listing, and being deleted it is not in the live tree either;
   * the intended listing shows it.
   */
  lemma BinListingLosesFileOfLiveFolder()
    ensures var db := Db(map["d1" := Folder("Old", "u", None, false, true), "d2" := Folder("Live", "u", None, false, false)],
                         map["f" := File("Notes", Some("d2"), "u", None, false, true, "BLANK", None, None)],
                         map[], [], [], [], {});
            var tree := GetAllPathsByUserID(db, "u");
            && "f" !in BinListing(db, "u").files
            && "d2" !in BinListing(db, "u").folders
            && "f" !in tree.files
            && (forall d :: d in tree.folders ==> "f" !in tree.folders[d])
            && "f" in IntendedBinListing(db, "u").files
  {
    var db := Db(map["d1" := Folder("Old", "u", None, false, true), "d2" := Folder("Live", "u", None, false, false)],
                 map["f" := File("Notes", Some("d2"), "u", None, false, true, "BLANK", None, None)],
                 map[], [], [], [], {});
    assert "d1" in BinListing(db, "u").folders;
    assert "f" in IntendedBinListing(db, "u").files;
  }

  // ---------------------------------------------------------------------
  // Creating pages
  // ---------------------------------------------------------------------

  /** The ids of the items are pairwise different and none is taken yet. */
  ghost predicate FreshIds(canvases: map<Id, Canvas>, items: seq<(Id, Canvas)>)
  {
    && (forall i :: 0 <= i < |items| ==> items[i].0 !in canvases)
    && (forall i, j :: 0 <= i < j < |items| ==> items[i].0 != items[j].0)
  }

  /**
   * createCanvasesForFile on the canvas collection: each item, stamped with
   * the file's id, is inserted in order under its id; the first id already
   * taken stops the run with a 500 repository error, leaving the canvases
   * inserted before it in place.
   */
  function CreateCanvases(canvases: map<Id, Canvas>, items: seq<(Id, Canvas)>, fileID: Id): (r: (map<Id, Canvas>, Result<seq<Canvas>, RepoError>))
    decreases |items|
    ensures r.1.Err? ==> r.1.error == RepositoryError(500)
  {
    if items == [] then (canvases, Ok([]))
    else
      var id := items[0].0;
      var stamped := items[0].1.(fileID := fileID);
      if id in canvases then (canvases, Err(RepositoryError(500)))
      else
        var rest := CreateCanvases(canvases[id := stamped], items[1..], fileID);
        (rest.0, if rest.1.Ok? then Ok([stamped] + rest.1.value) else rest.1)
  }

  /** Freshness of a non-empty list, one item at a time. */
  lemma FreshIdsStep(canvases: map<Id, Canvas>, items: seq<(Id, Canvas)>, stamped: Canvas)
    requires items != []
    ensures FreshIds(canvases, items) <==>
              items[0].0 !in canvases && FreshIds(canvases[items[0].0 := stamped], items[1..])
  {
    var id, next := items[0].0, canvases[items[0].0 := stamped];
    if id !in canvases && FreshIds(next, items[1..]) {
      forall i, j | 0 <= i < j < |items| ensures items[i].0 != items[j].0 {
        assert items[j].0 == items[1..][j - 1].0;
        if i > 0 { assert items[i].0 == items[1..][i - 1].0; }
      }
      forall i | 0 <= i < |items| ensures items[i].0 !in canvases {
        if i > 0 { assert items[i].0 == items[1..][i - 1].0; }
      }
    }
    if FreshIds(canvases, items) {
      forall i | 0 <= i < |items[1..]| ensures items[1..][i].0 !in next {
        assert items[1..][i].0 == items[i + 1].0;
      }
      forall i, j | 0 <= i < j < |items[1..]| ensures items[1..][i].0 != items[1..][j].0 {
        assert items[1..][i].0 == items[i + 1].0 && items[1..][j].0 == items[j + 1].0;
      }
    }
  }

  /** Creating pages never touches a page already stored, and every new entry comes from the list. */
  lemma {:induction false} CreateCanvasesFrame(canvases: map<Id, Canvas>, items: seq<(Id, Canvas)>, fileID: Id)
    decreases |items|
    ensures var r := CreateCanvases(canvases, items, fileID);
            && (forall c :: c in canvases ==> c in r.0 && r.0[c] == canvases[c])
            && (forall c :: c in r.0 && c !in canvases ==> exists i :: 0 <= i < |items| && items[i].0 == c)
  {
    if items != [] && items[0].0 !in canvases {
      var id := items[0].0;
      var next := canvases[id := items[0].1.(fileID := fileID)];
      CreateCanvasesFrame(next, items[1..], fileID);
      var r := CreateCanvases(canvases, items, fileID);
      forall c | c in r.0 && c !in canvases
        ensures exists i :: 0 <= i < |items| && items[i].0 == c
      {
        if c != id {
          assert c in CreateCanvases(next, items[1..], fileID).0 && c !in next;
          var k :| 0 <= k < |items[1..]| && items[1..][k].0 == c;
          assert items[k + 1].0 == c;
        } else {
          assert items[0].0 == c;
        }
      }
    }
  }

  /** Creating pages succeeds exactly when the ids are fresh and pairwise different. */
  lemma {:induction false} CreateCanvasesSucceedsIffFresh(canvases: map<Id, Canvas>, items: seq<(Id, Canvas)>, fileID: Id)
    decreases |items|
    ensures CreateCanvases(canvases, items, fileID).1.Ok? <==> FreshIds(canvases, items)
  {
    if items != [] {
      var stamped := items[0].1.(fileID := fileID);
      FreshIdsStep(canvases, items, stamped);
      if items[0].0 !in canvases {
        CreateCanvasesSucceedsIffFresh(canvases[items[0].0 := stamped], items[1..], fileID);
      }
    }
  }

  /**
   * A successful run returns the stamped pages in input order, each stored
   * under its own id.
   */
  lemma {:induction false} CreateCanvasesResult(canvases: map<Id, Canvas>, items: seq<(Id, Canvas)>, fileID: Id)
    decreases |items|
    ensures var r := CreateCanvases(canvases, items, fileID);
            r.1.Ok? ==>
              && |r.1.value| == |items|
              && (forall i :: 0 <= i < |items| ==> r.1.value[i] == items[i].1.(fileID := fileID))
              && (forall i :: 0 <= i < |items| ==> items[i].0 in r.0 && r.0[items[i].0] == r.1.value[i])
  {
    var r := CreateCanvases(canvases, items, fileID);
    if items != [] && items[0].0 !in canvases && r.1.Ok? {
      var id := items[0].0;
      var stamped := items[0].1.(fileID := fileID);
      var next := canvases[id := stamped];
      var rest := CreateCanvases(next, items[1..], fileID);
      CreateCanvasesResult(next, items[1..], fileID);
      CreateCanvasesFrame(next, items[1..], fileID);
      forall i | 0 <= i < |items|
        ensures r.1.value[i] == items[i].1.(fileID := fileID)
        ensures items[i].0 in r.0 && r.0[items[i].0] == r.1.value[i]
      {
        if i > 0 {
          assert r.1.value[i] == rest.1.value[i - 1];
          assert items[i] == items[1..][i - 1];
        } else {
          assert id in next && next[id] == stamped;
        }
      }
    }
  }

  /** The pages an uploaded document starts with: blank pages numbered 1..n, each under a store-chosen id. */
  function UploadPages(n: nat, pageId: nat -> Id): (items: seq<(Id, Canvas)>)
    ensures |items| == n
    ensures forall i :: 0 <= i < n ==> items[i].1.pageNo == i + 1 && items[i].0 == pageId(i)
  {
    var pages := seq(n, i => BlankPage(i + 1));
    seq(n, i requires 0 <= i < n => (pageId(i), pages[i]))
  }

  /**
   * A freshly uploaded file whose pages were all created has exactly the
   * pages 1..n: one canvas per page, none missing, none repeated.
   */
  lemma UploadedPagesContiguous(canvases: map<Id, Canvas>, n: nat, pageId: nat -> Id, fileID: Id)
    requires forall c :: c in canvases ==> canvases[c].fileID != fileID
    requires CreateCanvases(canvases, UploadPages(n, pageId), fileID).1.Ok?
    ensures PagesExactly(CreateCanvases(canvases, UploadPages(n, pageId), fileID).0, fileID, n)
  {
    var items := UploadPages(n, pageId);
    var r := CreateCanvases(canvases, items, fileID);
    CreateCanvasesFrame(canvases, items, fileID);
    CreateCanvasesResult(canvases, items, fileID);
    var m, pages := r.0, r.1.value;
    forall c | c in m && m[c].fileID == fileID
      ensures 1 <= m[c].pageNo <= n
    {
      assert c !in canvases;
      var i :| 0 <= i < |items| && items[i].0 == c;
      assert m[c] == pages[i];
    }
    forall p | 1 <= p <= n
      ensures HasPage(m, fileID, p)
    {
      var c := items[p - 1].0;
      assert c in m && m[c] == pages[p - 1] && m[c].pageNo == p;
    }
    forall c1, c2 | c1 in m && c2 in m && m[c1].fileID == fileID && m[c2].fileID == fileID && m[c1].pageNo == m[c2].pageNo
      ensures c1 == c2
    {
      assert c1 !in canvases && c2 !in canvases;
      var i :| 0 <= i < |items| && items[i].0 == c1;
      var j :| 0 <= j < |items| && items[j].0 == c2;
      assert m[c1] == pages[i] && m[c2] == pages[j];
      assert i == j;
    }
  }

  /** An upload names its storage key after the user and the original file name. */
  function UserFileKey(userID: Id, fileName: string): string
  {
    "userFiles/" + userID + "/" + fileName
  }

  /** Two uploads by the same user under different names never share a key. */
  lemma UserFileKeysDistinct(userID: Id, a: string, b: string)
    requires a != b
    ensures UserFileKey(userID, a) != UserFileKey(userID, b)
  {
    var prefix := "userFiles/" + userID + "/";
    assert UserFileKey(userID, a) == prefix + a && UserFileKey(userID, b) == prefix + b;
    assert UserFileKey(userID, a)[|prefix|..] == a;
    assert UserFileKey(userID, b)[|prefix|..] == b;
  }

  /** The folder an upload is filed under: the form's folderID unless it is empty or the string 'null'. */
  function UploadFolder(folderID: Option<string>): (r: Option<Id>)
    ensures r.Some? <==> Truthy(folderID) && folderID.value != "null"
    ensures r.Some? ==> r == folderID
  {
    if Truthy(folderID) && folderID.value != "null" then folderID else None
  }

  /** The file record an upload creates: the original name, the stored object's location as its link. */
  function UploadedFile(fileName: string, folderID: Option<string>, userID: Id, location: string): (f: File)
    ensures f.fileName == fileName && f.userID == userID && f.folderID == UploadFolder(folderID)
    ensures f.link == Some(location) && f.fileTemplate == "BLANK" && f.lastCanvasTemplate.None?
    ensures !f.isDeleted && !f.isFavorite
  {
    NewFile(fileName, UploadFolder(folderID), userID, None, None, None, Some(location))
  }

  // ---------------------------------------------------------------------
  // The controller
  // ---------------------------------------------------------------------

  /**
   * A request to object storage, recorded as it is sent. A delete is never
   * awaited; an upload is, and what storage answers is a StorageAnswer.
   */
  datatype StorageRequest = UploadObject(key: string) | DeleteObject(key: string)

  /** What storage answers an upload: it rejects (the upload throws), or it resolves with a location or without one. */
  datatype StorageAnswer = Rejected | Answered(location: Option<string>)

  /** A document uploaded with the form: its original name and its page count, None when pdf-parse rejects it. */
  datatype Upload = Upload(originalname: string, numOfPages: Option<nat>)

  /** The body of a create-file request; an empty or missing `fileName` is "". */
  datatype FileRequest = FileRequest(
    folderID: Option<Id>,
    fileName: string,
    localFileID: Option<string>,
    fileTemplate: Option<string>,
    lastCanvasTemplate: Option<string>,
    link: Option<string>,
    canvas: Option<seq<(Id, Canvas)>>)

  class PathController {
    const db: DocumentStore
    const pathRepository: PathRepository
    var storageRequests: seq<StorageRequest>

    ghost predicate Valid()
    {
      pathRepository.db == db
    }

    constructor (db: DocumentStore)
      ensures Valid() && this.db == db && storageRequests == []
    {
      this.db := db;
      this.pathRepository := new PathRepository(db);
      this.storageRequests := [];
    }

    /** recycleBin: reads the bin and answers 200 with the filtered listing. */
    method RecycleBin(userID: Id) returns (reply: Reply, listing: BinContents)
      ensures reply == Reply([], Some(OK))
      ensures listing == BinListing(db.State(), userID)
    {
      listing := BinListing(db.State(), userID);
      reply := Reply([], Some(OK));
    }

    method MoveToRecycleBin(id: Option<string>, kind: Option<string>, userID: Id) returns (reply: Reply)
      requires Valid()
      modifies db
      ensures ParseItemRequest(id, kind).Err? ==>
                reply == Reply([ValidationError(IncorrectParameters)], None) && db.State() == old(db.State())
      ensures ParseItemRequest(id, kind).Ok? && kind == Some("1") ==>
                && reply == Reply(FolderGuard(old(db.State()), id, userID), Some(OK))
                && db.State() == PathModel.SoftDeleteFolder(old(db.State()), id.value)
      ensures ParseItemRequest(id, kind).Ok? && kind == Some("2") ==>
                && reply == Reply(FileGuard(old(db.State()), id, userID), Some(OK))
                && db.State() == PathModel.SoftDeleteFile(old(db.State()), id.value)
    {
      var request := ParseItemRequest(id, kind);
      if request.Err? {
        return Reply([request.error], None);
      }
      var (itemID, item) := request.value;
      if item == FolderItem {
        var signalled := FolderGuard(db.State(), id, userID);
        var _ := pathRepository.SoftDeleteFolder(itemID);
        reply := Reply(signalled, Some(OK));
      } else {
        var signalled := FileGuard(db.State(), id, userID);
        var _ := pathRepository.SoftDeleteFile(itemID);
        reply := Reply(signalled, Some(OK));
      }
    }

    /** recover: as moveToRecycleBin, but the id is `String(req.query.id)` and the answer is 204. */
    method Recover(id: Option<string>, kind: Option<string>, userID: Id) returns (reply: Reply)
      requires Valid()
      modifies db
      ensures ParseItemRequest(Some(JsString(id)), kind).Err? ==>
                reply == Reply([ValidationError(IncorrectParameters)], None) && db.State() == old(db.State())
      ensures ParseItemRequest(Some(JsString(id)), kind).Ok? && kind == Some("1") ==>
                && reply == Reply(FolderGuard(old(db.State()), Some(JsString(id)), userID), Some(NO_CONTENT))
                && db.State() == PathModel.RecoverFolder(old(db.State()), JsString(id))
      ensures ParseItemRequest(Some(JsString(id)), kind).Ok? && kind == Some("2") ==>
                && reply == Reply(FileGuard(old(db.State()), Some(JsString(id)), userID), Some(NO_CONTENT))
                && db.State() == PathModel.RecoverFile(old(db.State()), JsString(id))
    {
      var idText := JsString(id);
      var request := ParseItemRequest(Some(idText), kind);
      if request.Err? {
        return Reply([request.error], None);
      }
      var (itemID, item) := request.value;
      if item == FolderItem {
        var signalled := FolderGuard(db.State(), Some(idText), userID);
        var _ := pathRepository.RecoverFolder(itemID);
        reply := Reply(signalled, Some(NO_CONTENT));
      } else {
        var signalled := FileGuard(db.State(), Some(idText), userID);
        var _ := pathRepository.RecoverFile(itemID);
        reply := Reply(signalled, Some(NO_CONTENT));
      }
    }

    /**
     * deleteFileByFileID: guard, read the file, delete it with its canvases,
     * then read `file.link`. For an unknown id that read throws, after the
     * delete already ran. A file with a link also gets its stored object
     * deleted.
     */
    method DeleteFileByFileID(fileID: Id, userID: Id) returns (reply: Reply)
      requires Valid()
      modifies db, this
      ensures db.State() == DeleteFile(old(db.State()), fileID).0
      ensures fileID !in old(db.files) ==>
                && reply == Reply(FileGuard(old(db.State()), Some(fileID), userID) + [InternalServerError], None)
                && storageRequests == old(storageRequests)
      ensures fileID in old(db.files) ==>
                && reply == Reply(FileGuard(old(db.State()), Some(fileID), userID), Some(NO_CONTENT))
                && storageRequests == old(storageRequests) +
                     (if old(db.files)[fileID].link.Some? then [DeleteObject(UserFileKey(userID, old(db.files)[fileID].fileName))] else [])
    {
      var signalled := FileGuard(db.State(), Some(fileID), userID);
      var file := GetFileByFileID(db.State(), fileID);
      var _ := pathRepository.DeleteFileByFileID(fileID);
      if file.None? {
        return Reply(signalled + [InternalServerError], None);
      }
      if file.value.link.Some? {
        storageRequests := storageRequests + [DeleteObject(UserFileKey(userID, file.value.fileName))];
      }
      reply := Reply(signalled, Some(NO_CONTENT));
    }

    method RenameFolder(folderID: Id, folderName: string, userID: Id) returns (reply: Reply)
      requires Valid()
      modifies db
      ensures reply == Reply(FolderGuard(old(db.State()), Some(folderID), userID), Some(OK))
      ensures db.State() == PathModel.RenameFolder(old(db.State()), folderID, folderName)
    {
      var signalled := FolderGuard(db.State(), Some(folderID), userID);
      var _ := pathRepository.RenameFolder(folderID, folderName);
      reply := Reply(signalled, Some(OK));
    }

    method DeleteFolderByFolderID(folderID: Id, userID: Id) returns (reply: Reply)
      requires Valid()
      modifies db
      ensures reply == Reply(FolderGuard(old(db.State()), Some(folderID), userID), Some(NO_CONTENT))
      ensures db.State() == DeleteFolder(old(db.State()), folderID).0
    {
      var signalled := FolderGuard(db.State(), Some(folderID), userID);
      var _ := pathRepository.DeleteFolderByFolderID(folderID);
      reply := Reply(signalled, Some(NO_CONTENT));
    }

    method RenameFile(p: FilePatch, userID: Id) returns (reply: Reply)
      requires Valid()
      modifies db
      ensures reply == Reply(FileGuard(old(db.State()), Some(p.fileID), userID), Some(OK))
      ensures db.State() == PathModel.UpdateFile(old(db.State()), p)
    {
      var signalled := FileGuard(db.State(), Some(p.fileID), userID);
      var _ := pathRepository.UpdateFile(p);
      reply := Reply(signalled, Some(OK));
    }

    /**
     * createCanvasesForFile: stamp each canvas with the file's id and create
     * it, in input order; a missing list creates nothing.
     */
    method CreateCanvasesForFile(canvases: Option<seq<(Id, Canvas)>>, fileID: Id) returns (r: Result<seq<Canvas>, RepoError>)
      requires Valid()
      modifies db
      ensures var spec := CreateCanvases(old(db.canvases), if canvases.Some? then canvases.value else [], fileID);
              db.State() == old(db.State()).(canvases := spec.0) && r == spec.1
    {
      var items := if canvases.Some? then canvases.value else [];
      ghost var spec := CreateCanvases(db.canvases, items, fileID);
      var arrayOfCanvases: seq<Canvas> := [];
      var i := 0;
      while i < |items|
        invariant 0 <= i <= |items|
        invariant db.State() == old(db.State()).(canvases := db.canvases)
        invariant CreateCanvases(db.canvases, items[i..], fileID).0 == spec.0
        invariant CreateCanvases(db.canvases, items[i..], fileID).1.Ok? <==> spec.1.Ok?
        invariant spec.1.Ok? ==> spec.1.value == arrayOfCanvases + CreateCanvases(db.canvases, items[i..], fileID).1.value
      {
        assert items[i..][0] == items[i] && items[i..][1..] == items[i + 1..];
        var element := items[i].1.(fileID := fileID);
        var createdCanvas := pathRepository.CreateCanvas(items[i].0, element);
        if createdCanvas.Err? {
          assert CreateCanvases(db.canvases, items[i..], fileID).1.Err?;
          assert spec.1 == Err(RepositoryError(500));
          return Err(createdCanvas.error);
        }
        arrayOfCanvases := arrayOfCanvases + [createdCanvas.value];
        i := i + 1;
      }
      assert items[i..] == [];
      assert CreateCanvases(db.canvases, items[i..], fileID) == (db.canvases, Ok([]));
      assert arrayOfCanvases + [] == arrayOfCanvases;
      r := Ok(arrayOfCanvases);
    }

    /**
     * createFile: the folder guard is started but not awaited (it still
     * signals), then the file is created under the store-chosen id
     * `newFileID`, then its canvases; any repository failure answers 500.
     */
    method CreateFile(request: FileRequest, userID: Id, newFileID: Id) returns (reply: Reply)
      requires Valid()
      modifies db
      ensures var signalled := FolderGuard(old(db.State()), request.folderID, userID);
              var file := NewFile(request.fileName, request.folderID, userID, request.localFileID,
                                  request.fileTemplate, request.lastCanvasTemplate, request.link);
              var spec := CreateCanvases(old(db.canvases), if request.canvas.Some? then request.canvas.value else [], newFileID);
              && (request.fileName == "" || newFileID in old(db.files) ==>
                    reply == Reply(signalled + [InternalServerError], None) && db.State() == old(db.State()))
              && (request.fileName != "" && newFileID !in old(db.files) ==>
                    && db.State() == old(db.State()).(files := old(db.files)[newFileID := file], canvases := spec.0)
                    && reply == (if spec.1.Ok? then Reply(signalled, Some(CREATED)) else Reply(signalled + [InternalServerError], None)))
    {
      var signalled := FolderGuard(db.State(), request.folderID, userID);
      var file := NewFile(request.fileName, request.folderID, userID, request.localFileID,
                          request.fileTemplate, request.lastCanvasTemplate, request.link);
      var createdFile := pathRepository.CreateFile(newFileID, file);
      if createdFile.Err? {
        return Reply(signalled + [InternalServerError], None);
      }
      var arrayOfCanvases := CreateCanvasesForFile(request.canvas, newFileID);
      if arrayOfCanvases.Err? {
        return Reply(signalled + [InternalServerError], None);
      }
      reply := Reply(signalled, Some(CREATED));
    }

    /**
     * uploadFileToS3: without a file nothing is answered. Otherwise the
     * document's pages are counted, then it is sent to storage; a rejected
     * count or a rejected upload is a 500 that stores nothing. An answer
     * without a location ends the handler with nothing answered. With one,
     * a file record linking to it is created (no folder guard), then one
     * blank page per page of the document, numbered 1..numOfPages.
     */
    method UploadFileToS3(upload: Option<Upload>, userID: Id, folderID: Option<string>, storage: StorageAnswer,
                          newFileID: Id, pageId: nat -> Id) returns (reply: Reply)
      requires Valid()
      modifies db, this
      ensures upload.None? || upload.value.numOfPages.None? ==> storageRequests == old(storageRequests) && db.State() == old(db.State())
      ensures upload.None? ==> reply == Reply([], None)
      ensures upload.Some? && upload.value.numOfPages.None? ==> reply == Reply([InternalServerError], None)
      ensures upload.Some? && upload.value.numOfPages.Some? ==>
                storageRequests == old(storageRequests) + [UploadObject(UserFileKey(userID, upload.value.originalname))]
      ensures upload.Some? && upload.value.numOfPages.Some? && storage.Rejected? ==>
                reply == Reply([InternalServerError], None) && db.State() == old(db.State())
      ensures upload.Some? && upload.value.numOfPages.Some? && storage.Answered? && !Truthy(storage.location) ==>
                reply == Reply([], None) && db.State() == old(db.State())
      ensures upload.Some? && upload.value.numOfPages.Some? && storage.Answered? && Truthy(storage.location)
              && (upload.value.originalname == "" || newFileID in old(db.files)) ==>
                reply == Reply([InternalServerError], None) && db.State() == old(db.State())
      ensures upload.Some? && upload.value.numOfPages.Some? && storage.Answered? && Truthy(storage.location)
              && upload.value.originalname != "" && newFileID !in old(db.files) ==>
                var spec := CreateCanvases(old(db.canvases), UploadPages(upload.value.numOfPages.value, pageId), newFileID);
                && db.State() == old(db.State()).(files := old(db.files)[newFileID := UploadedFile(upload.value.originalname, folderID, userID, storage.location.value)],
                                                  canvases := spec.0)
                && reply == (if spec.1.Ok? then Reply([], Some(CREATED)) else Reply([InternalServerError], None))
    {
      if upload.None? {
        return Reply([], None);
      }
      var file := upload.value;
      if file.numOfPages.None? {
        return Reply([InternalServerError], None);
      }
      var numOfPages := file.numOfPages.value;
      var key := UserFileKey(userID, file.originalname);
      storageRequests := storageRequests + [UploadObject(key)];
      if storage.Rejected? {
        return Reply([InternalServerError], None);
      }
      if !Truthy(storage.location) {
        return Reply([], None);
      }
      var record := UploadedFile(file.originalname, folderID, userID, storage.location.value);
      var createdFile := pathRepository.CreateFile(newFileID, record);
      if createdFile.Err? {
        return Reply([InternalServerError], None);
      }
      var arrayOfCanvases := CreateCanvasesForFile(Some(UploadPages(numOfPages, pageId)), newFileID);
      if arrayOfCanvases.Err? {
        return Reply([InternalServerError], None);
      }
      reply := Reply([], Some(CREATED));
    }
  }
}

=== FILE: path_model.dfy ===
/**
 * The folder/file/canvas hierarchy store (PathRepository): the live tree,
 * ownership checks, soft delete and recovery, the recycle bin, and the
 * hard-delete cascades. Each repository method is one atomic step on the
 * document store; the pure functions below say what that step does to a
 * snapshot of the store, and the lemmas state what the steps promise.
 */
module PathModel {
  import opened Wrappers
  import opened Documents
  import opened Errors

  // ---------------------------------------------------------------------
  // Selections (the `find` / `deleteMany` / `updateMany` filters)
  // ---------------------------------------------------------------------

  /** `{ userID, isDeleted: false }` over folders. */
  function LiveFolders(folders: map<Id, Folder>, userID: Id): set<Id>
  {
    set d | d in folders && folders[d].userID == userID && !folders[d].isDeleted
  }

  /** `{ userID, isDeleted: false }` over files. */
  function LiveFiles(files: map<Id, File>, userID: Id): set<Id>
  {
    set f | f in files && files[f].userID == userID && !files[f].isDeleted
  }

  /** `{ userID, isDeleted: true }` over folders. */
  function DeletedFolders(folders: map<Id, Folder>, userID: Id): set<Id>
  {
    set d | d in folders && folders[d].userID == userID && folders[d].isDeleted
  }

  /** `{ userID, isDeleted: true }` over files. */
  function DeletedFiles(files: map<Id, File>, userID: Id): set<Id>
  {
    set f | f in files && files[f].userID == userID && files[f].isDeleted
  }

  /** `{ folderID }` over files. */
  function FilesIn(files: map<Id, File>, folderID: Id): set<Id>
  {
    set f | f in files && files[f].folderID == Some(folderID)
  }

  /** `{ userID }` over folders. */
  function FoldersOwnedBy(folders: map<Id, Folder>, userID: Id): set<Id>
  {
    set d | d in folders && folders[d].userID == userID
  }

  /** `{ userID }` over files. */
  function FilesOwnedBy(files: map<Id, File>, userID: Id): set<Id>
  {
    set f | f in files && files[f].userID == userID
  }

  /** `{ fileID: { $in: fileIDs } }` over canvases. */
  function CanvasesOf(canvases: map<Id, Canvas>, fileIDs: set<Id>): set<Id>
  {
    set c | c in canvases && canvases[c].fileID in fileIDs
  }

  // ---------------------------------------------------------------------
  // Reads
  // ---------------------------------------------------------------------

  /**
   * What getAllPathsByUserID returns: for each live folder of the user the
   * ids of the live files filed under it, the live files with no folder, and
   * for each live file its page-1 canvases (the thumbnail preview).
   */
  datatype PathTree = PathTree(folders: map<Id, set<Id>>, files: set<Id>, thumbnails: map<Id, set<Id>>)

  function GetAllPathsByUserID(db: Db, userID: Id): (t: PathTree)
    ensures forall d :: d in t.folders <==> d in db.folders && db.folders[d].userID == userID && !db.folders[d].isDeleted
    ensures forall d, f {:trigger f in t.folders[d]} :: d in t.folders ==>
              (f in t.folders[d] <==>
                 f in db.files && db.files[f].userID == userID && !db.files[f].isDeleted && db.files[f].folderID == Some(d))
    ensures forall f :: f in t.files <==>
              f in db.files && db.files[f].userID == userID && !db.files[f].isDeleted && db.files[f].folderID.None?
    ensures forall f :: f in t.thumbnails <==> f in db.files && db.files[f].userID == userID && !db.files[f].isDeleted
    ensures forall f, c {:trigger c in t.thumbnails[f]} :: f in t.thumbnails ==>
              (c in t.thumbnails[f] <==> c in db.canvases && db.canvases[c].fileID == f && db.canvases[c].pageNo == 1)
  {
    var live := LiveFiles(db.files, userID);
    var previews := set c | c in db.canvases && db.canvases[c].fileID in live && db.canvases[c].pageNo == 1;
    PathTree(
      map d | d in LiveFolders(db.folders, userID) :: set f | f in live && db.files[f].folderID == Some(d),
      set f | f in live && db.files[f].folderID.None?,
      map f | f in live :: set c | c in previews && db.canvases[c].fileID == f)
  }

  /**
   * A live file whose folder is not live (deleted, gone, or someone else's)
   * is listed nowhere in the tree: not at the top level, not under any folder.
   */
  lemma LiveFileOfHiddenFolderIsHidden(db: Db, userID: Id, f: Id)
    requires f in db.files && db.files[f].userID == userID && !db.files[f].isDeleted
    requires db.files[f].folderID.Some? && db.files[f].folderID.value !in LiveFolders(db.folders, userID)
    ensures var t := GetAllPathsByUserID(db, userID);
            f !in t.files && forall d :: d in t.folders ==> f !in t.folders[d]
  {
  }

  /** getCanvasByFileID: no canvases for a missing or soft-deleted file. */
  function GetCanvasByFileID(db: Db, fileID: Id): (r: set<Id>)
    ensures fileID !in db.files || db.files[fileID].isDeleted ==> r == {}
    ensures fileID in db.files && !db.files[fileID].isDeleted ==>
              forall c :: c in r <==> c in db.canvases && db.canvases[c].fileID == fileID
  {
    if fileID !in db.files || db.files[fileID].isDeleted then {}
    else CanvasesOf(db.canvases, {fileID})
  }

  /**
   * getFileByFileID (`findById`): the record, in the bin or not, or nothing
   * for an unknown id; the caller owns it exactly when isFileOwnedByUser says so.
   */
  function GetFileByFileID(db: Db, fileID: Id): (r: Option<File>)
    ensures r.Some? <==> fileID in db.files
    ensures r.Some? ==> r.value == db.files[fileID]
    ensures forall userID :: r.Some? && r.value.userID == userID <==> IsFileOwnedByUser(db, fileID, userID)
  {
    if fileID in db.files then Some(db.files[fileID]) else None
  }

  /**
   * isFileOwnedByUser: a `findOne({ _id, userID })` that found something.
   * An unknown id is simply not owned; it raises nothing.
   */
  function IsFileOwnedByUser(db: Db, fileID: Id, userID: Id): (owned: bool)
    ensures owned <==> fileID in db.files && db.files[fileID].userID == userID
  {
    fileID in FilesOwnedBy(db.files, userID)
  }

  /** isFolderOwnedByUser: the same check over folders. */
  function IsFolderOwnedByUser(db: Db, folderID: Id, userID: Id): (owned: bool)
    ensures owned <==> folderID in db.folders && db.folders[folderID].userID == userID
  {
    folderID in FoldersOwnedBy(db.folders, userID)
  }

  /** The two lists getRecycleBin fetches: the user's deleted files and deleted folders. */
  datatype BinContents = BinContents(files: set<Id>, folders: set<Id>)

  function GetRecycleBin(db: Db, userID: Id): (b: BinContents)
    ensures forall f :: f in b.files <==> f in db.files && db.files[f].userID == userID && db.files[f].isDeleted
    ensures forall d :: d in b.folders <==> d in db.folders && db.folders[d].userID == userID && db.folders[d].isDeleted
  {
    BinContents(DeletedFiles(db.files, userID), DeletedFolders(db.folders, userID))
  }

  // ---------------------------------------------------------------------
  // Flag updates
  // ---------------------------------------------------------------------

  /** `updateOne({ _id: fileID }, { $set: { isDeleted: flag } })`. */
  function SetFileFlag(files: map<Id, File>, fileID: Id, flag: bool): (r: map<Id, File>)
    ensures r.Keys == files.Keys
    ensures forall f :: f in files ==> r[f] == if f == fileID then files[f].(isDeleted := flag) else files[f]
  {
    if fileID in files then files[fileID := files[fileID].(isDeleted := flag)] else files
  }

  /** `updateOne({ _id: folderID }, { $set: { isDeleted: flag } })`. */
  function SetFolderFlag(folders: map<Id, Folder>, folderID: Id, flag: bool): (r: map<Id, Folder>)
    ensures r.Keys == folders.Keys
    ensures forall d :: d in folders ==> r[d] == if d == folderID then folders[d].(isDeleted := flag) else folders[d]
  {
    if folderID in folders then folders[folderID := folders[folderID].(isDeleted := flag)] else folders
  }

  /** `updateMany({ folderID }, { $set: { isDeleted: flag } })`. */
  function SetFlagInFolder(files: map<Id, File>, folderID: Id, flag: bool): (r: map<Id, File>)
    ensures r.Keys == files.Keys
    ensures forall f :: f in files ==>
              r[f] == if files[f].folderID == Some(folderID) then files[f].(isDeleted := flag) else files[f]
  {
    map f | f in files :: if files[f].folderID == Some(folderID) then files[f].(isDeleted := flag) else files[f]
  }

  /** softDeleteFile: only that file's flag is set. */
  function SoftDeleteFile(db: Db, fileID: Id): (r: Db)
    ensures r == db.(files := r.files) && r.files.Keys == db.files.Keys
    ensures fileID in db.files ==> r.files[fileID].isDeleted
    ensures forall f :: f in db.files && f != fileID ==> r.files[f] == db.files[f]
  {
    db.(files := SetFileFlag(db.files, fileID, true))
  }

  /**
   * softDeleteFolder: the folder's flag is set and so is the flag of every
   * file filed under it, whatever that flag was.
   */
  function SoftDeleteFolder(db: Db, folderID: Id): (r: Db)
    ensures r == db.(folders := r.folders, files := r.files)
    ensures r.folders.Keys == db.folders.Keys && r.files.Keys == db.files.Keys
    ensures folderID in db.folders ==> r.folders[folderID] == db.folders[folderID].(isDeleted := true)
    ensures forall d :: d in db.folders && d != folderID ==> r.folders[d] == db.folders[d]
    ensures forall f :: f in db.files && db.files[f].folderID == Some(folderID) ==> r.files[f].isDeleted
    ensures forall f :: f in db.files && db.files[f].folderID != Some(folderID) ==> r.files[f] == db.files[f]
  {
    db.(folders := SetFolderFlag(db.folders, folderID, true), files := SetFlagInFolder(db.files, folderID, true))
  }

  /** recoverFile: only that file's flag is cleared. */
  function RecoverFile(db: Db, fileID: Id): (r: Db)
    ensures r == db.(files := r.files) && r.files.Keys == db.files.Keys
    ensures fileID in db.files ==> !r.files[fileID].isDeleted
    ensures forall f :: f in db.files && f != fileID ==> r.files[f] == db.files[f]
  {
    db.(files := SetFileFlag(db.files, fileID, false))
  }

  /**
   * recoverFolder: the folder's flag is cleared and so is the flag of every
   * file filed under it, including files that were deleted on their own.
   */
  function RecoverFolder(db: Db, folderID: Id): (r: Db)
    ensures r == db.(folders := r.folders, files := r.files)
    ensures r.folders.Keys == db.folders.Keys && r.files.Keys == db.files.Keys
    ensures folderID in db.folders ==> r.folders[folderID] == db.folders[folderID].(isDeleted := false)
    ensures forall d :: d in db.folders && d != folderID ==> r.folders[d] == db.folders[d]
    ensures forall f :: f in db.files && db.files[f].folderID == Some(folderID) ==> !r.files[f].isDeleted
    ensures forall f :: f in db.files && db.files[f].folderID != Some(folderID) ==> r.files[f] == db.files[f]
  {
    db.(folders := SetFolderFlag(db.folders, folderID, false), files := SetFlagInFolder(db.files, folderID, false))
  }

  /**
   * recoverAll: every folder and every file of the user is live afterwards;
   * records of other users are untouched.
   */
  function RecoverAll(db: Db, userID: Id): (r: Db)
    ensures r == db.(folders := r.folders, files := r.files)
    ensures r.folders.Keys == db.folders.Keys && r.files.Keys == db.files.Keys
    ensures forall d :: d in db.folders ==>
              r.folders[d] == if db.folders[d].userID == userID then db.folders[d].(isDeleted := false) else db.folders[d]
    ensures forall f :: f in db.files ==>
              r.files[f] == if db.files[f].userID == userID then db.files[f].(isDeleted := false) else db.files[f]
  {
    var deletedFolders := DeletedFolders(db.folders, userID);
    var deletedFiles := DeletedFiles(db.files, userID);
    db.(folders := map d | d in db.folders :: if d in deletedFolders then db.folders[d].(isDeleted := false) else db.folders[d],
        files := map f | f in db.files :: if f in deletedFiles then db.files[f].(isDeleted := false) else db.files[f])
  }

  /** Running recoverAll a second time changes nothing. */
  lemma RecoverAllIdempotent(db: Db, userID: Id)
    ensures RecoverAll(RecoverAll(db, userID), userID) == RecoverAll(db, userID)
  {
    var once := RecoverAll(db, userID);
    var twice := RecoverAll(once, userID);
    assert twice.folders == once.folders;
    assert twice.files == once.files;
  }

  /** After recoverAll the user's bin is empty. */
  lemma RecoverAllEmptiesBin(db: Db, userID: Id)
    ensures GetRecycleBin(RecoverAll(db, userID), userID) == BinContents({}, {})
  {
    var r := RecoverAll(db, userID);
    assert DeletedFiles(r.files, userID) == {};
    assert DeletedFolders(r.folders, userID) == {};
  }

  /**
   * The recovery asymmetry: a file deleted on its own before its folder was
   * deleted comes back when the folder is recovered.
   */
  lemma RecoverFolderResurrectsSeparatelyDeletedFile(db: Db, folderID: Id, fileID: Id)
    requires fileID in db.files && db.files[fileID].folderID == Some(folderID)
    ensures var binned := SoftDeleteFolder(SoftDeleteFile(db, fileID), folderID);
            binned.files[fileID].isDeleted && !RecoverFolder(binned, folderID).files[fileID].isDeleted
  {
  }

  /**
   * Moving a live folder whose files are all live to the bin and recovering
   * it gives back exactly the store it started from.
   */
  lemma SoftDeleteRecoverFolderRoundTrip(db: Db, folderID: Id)
    requires folderID in db.folders && !db.folders[folderID].isDeleted
    requires forall f :: f in db.files && db.files[f].folderID == Some(folderID) ==> !db.files[f].isDeleted
    ensures RecoverFolder(SoftDeleteFolder(db, folderID), folderID) == db
  {
    var r := RecoverFolder(SoftDeleteFolder(db, folderID), folderID);
    assert r.folders == db.folders;
    assert forall f :: f in db.files ==> r.files[f] == db.files[f];
    assert r.files == db.files;
  }

  // ---------------------------------------------------------------------
  // Hard deletes
  // ---------------------------------------------------------------------

  /**
   * deleteFileByFileID: every canvas of the file, then the file. The result
   * says whether the file existed.
   */
  function DeleteFile(db: Db, fileID: Id): (r: (Db, bool))
    ensures r.1 <==> fileID in db.files
    ensures r.0 == db.(files := r.0.files, canvases := r.0.canvases)
    ensures r.0.files == db.files - {fileID}
    ensures forall c :: c in r.0.canvases <==> c in db.canvases && db.canvases[c].fileID != fileID
    ensures forall c :: c in r.0.canvases ==> r.0.canvases[c] == db.canvases[c]
  {
    (db.(files := db.files - {fileID}, canvases := db.canvases - CanvasesOf(db.canvases, {fileID})),
     fileID in db.files)
  }

  /**
   * deleteFolderByFolderID: the folder, every file filed under it and every
   * canvas of those files go; nothing else changes.
   */
  function DeleteFolder(db: Db, folderID: Id): (r: (Db, bool))
    ensures r.1 <==> folderID in db.folders
    ensures r.0 == db.(folders := r.0.folders, files := r.0.files, canvases := r.0.canvases)
    ensures r.0.folders == db.folders - {folderID}
    ensures forall f :: f in r.0.files <==> f in db.files && db.files[f].folderID != Some(folderID)
    ensures forall c :: c in r.0.canvases <==>
              c in db.canvases && !(db.canvases[c].fileID in db.files && db.files[db.canvases[c].fileID].folderID == Some(folderID))
    ensures forall f :: f in r.0.files ==> r.0.files[f] == db.files[f]
    ensures forall c :: c in r.0.canvases ==> r.0.canvases[c] == db.canvases[c]
  {
    var doomed := FilesIn(db.files, folderID);
    (db.(folders := db.folders - {folderID},
         files := db.files - doomed,
         canvases := db.canvases - CanvasesOf(db.canvases, doomed)),
     folderID in db.folders)
  }

  /** After deleting a folder no canvas is left pointing at a file the delete removed. */
  lemma DeleteFolderLeavesNoOrphans(db: Db, folderID: Id)
    ensures var r := DeleteFolder(db, folderID).0;
            forall c :: c in r.canvases && r.canvases[c].fileID in db.files ==> r.canvases[c].fileID in r.files
  {
  }

  /**
   * hardDeleteAll ("empty bin"). Nothing is deleted when the user has no
   * deleted file, or when none of the deleted files has a canvas. Otherwise
   * those canvases, then all the user's deleted folders and deleted files go.
   * The result is true only when at least one folder and one file went.
   */
  function HardDeleteAll(db: Db, userID: Id): (r: (Db, bool))
    ensures DeletedFiles(db.files, userID) == {} ==> r == (db, false)
    ensures CanvasesOf(db.canvases, DeletedFiles(db.files, userID)) == {} ==> r == (db, false)
    ensures CanvasesOf(db.canvases, DeletedFiles(db.files, userID)) != {} ==>
              && r.0 == db.(folders := r.0.folders, files := r.0.files, canvases := r.0.canvases)
              && (forall d :: d in r.0.folders <==> d in db.folders && !(db.folders[d].userID == userID && db.folders[d].isDeleted))
              && (forall f :: f in r.0.files <==> f in db.files && !(db.files[f].userID == userID && db.files[f].isDeleted))
              && (forall c :: c in r.0.canvases <==> c in db.canvases && db.canvases[c].fileID !in DeletedFiles(db.files, userID))
              && (r.1 <==> exists d :: d in db.folders && db.folders[d].userID == userID && db.folders[d].isDeleted)
  {
    var filesToDelete := DeletedFiles(db.files, userID);
    if filesToDelete == {} then (db, false)
    else
      var doomedCanvases := CanvasesOf(db.canvases, filesToDelete);
      if doomedCanvases == {} then (db, false)
      else
        var doomedFolders := DeletedFolders(db.folders, userID);
        (db.(canvases := db.canvases - doomedCanvases,
             folders := db.folders - doomedFolders,
             files := db.files - filesToDelete),
         doomedFolders != {} && filesToDelete != {})
  }

  /**
   * When the bin does get emptied, a deleted folder whose files are all in
   * the bin disappears together with those files and all their canvases.
   */
  lemma HardDeleteAllPurgesFolderCascade(db: Db, userID: Id, folderID: Id)
    requires CanvasesOf(db.canvases, DeletedFiles(db.files, userID)) != {}
    requires folderID in db.folders && db.folders[folderID].userID == userID && db.folders[folderID].isDeleted
    requires forall f :: f in db.files && db.files[f].folderID == Some(folderID) ==>
               db.files[f].userID == userID && db.files[f].isDeleted
    ensures var r := HardDeleteAll(db, userID).0;
            && folderID !in r.folders
            && (forall f :: f in r.files ==> r.files[f].folderID != Some(folderID))
            && (forall c :: c in r.canvases ==> !(r.canvases[c].fileID in db.files && db.files[r.canvases[c].fileID].folderID == Some(folderID)))
  {
  }

  /**
   * The as-written gate in action: a user whose bin holds a deleted folder
   * and a deleted file that never had a page cannot empty the bin; both stay
   * listed and the request answers false.
   */
  lemma HardDeleteAllKeepsCanvaslessBin()
    ensures var db := Db(map["d" := Folder("Old", "u", None, false, true)],
                         map["f" := File("Draft", Some("d"), "u", None, false, true, "BLANK", None, None)],
                         map[], [], [], [], {});
            GetRecycleBin(db, "u") == BinContents({"f"}, {"d"}) && HardDeleteAll(db, "u") == (db, false)
  {
    var db := Db(map["d" := Folder("Old", "u", None, false, true)],
                 map["f" := File("Draft", Some("d"), "u", None, false, true, "BLANK", None, None)],
                 map[], [], [], [], {});
    assert DeletedFiles(db.files, "u") == {"f"};
    assert DeletedFolders(db.folders, "u") == {"d"};
  }

  /**
   * Emptying the bin as evidently intended: every deleted folder and deleted
   * file of the user goes, with the canvases of those files, whether or not
   * any canvas exists. The answer says whether the bin held anything.
   */
  function PurgeBin(db: Db, userID: Id): (r: (Db, bool))
    ensures GetRecycleBin(r.0, userID) == BinContents({}, {})
    ensures r.1 <==> GetRecycleBin(db, userID) != BinContents({}, {})
    ensures r.0 == db.(folders := r.0.folders, files := r.0.files, canvases := r.0.canvases)
    ensures forall d :: d in r.0.folders <==> d in db.folders && !(db.folders[d].userID == userID && db.folders[d].isDeleted)
    ensures forall f :: f in r.0.files <==> f in db.files && !(db.files[f].userID == userID && db.files[f].isDeleted)
    ensures forall c :: c in r.0.canvases <==> c in db.canvases && db.canvases[c].fileID !in DeletedFiles(db.files, userID)
  {
    var bin := GetRecycleBin(db, userID);
    var r := db.(canvases := db.canvases - CanvasesOf(db.canvases, bin.files),
                 folders := db.folders - bin.folders,
                 files := db.files - bin.files);
    assert DeletedFiles(r.files, userID) == {};
    assert DeletedFolders(r.folders, userID) == {};
    (r, bin != BinContents({}, {}))
  }

  /**
   * The live tree of a user depends only on the user's live folders, live
   * files and the canvases of those files.
   */
  lemma LiveTreeDependsOnLiveRecords(a: Db, b: Db, userID: Id)
    requires LiveFolders(a.folders, userID) == LiveFolders(b.folders, userID)
    requires LiveFiles(a.files, userID) == LiveFiles(b.files, userID)
    requires forall f :: f in LiveFiles(a.files, userID) ==> a.files[f] == b.files[f]
    requires forall c :: c in a.canvases && a.canvases[c].fileID in LiveFiles(a.files, userID) ==>
               c in b.canvases && b.canvases[c] == a.canvases[c]
    requires forall c :: c in b.canvases && b.canvases[c].fileID in LiveFiles(b.files, userID) ==>
               c in a.canvases && a.canvases[c] == b.canvases[c]
    ensures GetAllPathsByUserID(a, userID) == GetAllPathsByUserID(b, userID)
  {
    LiveTreeFoldersAgree(a, b, userID);
    LiveTreeThumbnailsAgree(a, b, userID);
  }

  /** The folder part of the live tree depends only on the live folders and files. */
  lemma LiveTreeFoldersAgree(a: Db, b: Db, userID: Id)
    requires LiveFolders(a.folders, userID) == LiveFolders(b.folders, userID)
    requires LiveFiles(a.files, userID) == LiveFiles(b.files, userID)
    requires forall f :: f in LiveFiles(a.files, userID) ==> a.files[f] == b.files[f]
    ensures GetAllPathsByUserID(a, userID).folders == GetAllPathsByUserID(b, userID).folders
  {
    var ta, tb := GetAllPathsByUserID(a, userID), GetAllPathsByUserID(b, userID);
    assert ta.folders.Keys == tb.folders.Keys;
    forall d | d in ta.folders ensures ta.folders[d] == tb.folders[d] {
      assert forall f :: f in ta.folders[d] <==> f in tb.folders[d];
    }
  }

  /** The thumbnail part of the live tree depends only on the live files and their canvases. */
  lemma LiveTreeThumbnailsAgree(a: Db, b: Db, userID: Id)
    requires LiveFiles(a.files, userID) == LiveFiles(b.files, userID)
    requires forall c :: c in a.canvases && a.canvases[c].fileID in LiveFiles(a.files, userID) ==>
               c in b.canvases && b.canvases[c] == a.canvases[c]
    requires forall c :: c in b.canvases && b.canvases[c].fileID in LiveFiles(b.files, userID) ==>
               c in a.canvases && a.canvases[c] == b.canvases[c]
    ensures GetAllPathsByUserID(a, userID).thumbnails == GetAllPathsByUserID(b, userID).thumbnails
  {
    var ta, tb := GetAllPathsByUserID(a, userID), GetAllPathsByUserID(b, userID);
    assert ta.thumbnails.Keys == tb.thumbnails.Keys;
    forall f | f in ta.thumbnails ensures ta.thumbnails[f] == tb.thumbnails[f] {
      assert forall c :: c in ta.thumbnails[f] <==> c in tb.thumbnails[f];
    }
  }

  /** Purging the bin leaves the user's live tree exactly as it was. */
  lemma PurgeBinKeepsLiveTree(db: Db, userID: Id)
    ensures GetAllPathsByUserID(PurgeBin(db, userID).0, userID) == GetAllPathsByUserID(db, userID)
  {
    var r := PurgeBin(db, userID).0;
    assert LiveFolders(r.folders, userID) == LiveFolders(db.folders, userID);
    assert LiveFiles(r.files, userID) == LiveFiles(db.files, userID);
    LiveTreeDependsOnLiveRecords(r, db, userID);
  }

  /** Whenever the as-written hardDeleteAll does act, it does exactly what PurgeBin does. */
  lemma HardDeleteAllAgreesWithPurgeBinWhenItActs(db: Db, userID: Id)
    requires CanvasesOf(db.canvases, DeletedFiles(db.files, userID)) != {}
    ensures HardDeleteAll(db, userID).0 == PurgeBin(db, userID).0
  {
    var a, b := HardDeleteAll(db, userID).0, PurgeBin(db, userID).0;
    assert a.folders == b.folders;
    assert a.files == b.files;
    assert a.canvases == b.canvases;
  }

  /** `deleteOne({ _id })` over users: the first user with that id goes. */
  function RemoveUser(users: seq<User>, userID: Id): (r: seq<User>)
    ensures forall u :: u in r ==> u in users
    ensures forall u :: u in users && u.id != userID ==> u in r
    ensures (exists i :: 0 <= i < |users| && users[i].id == userID) ==> |r| == |users| - 1
    ensures (forall i :: 0 <= i < |users| ==> users[i].id != userID) ==> r == users
  {
    if users == [] then []
    else if users[0].id == userID then users[1..]
    else [users[0]] + RemoveUser(users[1..], userID)
  }

  /**
   * deleteAllUserData (account deletion). When the user owns files and at
   * least one of them has a canvas, those canvases and all the user's
   * folders and files go; in every case the user record goes. Always true.
   */
  function DeleteAllUserData(db: Db, userID: Id): (r: (Db, bool))
    ensures r.1
    ensures r.0.users == RemoveUser(db.users, userID)
    ensures CanvasesOf(db.canvases, FilesOwnedBy(db.files, userID)) == {} ==> r.0 == db.(users := r.0.users)
    ensures CanvasesOf(db.canvases, FilesOwnedBy(db.files, userID)) != {} ==>
              && r.0 == db.(folders := r.0.folders, files := r.0.files, canvases := r.0.canvases, users := r.0.users)
              && (forall d :: d in r.0.folders <==> d in db.folders && db.folders[d].userID != userID)
              && (forall f :: f in r.0.files <==> f in db.files && db.files[f].userID != userID)
              && (forall c :: c in r.0.canvases <==> c in db.canvases && db.canvases[c].fileID !in FilesOwnedBy(db.files, userID))
  {
    var filesToDelete := FilesOwnedBy(db.files, userID);
    var db1 :=
      if filesToDelete == {} then db
      else
        var doomedCanvases := CanvasesOf(db.canvases, filesToDelete);
        if doomedCanvases == {} then db
        else db.(canvases := db.canvases - doomedCanvases,
                 folders := db.folders - FoldersOwnedBy(db.folders, userID),
                 files := db.files - filesToDelete);
    (db1.(users := RemoveUser(db1.users, userID)), true)
  }

  // ---------------------------------------------------------------------
  // Creation and field updates
  // ---------------------------------------------------------------------

  /**
   * The fields updateFile may `$set`. A field that is `None` was undefined in
   * the request and is left as it is; `lastCanvasTemplate: Some(None)` is an
   * explicit null.
   */
  datatype FilePatch = FilePatch(
    fileID: Id,
    newFileName: Option<string>,
    folderID: Option<Id>,
    isFavorite: Option<bool>,
    fileTemplate: Option<string>,
    lastCanvasTemplate: Option<Option<string>>)

  /** The file with the patch's present fields overwritten. */
  function Patched(f: File, p: FilePatch): (r: File)
    ensures r.userID == f.userID && r.isDeleted == f.isDeleted && r.link == f.link && r.localFileID == f.localFileID
    ensures r.fileName == (if p.newFileName.Some? then p.newFileName.value else f.fileName)
    ensures r.folderID == (if p.folderID.Some? then p.folderID else f.folderID)
    ensures r.isFavorite == (if p.isFavorite.Some? then p.isFavorite.value else f.isFavorite)
    ensures r.fileTemplate == (if p.fileTemplate.Some? then p.fileTemplate.value else f.fileTemplate)
    ensures r.lastCanvasTemplate == (if p.lastCanvasTemplate.Some? then p.lastCanvasTemplate.value else f.lastCanvasTemplate)
  {
    f.(fileName := if p.newFileName.Some? then p.newFileName.value else f.fileName,
       folderID := if p.folderID.Some? then p.folderID else f.folderID,
       isFavorite := if p.isFavorite.Some? then p.isFavorite.value else f.isFavorite,
       fileTemplate := if p.fileTemplate.Some? then p.fileTemplate.value else f.fileTemplate,
       lastCanvasTemplate := if p.lastCanvasTemplate.Some? then p.lastCanvasTemplate.value else f.lastCanvasTemplate)
  }

  /** updateFile on a snapshot: only the named file changes; an unknown id changes nothing. */
  function UpdateFile(db: Db, p: FilePatch): (r: Db)
    ensures r == db.(files := r.files) && r.files.Keys == db.files.Keys
    ensures p.fileID in db.files ==> r.files[p.fileID] == Patched(db.files[p.fileID], p)
    ensures forall f :: f in db.files && f != p.fileID ==> r.files[f] == db.files[f]
  {
    if p.fileID in db.files then db.(files := db.files[p.fileID := Patched(db.files[p.fileID], p)]) else db
  }

  /** renameFolder on a snapshot: only the name of the named folder changes. */
  function RenameFolder(db: Db, folderID: Id, folderName: string): (r: Db)
    ensures r == db.(folders := r.folders) && r.folders.Keys == db.folders.Keys
    ensures folderID in db.folders ==> r.folders[folderID] == db.folders[folderID].(folderName := folderName)
    ensures forall d :: d in db.folders && d != folderID ==> r.folders[d] == db.folders[d]
  {
    if folderID in db.folders then db.(folders := db.folders[folderID := db.folders[folderID].(folderName := folderName)]) else db
  }

  /**
   * The store's files and canvases after a batch of creations: every insert
   * succeeds unless its id is taken, in which case the store raises a
   * duplicate-key error that the repository turns into a 500.
   */
  function InsertCanvas(canvases: map<Id, Canvas>, id: Id, c: Canvas): (r: Result<map<Id, Canvas>, RepoError>)
    ensures id in canvases <==> r == Err(RepositoryError(500))
    ensures r.Ok? ==> r.value == canvases[id := c]
  {
    if id in canvases then Err(RepositoryError(500)) else Ok(canvases[id := c])
  }

}

=== FILE: path_repository.dfy ===
/**
 * The path repository itself: one method per repository method, each a
 * single step on the document store whose effect is the PathModel function
 * of the same name.
 */
module PathRepository {
  import opened Wrappers
  import opened Documents
  import opened Errors
  import opened PathModel

  class PathRepository {
    const db: DocumentStore

    constructor (db: DocumentStore)
      ensures this.db == db
    {
      this.db := db;
    }

    method DeleteFileByFileID(fileID: Id) returns (isDeleted: bool)
      modifies db
      ensures (db.State(), isDeleted) == DeleteFile(old(db.State()), fileID)
    {
      db.canvases := db.canvases - CanvasesOf(db.canvases, {fileID});
      isDeleted := fileID in db.files;
      db.files := db.files - {fileID};
    }

    /**
     * createFile: a fresh file record; a file without a name (the schema's
     * required validator) or under a taken id is a repository error (500).
     */
    method CreateFile(fileID: Id, file: File) returns (r: Result<File, RepoError>)
      modifies db
      ensures file.fileName == "" || fileID in old(db.files) ==> r == Err(RepositoryError(500)) && db.State() == old(db.State())
      ensures file.fileName != "" && fileID !in old(db.files) ==>
                r == Ok(file) && db.State() == old(db.State()).(files := old(db.files)[fileID := file])
    {
      if file.fileName == "" || fileID in db.files {
        return Err(RepositoryError(500));
      }
      db.files := db.files[fileID := file];
      r := Ok(file);
    }

    /** createCanvas (the path repository's variant: every failure is a 500). */
    method CreateCanvas(canvasID: Id, canvas: Canvas) returns (r: Result<Canvas, RepoError>)
      modifies db
      ensures InsertCanvas(old(db.canvases), canvasID, canvas).Err? ==>
                r == Err(RepositoryError(500)) && db.State() == old(db.State())
      ensures InsertCanvas(old(db.canvases), canvasID, canvas).Ok? ==>
                r == Ok(canvas) && db.State() == old(db.State()).(canvases := InsertCanvas(old(db.canvases), canvasID, canvas).value)
    {
      var inserted := InsertCanvas(db.canvases, canvasID, canvas);
      if inserted.Err? {
        return Err(inserted.error);
      }
      db.canvases := inserted.value;
      r := Ok(canvas);
    }

    /**
     * createFolder: a fresh folder record; a folder without a name (the
     * schema's required validator) or under a taken id is a repository
     * error (500).
     */
    method CreateFolder(folderID: Id, folder: Folder) returns (r: Result<Folder, RepoError>)
      modifies db
      ensures folder.folderName == "" || folderID in old(db.folders) ==>
                r == Err(RepositoryError(500)) && db.State() == old(db.State())
      ensures folder.folderName != "" && folderID !in old(db.folders) ==>
                r == Ok(folder) && db.State() == old(db.State()).(folders := old(db.folders)[folderID := folder])
    {
      if folder.folderName == "" || folderID in db.folders {
        return Err(RepositoryError(500));
      }
      db.folders := db.folders[folderID := folder];
      r := Ok(folder);
    }

    /** renameFolder; the answer says whether a folder matched. */
    method RenameFolder(folderID: Id, folderName: string) returns (matched: bool)
      modifies db
      ensures matched == (folderID in old(db.folders))
      ensures db.State() == PathModel.RenameFolder(old(db.State()), folderID, folderName)
    {
      matched := folderID in db.folders;
      if matched {
        db.folders := db.folders[folderID := db.folders[folderID].(folderName := folderName)];
      }
    }

    /** updateFile; the answer says whether a file matched. */
    method UpdateFile(p: FilePatch) returns (matched: bool)
      modifies db
      ensures matched == (p.fileID in old(db.files))
      ensures db.State() == PathModel.UpdateFile(old(db.State()), p)
    {
      matched := p.fileID in db.files;
      if matched {
        db.files := db.files[p.fileID := Patched(db.files[p.fileID], p)];
      }
    }

    method DeleteFolderByFolderID(folderID: Id) returns (response: bool)
      modifies db
      ensures (db.State(), response) == DeleteFolder(old(db.State()), folderID)
    {
      var filesToDelete := FilesIn(db.files, folderID);
      db.canvases := db.canvases - CanvasesOf(db.canvases, filesToDelete);
      db.files := db.files - filesToDelete;
      response := folderID in db.folders;
      db.folders := db.folders - {folderID};
    }

    /** softDeleteFile; the update result is always truthy, so the answer is always true. */
    method SoftDeleteFile(fileID: Id) returns (response: bool)
      modifies db
      ensures response
      ensures db.State() == PathModel.SoftDeleteFile(old(db.State()), fileID)
    {
      db.files := SetFileFlag(db.files, fileID, true);
      response := true;
    }

    method SoftDeleteFolder(folderID: Id) returns (response: bool)
      modifies db
      ensures response
      ensures db.State() == PathModel.SoftDeleteFolder(old(db.State()), folderID)
    {
      db.folders := SetFolderFlag(db.folders, folderID, true);
      db.files := SetFlagInFolder(db.files, folderID, true);
      response := true;
    }

    method RecoverAll(userID: Id) returns (response: bool)
      modifies db
      ensures response
      ensures db.State() == PathModel.RecoverAll(old(db.State()), userID)
    {
      var deletedFolders := DeletedFolders(db.folders, userID);
      db.folders := map d | d in db.folders :: if d in deletedFolders then db.folders[d].(isDeleted := false) else db.folders[d];
      var deletedFiles := DeletedFiles(db.files, userID);
      db.files := map f | f in db.files :: if f in deletedFiles then db.files[f].(isDeleted := false) else db.files[f];
      response := true;
    }

    method RecoverFile(fileID: Id) returns (response: bool)
      modifies db
      ensures response
      ensures db.State() == PathModel.RecoverFile(old(db.State()), fileID)
    {
      db.files := SetFileFlag(db.files, fileID, false);
      response := true;
    }

    method RecoverFolder(folderID: Id) returns (response: bool)
      modifies db
      ensures response
      ensures db.State() == PathModel.RecoverFolder(old(db.State()), folderID)
    {
      db.folders := SetFolderFlag(db.folders, folderID, false);
      db.files := SetFlagInFolder(db.files, folderID, false);
      response := true;
    }

    method HardDeleteAll(userID: Id) returns (response: bool)
      modifies db
      ensures (db.State(), response) == PathModel.HardDeleteAll(old(db.State()), userID)
    {
      response := false;
      var filesToDelete := DeletedFiles(db.files, userID);
      if filesToDelete != {} {
        var canvasDeletion := CanvasesOf(db.canvases, filesToDelete);
        db.canvases := db.canvases - canvasDeletion;
        if canvasDeletion == {} {
          assert db.canvases == old(db.canvases);
        } else {
          var folderDeletion := DeletedFolders(db.folders, userID);
          db.folders := db.folders - folderDeletion;
          var fileDeletion := DeletedFiles(db.files, userID);
          db.files := db.files - fileDeletion;
          response := folderDeletion != {} && fileDeletion != {};
        }
      }
    }

    method DeleteAllUserData(userID: Id) returns (response: bool)
      modifies db
      ensures (db.State(), response) == PathModel.DeleteAllUserData(old(db.State()), userID)
    {
      var filesToDelete := FilesOwnedBy(db.files, userID);
      if filesToDelete != {} {
        var canvasDeletion := CanvasesOf(db.canvases, filesToDelete);
        db.canvases := db.canvases - canvasDeletion;
        if canvasDeletion == {} {
          assert db.canvases == old(db.canvases);
        } else {
          db.folders := db.folders - FoldersOwnedBy(db.folders, userID);
          db.files := db.files - FilesOwnedBy(db.files, userID);
        }
      }
      db.users := RemoveUser(db.users, userID);
      response := true;
    }
  }
}

=== FILE: query.dfy ===
/**
 * The query operators the store applies to a result set: filtering,
 * sorting on one key in descending order, `limit`, `skip`, and the
 * aggregation stage `$slice`. Ties in a sort keep their input order, which
 * is one of the orders the store may return.
 */
module Query {
  import opened Wrappers

  /** The elements of `s` satisfying `p`, in their order in `s`. */
  function Select<T(!new)>(s: seq<T>, p: T -> bool): (r: seq<T>)
    ensures |r| <= |s|
    ensures forall x :: x in r <==> x in s && p(x)
  {
    if s == [] then []
    else if p(s[0]) then [s[0]] + Select(s[1..], p)
    else Select(s[1..], p)
  }

  /** Filtering keeps each element's multiplicity when it passes, and drops it otherwise. */
  lemma {:induction false} SelectMultiplicity<T(!new)>(s: seq<T>, p: T -> bool, x: T)
    ensures multiset(Select(s, p))[x] == if p(x) then multiset(s)[x] else 0
  {
    if s != [] {
      SelectMultiplicity(s[1..], p, x);
      assert s == [s[0]] + s[1..];
    }
  }

  /** Filtering two orderings of the same elements yields the same number of results. */
  lemma SelectPermutation<T(!new)>(a: seq<T>, b: seq<T>, p: T -> bool)
    requires multiset(a) == multiset(b)
    ensures multiset(Select(a, p)) == multiset(Select(b, p))
    ensures |Select(a, p)| == |Select(b, p)|
  {
    forall x
      ensures multiset(Select(a, p))[x] == multiset(Select(b, p))[x]
    {
      SelectMultiplicity(a, p, x);
      SelectMultiplicity(b, p, x);
    }
    assert multiset(Select(a, p)) == multiset(Select(b, p));
    calc {
      |Select(a, p)|;
      |multiset(Select(a, p))|;
      |multiset(Select(b, p))|;
      |Select(b, p)|;
    }
  }

  /** The positions of `s` holding an element that satisfies `p`: a count that does not go through Select. */
  ghost function Positions<T>(s: seq<T>, p: T -> bool): set<int>
  {
    set i | 0 <= i < |s| && p(s[i])
  }

  /** Filtering an extended sequence extends the filtered one. */
  lemma {:induction false} SelectAppend<T(!new)>(a: seq<T>, x: T, p: T -> bool)
    ensures Select(a + [x], p) == Select(a, p) + (if p(x) then [x] else [])
  {
    if a != [] {
      assert (a + [x])[0] == a[0] && (a + [x])[1..] == a[1..] + [x];
      SelectAppend(a[1..], x, p);
    }
  }

  /** The positions of an extended sequence are the old ones, plus the new last one if it passes. */
  lemma PositionsAppend<T>(a: seq<T>, x: T, p: T -> bool)
    ensures Positions(a + [x], p) == Positions(a, p) + (if p(x) then {|a|} else {})
    ensures |a| !in Positions(a, p)
  {
    var s := a + [x];
    forall i | 0 <= i < |a|
      ensures s[i] == a[i]
    {
    }
  }

  /** Filtering keeps exactly as many elements as there are positions satisfying the filter. */
  lemma {:induction false} SelectCountsPositions<T(!new)>(s: seq<T>, p: T -> bool)
    ensures |Select(s, p)| == |Positions(s, p)|
  {
    if s == [] {
      assert Positions(s, p) == {};
    } else {
      var a, x := s[..|s| - 1], s[|s| - 1];
      assert s == a + [x];
      SelectCountsPositions(a, p);
      SelectAppend(a, x, p);
      PositionsAppend(a, x, p);
    }
  }

  ghost predicate SortedDesc<T>(s: seq<T>, key: T -> int)
  {
    forall i, j :: 0 <= i < j < |s| ==> key(s[i]) >= key(s[j])
  }

  /** `x` placed into a descending sequence, ahead of the elements whose key it equals. */
  function Insert<T(!new)>(x: T, s: seq<T>, key: T -> int): (r: seq<T>)
    requires SortedDesc(s, key)
    ensures SortedDesc(r, key)
    ensures multiset(r) == multiset(s) + multiset{x}
    ensures |r| == |s| + 1
    ensures r[0] == x || (s != [] && r[0] == s[0])
  {
    if s == [] || key(x) >= key(s[0]) then [x] + s
    else
      var rest := Insert(x, s[1..], key);
      assert s == [s[0]] + s[1..];
      [s[0]] + rest
  }

  /** `.sort({ key: -1 })`: the same elements, largest key first. */
  function SortDesc<T(!new)>(s: seq<T>, key: T -> int): (r: seq<T>)
    ensures SortedDesc(r, key)
    ensures multiset(r) == multiset(s)
    ensures |r| == |s|
  {
    if s == [] then []
    else
      assert s == [s[0]] + s[1..];
      Insert(s[0], SortDesc(s[1..], key), key)
  }

  /** How many results `.limit(n)` lets through: all for 0, otherwise |n| (a negative limit is a single batch of |n|). */
  function LimitBound(n: int): (bound: Bound)
    ensures n == 0 <==> bound.Unlimited?
    ensures bound.AtMost? ==> bound.count > 0 && (bound.count == n || bound.count == -n)
  {
    if n == 0 then Unlimited else AtMost(if n < 0 then -n else n)
  }

  datatype Bound = Unlimited | AtMost(count: nat)

  /** `.limit(n)` */
  function Limit<T>(s: seq<T>, n: int): (r: seq<T>)
    ensures r <= s
    ensures LimitBound(n).Unlimited? ==> r == s
    ensures LimitBound(n).AtMost? ==> |r| == if |s| < LimitBound(n).count then |s| else LimitBound(n).count
  {
    match LimitBound(n)
    case Unlimited => s
    case AtMost(k) => if |s| <= k then s else s[..k]
  }

  /** `.skip(n)` for a non-negative n. */
  function Skip<T>(s: seq<T>, n: nat): (r: seq<T>)
    ensures |r| == if n <= |s| then |s| - n else 0
    ensures s == s[..|s| - |r|] + r
  {
    if n <= |s| then s[n..] else []
  }

  /** `{ $slice: [array, n] }`: the first n elements for n > 0, the last |n| for n < 0, none for 0. */
  function Slice<T>(s: seq<T>, n: int): (r: seq<T>)
    ensures n > 0 ==> r <= s && |r| == if |s| < n then |s| else n
    ensures n < 0 ==> |r| == (if |s| < -n then |s| else -n) && r == s[|s| - |r|..]
    ensures n == 0 ==> r == []
  {
    if n > 0 then (if |s| <= n then s else s[..n])
    else if n < 0 then (if |s| <= -n then s else s[|s| + n..])
    else []
  }

  /**
   * Sorting, then keeping the first few: an element left out was not larger
   * than anything kept, and it was left out only because the bound was reached.
   */
  lemma {:induction false} TopOfSorted<T(!new)>(s: seq<T>, key: T -> int, n: int, x: T)
    requires x in s
    requires x !in Limit(SortDesc(s, key), n)
    ensures LimitBound(n).AtMost? && |Limit(SortDesc(s, key), n)| == LimitBound(n).count
    ensures forall y :: y in Limit(SortDesc(s, key), n) ==> key(y) >= key(x)
  {
    var sorted := SortDesc(s, key);
    var r := Limit(sorted, n);
    assert x in multiset(sorted);
    assert x in sorted;
    var j :| 0 <= j < |sorted| && sorted[j] == x;
    assert j >= |r|;
    forall y | y in r
      ensures key(y) >= key(x)
    {
      var i :| 0 <= i < |r| && r[i] == y;
      assert sorted[i] == y;
    }
  }

  /** The position of the first element satisfying `p` (a lookup by a unique key such as `_id`). */
  function IndexWhere<T(!new)>(s: seq<T>, p: T -> bool): (r: Option<nat>)
    ensures r.Some? ==> r.value < |s| && p(s[r.value]) && forall i :: 0 <= i < r.value ==> !p(s[i])
    ensures r.None? <==> forall x :: x in s ==> !p(x)
  {
    if s == [] then None
    else if p(s[0]) then Some(0)
    else
      var rest := IndexWhere(s[1..], p);
      assert forall x :: x in s <==> x == s[0] || x in s[1..];
      if rest.Some? then Some(rest.value + 1) else None
  }
}

=== FILE: user_controller.dfy ===
/**
 * The user controller's account handlers, step by step over the user
 * repository; each answer and each new store is the UserModel function of
 * the same name. Request validation is the `valid` flag, bcrypt's hash and
 * compare and jsonwebtoken's verify are parameters, and `now` and `draw`
 * stand for the clock and the random draw.
 */
module UserController {
  import opened Wrappers
  import opened Documents
  import opened Errors
  import opened Query
  import opened UserModel
  import opened UserRepository

  class UserController {
    const db: DocumentStore
    const userRepository: UserRepository

    ghost predicate Valid()
      reads this
    {
      userRepository.db == db
    }

    constructor (db: DocumentStore)
      ensures Valid() && this.db == db
    {
      this.db := db;
      this.userRepository := new UserRepository(db);
    }

    method Signup(req: SignupRequest, valid: bool, newId: Id, hash: string -> string) returns (reply: Reply)
      requires Valid()
      modifies db
      ensures (db.users, reply) == UserModel.Signup(old(db.users), req, valid, newId, hash)
      ensures db.State() == old(db.State()).(users := db.users)
    {
      if !valid {
        return Reply([], Some(BAD_REQUEST));
      }
      var existingUser := userRepository.FindByEmail(Some(req.email));
      if existingUser.Some? {
        return Reply([ConflictError(EmailAlreadyExists)], None);
      }
      if req.registerType == EMAIL && req.password.None? {
        return Reply([InternalServerError], None);
      }
      var saved := userRepository.Create(NewUser(req, newId, StoredPassword(req, hash)));
      if saved.Err? {
        return Reply([InternalServerError], None);
      }
      reply := Reply([], Some(CREATED));
    }

    method Login(email: string, password: Option<string>, compare: (string, string) -> bool) returns (reply: Reply)
      requires Valid()
      ensures reply == UserModel.Login(db.users, email, password, compare)
    {
      var user := userRepository.FindByEmail(Some(email));
      if user.None? {
        return Reply([NotFoundError(EmailNotFound)], None);
      }
      if user.value.registerType == EMAIL {
        if user.value.password.None? || password.None? {
          return Reply([InternalServerError], None);
        }
        if !compare(password.value, user.value.password.value) {
          return Reply([BadRequestError(WrongPassword)], None);
        }
      }
      reply := Reply([], Some(OK));
    }

    /** updatePassword: `userID` is the user the auth middleware attached; the document is saved whole. */
    method UpdatePassword(userID: Id, password: Option<string>, compare: (string, string) -> bool, hash: string -> string)
      returns (reply: Reply)
      modifies db
      ensures (db.users, reply) == UserModel.UpdatePassword(old(db.users), userID, password, compare, hash)
      ensures db.State() == old(db.State()).(users := db.users)
    {
      var found := IndexWhere(db.users, UserWithId(userID));
      if found.None? || db.users[found.value].password.None? || password.None? {
        return Reply([InternalServerError], None);
      }
      var user := db.users[found.value];
      if compare(password.value, user.password.value) {
        return Reply([BadRequestError(SameAsOldPassword)], None);
      }
      db.users := db.users[found.value := user.(password := Some(hash(password.value)))];
      reply := Reply([], Some(OK));
    }

    method ResetPassword(req: ResetRequest, valid: bool, verify: string -> Option<string>,
                         compare: (string, string) -> bool, hash: string -> string) returns (reply: Reply)
      requires Valid()
      modifies db
      ensures (db.users, reply) == UserModel.ResetPassword(old(db.users), req, valid, verify, compare, hash)
      ensures db.State() == old(db.State()).(users := db.users)
    {
      if !valid {
        return Reply([], Some(BAD_REQUEST));
      }
      if !Truthy(req.token) {
        return Reply([BadRequestError(InvalidToken)], None);
      }
      var decoded := verify(req.token.value);
      if decoded.None? {
        return Reply([InternalServerError], None);
      }
      if decoded.value != req.email {
        return Reply([BadRequestError(InvalidToken)], None);
      }
      var user := userRepository.FindByEmail(Some(req.email));
      if user.None? || !Truthy(user.value.password) {
        return Reply([NotFoundError(PasswordNotFound)], None);
      }
      if compare(req.password, user.value.password.value) {
        return Reply([BadRequestError(SameAsOldPassword)], None);
      }
      userRepository.UpdateUserByEmail(user.value.(password := Some(hash(req.password))));
      reply := Reply([], Some(OK));
    }

    /** forgotPassword: `code` is the code put in the e-mail and echoed in the answer. */
    method ForgotPassword(email: Option<string>, draw: nat, now: int) returns (reply: Reply, code: Option<string>)
      requires Valid()
      requires draw < 900000
      modifies db
      ensures (db.users, reply, code) == UserModel.ForgotPassword(old(db.users), email, draw, now)
      ensures db.State() == old(db.State()).(users := db.users)
    {
      var user := userRepository.FindByEmail(email);
      if user.None? || user.value.registerType == GOOGLE {
        return Reply([NotFoundError(UserNotFound)], None), None;
      }
      var otp := OtpCode(draw);
      var updated := user.value.(otp := Present(otp), otpExpiration := Present(now + OTP_LIFETIME));
      userRepository.UpdateUserByEmail(updated);
      reply, code := Reply([], Some(OK)), Some(otp);
    }

    method VerifyOtp(otp: Option<string>, email: Option<string>, now: int) returns (reply: Reply)
      requires Valid()
      modifies db
      ensures (db.users, reply) == UserModel.VerifyOtp(old(db.users), otp, email, now)
      ensures db.State() == old(db.State()).(users := db.users)
    {
      if !Truthy(otp) && !Truthy(email) {
        return Reply([BadRequestError(IncorrectParameters)], None);
      }
      var user := userRepository.FindByEmail(email);
      if user.None? {
        return Reply([], None);
      }
      if !OtpMatches(user.value.otp, otp) {
        return Reply([BadRequestError(InvalidOtp)], None);
      }
      if Expired(user.value.otpExpiration, now) {
        return Reply([BadRequestError(OtpExpired)], None);
      }
      userRepository.UpdateUserByEmail(user.value.(otp := Null, otpExpiration := Null, otpVerified := false));
      reply := Reply([], Some(OK));
    }
  }
}

=== FILE: user_model.dfy ===
/**
 * Accounts, as values: what the user repository reads into a UserDTO and
 * writes back, and the decisions of signup, login, password update and
 * reset, forgot-password and OTP verification. Hashing, hash comparison,
 * token checking, the clock and the random draw are parameters.
 *
 * The DTO names the expiry `otpExpiration` while the schema's path is
 * `otExpiration`: reading never fills the DTO's expiry, and writing it back
 * drops the key (strict mode), so as written an OTP never expires. The
 * `Intended` members below carry the expiry through and refuse a
 * verification without a code.
 */
module UserModel {
  import opened Wrappers
  import opened Documents
  import opened Errors
  import opened Query

  const EMAIL := "email"
  const GOOGLE := "google"
  const ACTIVE := "ACTIVE"

  /** How long an OTP is meant to stay valid: five minutes, in milliseconds. */
  const OTP_LIFETIME := 5 * 60 * 1000

  /** A UserDTO: the fields of a user record the controllers read and write back. */
  datatype UserDto = UserDto(
    id: Id,
    firstName: string,
    lastName: string,
    email: string,
    password: Option<string>,
    registerType: string,
    otp: Field<string>,
    otpExpiration: Field<int>,
    otpVerified: bool)

  // ---------------------------------------------------------------------
  // The repository: findByEmail and updateUserByEmail

  function EmailIs(email: Option<string>): User -> bool
  {
    (u: User) => email.None? || u.email == email.value
  }

  /**
   * findByEmail (`findOne({ email })`): the first user with that email. An
   * undefined email is dropped from the filter, which then matches the
   * first user of all.
   */
  function FindByEmail(users: seq<User>, email: Option<string>): (r: Option<nat>)
    ensures r.Some? ==> r.value < |users| && (email.Some? ==> users[r.value].email == email.value)
    ensures r.Some? ==> forall i :: 0 <= i < r.value ==> email.Some? && users[i].email != email.value
    ensures r.None? <==> forall u :: u in users ==> email.Some? && u.email != email.value
  {
    IndexWhere(users, EmailIs(email))
  }

  /**
   * The DTO deserialised from a stored user. The serializer removes null
   * values, so a cleared code reads as unset; the document has no
   * `otpExpiration` key, so the DTO's expiry is always unset.
   */
  function Deserialize(u: User): (dto: UserDto)
    ensures dto.otpExpiration == Unset
    ensures dto.otp.Present? <==> u.otp.Present?
    ensures dto.otp.Present? ==> dto.otp == u.otp
  {
    var otp := if u.otp.Null? then Unset else u.otp;
    UserDto(u.id, u.firstName, u.lastName, u.email, u.password, u.registerType, otp, Unset, u.otpVerified)
  }

  /** Replacing the user findByEmail returns by one with the same email leaves the lookup where it was. */
  lemma FindAfterUpdate(users: seq<User>, email: Option<string>, i: nat, v: User)
    requires FindByEmail(users, email) == Some(i)
    requires v.email == users[i].email
    ensures FindByEmail(users[i := v], email) == Some(i)
  {
    var after := users[i := v];
    assert after[i] in after;
  }

  /**
   * `$set: userData` on one stored user: an undefined key changes nothing,
   * and `otpExpiration`, not being a schema path, is dropped.
   */
  function Persist(u: User, dto: UserDto): (r: User)
    ensures r.id == u.id && r.status == u.status && r.admin == u.admin && r.otExpiration == u.otExpiration
    ensures dto.password.None? ==> r.password == u.password
    ensures dto.otp.Unset? ==> r.otp == u.otp
    ensures !dto.otp.Unset? ==> r.otp == dto.otp
  {
    u.(firstName := dto.firstName, lastName := dto.lastName, email := dto.email,
       password := if dto.password.Some? then dto.password else u.password,
       registerType := dto.registerType,
       otp := if dto.otp.Unset? then u.otp else dto.otp,
       otpVerified := dto.otpVerified)
  }

  /** findByEmail's answer: the DTO of the first matching user, or nothing (`[]`). */
  function ReadByEmail(users: seq<User>, email: Option<string>): (r: Option<UserDto>)
    ensures r.Some? <==> FindByEmail(users, email).Some?
    ensures r.Some? ==> r.value == Deserialize(users[FindByEmail(users, email).value])
  {
    match FindByEmail(users, email)
    case None => None
    case Some(i) => Some(Deserialize(users[i]))
  }

  /** A record the user schema accepts: names and email present, registerType one of its two values. */
  predicate SchemaValid(u: User)
  {
    u.firstName != "" && u.lastName != "" && u.email != "" && u.registerType in {GOOGLE, EMAIL}
  }

  /**
   * create (`new User(userData).save()`): the schema's required fields and
   * enum, then the unique email index and the `_id`.
   */
  function CreateUser(users: seq<User>, u: User): (r: (seq<User>, Result<User, RepoError>))
    ensures r.1.Ok? <==> SchemaValid(u) && forall v :: v in users ==> v.email != u.email && v.id != u.id
    ensures r.1.Ok? ==> r == (users + [u], Ok(u))
    ensures r.1.Err? ==> r.0 == users
  {
    if !SchemaValid(u) then (users, Err(SchemaValidationError))
    else if exists v :: v in users && (v.email == u.email || v.id == u.id) then (users, Err(StoreError))
    else (users + [u], Ok(u))
  }

  /** updateUserByEmail: the first user with the DTO's email takes the DTO's fields. */
  function UpdateUserByEmail(users: seq<User>, dto: UserDto): (r: seq<User>)
    ensures |r| == |users|
  {
    match FindByEmail(users, Some(dto.email))
    case None => users
    case Some(i) => users[i := Persist(users[i], dto)]
  }

  /** updateUserByEmail never writes a stored expiry, whatever the DTO holds. */
  lemma UpdateNeverWritesExpiry(users: seq<User>, dto: UserDto)
    ensures forall i :: 0 <= i < |users| ==> UpdateUserByEmail(users, dto)[i].otExpiration == users[i].otExpiration
  {
  }

  /** Writing back what was read changes nothing. */
  lemma WriteBackWhatWasReadIsNoOp(users: seq<User>, email: string)
    requires FindByEmail(users, Some(email)).Some?
    ensures UpdateUserByEmail(users, Deserialize(users[FindByEmail(users, Some(email)).value])) == users
  {
    var i := FindByEmail(users, Some(email)).value;
    assert FindByEmail(users, Some(users[i].email)) == Some(i);
    assert Persist(users[i], Deserialize(users[i])) == users[i];
  }

  // ---------------------------------------------------------------------
  // The one-time code

  function Digit(d: nat): char
    requires d < 10
  {
    "0123456789"[d]
  }

  function DigitValue(c: char): nat
  {
    if '0' <= c <= '9' then (c as int - '0' as int) else 0
  }

  /** `n.toString()` for a natural number: its decimal digits. */
  function DecimalString(n: nat): (s: string)
    ensures |s| > 0
    ensures forall i :: 0 <= i < |s| ==> '0' <= s[i] <= '9'
  {
    if n < 10 then [Digit(n)] else DecimalString(n / 10) + [Digit(n % 10)]
  }

  /** The number a string of decimal digits denotes. */
  function DecimalValue(s: string): nat
  {
    if s == [] then 0 else DecimalValue(s[..|s| - 1]) * 10 + DigitValue(s[|s| - 1])
  }

  /** Reading back the digits of a number gives the number. */
  lemma {:induction false} DecimalRoundTrip(n: nat)
    ensures DecimalValue(DecimalString(n)) == n
  {
    var s := DecimalString(n);
    if n < 10 {
      assert s[..0] == [];
    } else {
      DecimalRoundTrip(n / 10);
      assert s[..|s| - 1] == DecimalString(n / 10);
    }
  }

  /** A number from 100000 to 999999 has six digits. */
  lemma SixDigits(n: nat)
    requires 100000 <= n <= 999999
    ensures |DecimalString(n)| == 6
  {
    DigitCount(n, 5);
  }

  function Pow10(k: nat): nat
  {
    if k == 0 then 1 else 10 * Pow10(k - 1)
  }

  lemma {:induction false} DigitCount(n: nat, k: nat)
    requires Pow10(k) <= n < 10 * Pow10(k)
    ensures |DecimalString(n)| == k + 1
  {
    if k > 0 {
      DigitCount(n / 10, k - 1);
    }
  }

  /** The code forgotPassword draws: `Math.floor(100000 + Math.random() * 900000)` for a draw below 900000. */
  function OtpCode(draw: nat): (code: string)
    requires draw < 900000
    ensures |code| == 6 && 100000 <= DecimalValue(code) <= 999999
    ensures DecimalValue(code) == 100000 + draw
  {
    SixDigits(100000 + draw);
    DecimalRoundTrip(100000 + draw);
    DecimalString(100000 + draw)
  }

  /** `user.otp !== request.otp`, negated: undefined matches only undefined, a string only itself, null nothing. */
  function OtpMatches(stored: Field<string>, sent: Option<string>): (m: bool)
    ensures stored.Null? ==> !m
    ensures sent.None? ==> (m <==> stored.Unset?)
    ensures sent.Some? ==> (m <==> stored == Present(sent.value))
  {
    (stored.Unset? && sent.None?) || (stored.Present? && sent == Some(stored.value))
  }

  // ---------------------------------------------------------------------
  // The handlers' decisions

  /**
   * The body of a signup request as deserialised into a UserDTO. Validation
   * lets unknown keys through, so besides the five validated fields the body
   * may carry an `_id`, a code and `otpVerified`, which the DTO keeps and the
   * schema stores (`admin` and `otpExpiration` are not schema paths and are
   * dropped).
   */
  datatype SignupRequest = SignupRequest(
    firstName: string,
    lastName: string,
    email: string,
    password: Option<string>,
    registerType: string,
    id: Option<Id>,
    otp: Option<string>,
    otpVerified: Option<bool>)

  /**
   * The user signup creates: active and not an admin; its `_id` is the
   * body's when it gives one and the store's otherwise; it holds a code
   * exactly when the body carried one.
   */
  function NewUser(req: SignupRequest, newId: Id, password: Option<string>): (u: User)
    ensures u.status == ACTIVE && !u.admin && u.email == req.email && u.otExpiration.None?
    ensures u.id == (if req.id.Some? then req.id.value else newId)
    ensures u.otp.Present? <==> req.otp.Some?
    ensures req.otp.None? ==> u.otp == Unset
    ensures u.otpVerified <==> req.otpVerified == Some(true)
  {
    User(if req.id.Some? then req.id.value else newId, req.email, req.firstName, req.lastName, password,
         req.registerType, ACTIVE, false, if req.otp.Some? then Present(req.otp.value) else Unset, None,
         req.otpVerified == Some(true))
  }

  /** The password signup stores: hashed for an 'email' registration, as given otherwise. */
  function StoredPassword(req: SignupRequest, hash: string -> string): (p: Option<string>)
    ensures p.Some? <==> req.password.Some?
    ensures req.registerType != EMAIL ==> p == req.password
    ensures req.registerType == EMAIL && req.password.Some? ==> p == Some(hash(req.password.value))
  {
    if req.registerType == EMAIL && req.password.Some? then Some(hash(req.password.value)) else req.password
  }

  /**
   * signup: the request validation fails with 400; a taken email is a
   * ConflictError; an 'email' registration without a password fails in the
   * hashing; a record the schema refuses fails in the save; otherwise the
   * user is created and the answer is 201.
   */
  function Signup(users: seq<User>, req: SignupRequest, valid: bool, newId: Id, hash: string -> string): (r: (seq<User>, Reply))
    ensures !valid ==> r == (users, Reply([], Some(BAD_REQUEST)))
    ensures valid && (exists u :: u in users && u.email == req.email) ==>
              r == (users, Reply([ConflictError(EmailAlreadyExists)], None))
    ensures r.1.status == Some(CREATED) <==>
              valid && SchemaValid(NewUser(req, newId, None)) && (req.registerType == EMAIL ==> req.password.Some?)
              && forall u :: u in users ==> u.email != req.email && u.id != NewUser(req, newId, None).id
    ensures r.1.status != Some(CREATED) ==> r.0 == users
    ensures r.1.status == Some(CREATED) ==>
              r.1.signalled == []
              && r.0 == users + [NewUser(req, newId, StoredPassword(req, hash))]
  {
    if !valid then (users, Reply([], Some(BAD_REQUEST)))
    else if FindByEmail(users, Some(req.email)).Some? then (users, Reply([ConflictError(EmailAlreadyExists)], None))
    else if req.registerType == EMAIL && req.password.None? then (users, Reply([InternalServerError], None))
    else match CreateUser(users, NewUser(req, newId, StoredPassword(req, hash)))
      case (_, Err(_)) => (users, Reply([InternalServerError], None))
      case (created, Ok(_)) => (created, Reply([], Some(CREATED)))
  }

  /**
   * login: an unknown email is NotFoundError; for an 'email' user a missing
   * password in the body, or a missing stored hash, makes the comparison
   * throw (500), and a hash that does not match is BadRequestError; any
   * other user, a 'google' one included, gets 200 without a comparison.
   */
  function Login(users: seq<User>, email: string, password: Option<string>, compare: (string, string) -> bool): (reply: Reply)
    ensures FindByEmail(users, Some(email)).None? <==> reply == Reply([NotFoundError(EmailNotFound)], None)
    ensures reply.status == Some(OK) <==>
              FindByEmail(users, Some(email)).Some?
              && var u := users[FindByEmail(users, Some(email)).value];
                 u.registerType != EMAIL || (u.password.Some? && password.Some? && compare(password.value, u.password.value))
    ensures reply.status == Some(OK) ==> reply.signalled == []
    ensures (FindByEmail(users, Some(email)).Some?
             && var u := users[FindByEmail(users, Some(email)).value];
                u.registerType == EMAIL && u.password.Some? && password.Some? && !compare(password.value, u.password.value)) ==>
              reply == Reply([BadRequestError(WrongPassword)], None)
    ensures (FindByEmail(users, Some(email)).Some?
             && var u := users[FindByEmail(users, Some(email)).value];
                u.registerType == EMAIL && (u.password.None? || password.None?)) ==>
              reply == Reply([InternalServerError], None)
  {
    match FindByEmail(users, Some(email))
    case None => Reply([NotFoundError(EmailNotFound)], None)
    case Some(i) =>
      var u := users[i];
      if u.registerType != EMAIL then Reply([], Some(OK))
      else if u.password.None? || password.None? then Reply([InternalServerError], None)
      else if !compare(password.value, u.password.value) then Reply([BadRequestError(WrongPassword)], None)
      else Reply([], Some(OK))
  }

  /** A user who signed up with an email and a password can log in with that password. */
  lemma SignupThenLogin(users: seq<User>, req: SignupRequest, newId: Id, hash: string -> string,
                        compare: (string, string) -> bool)
    requires forall p :: compare(p, hash(p))
    requires req.registerType == EMAIL && req.password.Some?
    requires Signup(users, req, true, newId, hash).1.status == Some(CREATED)
    ensures Login(Signup(users, req, true, newId, hash).0, req.email, req.password, compare) == Reply([], Some(OK))
  {
    var after := Signup(users, req, true, newId, hash).0;
    var found := FindByEmail(after, Some(req.email));
    assert after[|users|].email == req.email;
    assert after[|users|] in after;
  }

  /** Whether an expiry is set and has passed (`otpExpiration && otpExpiration < new Date()`). */
  predicate Expired(expiry: Field<int>, now: int)
  {
    expiry.Present? && expiry.value < now
  }

  /** The user the auth middleware attached to the request, found by id. */
  function UserWithId(id: Id): User -> bool
  {
    (u: User) => u.id == id
  }

  /**
   * updatePassword: a body without a password, or a user without a stored
   * hash, makes the comparison throw (500); a new password matching the
   * current hash is SAME_AS_OLD_PASSWORD and stores nothing; otherwise its
   * hash replaces the stored one.
   */
  function UpdatePassword(users: seq<User>, userID: Id, password: Option<string>, compare: (string, string) -> bool,
                          hash: string -> string): (r: (seq<User>, Reply))
    ensures r.1.status != Some(OK) ==> r.0 == users
    ensures r.1.status == Some(OK) <==>
              IndexWhere(users, UserWithId(userID)).Some? && password.Some?
              && var u := users[IndexWhere(users, UserWithId(userID)).value];
                 u.password.Some? && !compare(password.value, u.password.value)
    ensures r.1.status == Some(OK) ==>
              var i := IndexWhere(users, UserWithId(userID)).value;
              r.0 == users[i := users[i].(password := Some(hash(password.value)))]
    ensures (IndexWhere(users, UserWithId(userID)).Some? && password.Some?
             && var u := users[IndexWhere(users, UserWithId(userID)).value];
                u.password.Some? && compare(password.value, u.password.value)) ==>
              r == (users, Reply([BadRequestError(SameAsOldPassword)], None))
    ensures password.None? || IndexWhere(users, UserWithId(userID)).None?
            || users[IndexWhere(users, UserWithId(userID)).value].password.None? ==>
              r == (users, Reply([InternalServerError], None))
  {
    match IndexWhere(users, UserWithId(userID))
    case None => (users, Reply([InternalServerError], None))
    case Some(i) =>
      if users[i].password.None? || password.None? then (users, Reply([InternalServerError], None))
      else if compare(password.value, users[i].password.value) then (users, Reply([BadRequestError(SameAsOldPassword)], None))
      else (users[i := users[i].(password := Some(hash(password.value)))], Reply([], Some(OK)))
  }

  datatype ResetRequest = ResetRequest(token: Option<string>, email: string, password: string)

  /**
   * resetPassword: the request validation fails with 400; a missing token,
   * or one for another email, is INVALID_TOKEN (a token that does not verify
   * throws); an unknown user or one without a password is
   * PASSWORD_NOT_FOUND; a password matching the current hash is
   * SAME_AS_OLD_PASSWORD; otherwise the new hash is written back.
   */
  function ResetPassword(users: seq<User>, req: ResetRequest, valid: bool, verify: string -> Option<string>,
                         compare: (string, string) -> bool, hash: string -> string): (r: (seq<User>, Reply))
    ensures r.1.status != Some(OK) ==> r.0 == users
    ensures !valid ==> r == (users, Reply([], Some(BAD_REQUEST)))
    ensures valid && !Truthy(req.token) ==> r == (users, Reply([BadRequestError(InvalidToken)], None))
    ensures valid && Truthy(req.token) && verify(req.token.value).None? ==> r == (users, Reply([InternalServerError], None))
    ensures valid && Truthy(req.token) && verify(req.token.value).Some? && verify(req.token.value).value != req.email ==>
              r == (users, Reply([BadRequestError(InvalidToken)], None))
    ensures valid && Truthy(req.token) && verify(req.token.value) == Some(req.email)
            && (FindByEmail(users, Some(req.email)).None?
                || !Truthy(users[FindByEmail(users, Some(req.email)).value].password)) ==>
              r == (users, Reply([NotFoundError(PasswordNotFound)], None))
    ensures valid && Truthy(req.token) && verify(req.token.value) == Some(req.email)
            && FindByEmail(users, Some(req.email)).Some?
            && Truthy(users[FindByEmail(users, Some(req.email)).value].password)
            && compare(req.password, users[FindByEmail(users, Some(req.email)).value].password.value) ==>
              r == (users, Reply([BadRequestError(SameAsOldPassword)], None))
    ensures r.1.status == Some(OK) ==>
              valid && Truthy(req.token) && verify(req.token.value) == Some(req.email)
              && FindByEmail(users, Some(req.email)).Some?
              && var i := FindByEmail(users, Some(req.email)).value;
                 Truthy(users[i].password) && !compare(req.password, users[i].password.value)
                 && r.0 == users[i := users[i].(password := Some(hash(req.password)))]
  {
    if !valid then (users, Reply([], Some(BAD_REQUEST)))
    else if !Truthy(req.token) then (users, Reply([BadRequestError(InvalidToken)], None))
    else match verify(req.token.value)
      case None => (users, Reply([InternalServerError], None))
      case Some(tokenEmail) =>
        if tokenEmail != req.email then (users, Reply([BadRequestError(InvalidToken)], None))
        else match FindByEmail(users, Some(req.email))
          case None => (users, Reply([NotFoundError(PasswordNotFound)], None))
          case Some(i) =>
            var user := Deserialize(users[i]);
            if !Truthy(user.password) then (users, Reply([NotFoundError(PasswordNotFound)], None))
            else if compare(req.password, user.password.value) then (users, Reply([BadRequestError(SameAsOldPassword)], None))
            else
              var updated := UpdateUserByEmail(users, user.(password := Some(hash(req.password))));
              assert updated == users[i := users[i].(password := Some(hash(req.password)))] by {
                assert FindByEmail(users, Some(user.email)) == Some(i);
              }
              (updated, Reply([], Some(OK)))
  }

  /**
   * forgotPassword: an unknown user, or one registered through Google, is
   * USER_NOT_FOUND; otherwise a six-digit code is stored, an expiry five
   * minutes ahead is set on the DTO (and dropped on the write), and the
   * code is returned.
   */
  function ForgotPassword(users: seq<User>, email: Option<string>, draw: nat, now: int): (r: (seq<User>, Reply, Option<string>))
    requires draw < 900000
    ensures FindByEmail(users, email).None? || users[FindByEmail(users, email).value].registerType == GOOGLE <==>
              r == (users, Reply([NotFoundError(UserNotFound)], None), None)
    ensures r.1.status == Some(OK) ==>
              r.1.signalled == [] && r.2 == Some(OtpCode(draw))
              && var i := FindByEmail(users, email).value;
                 r.0 == users[i := users[i].(otp := Present(OtpCode(draw)))]
    ensures r.1.status == Some(OK) || r.1 == Reply([NotFoundError(UserNotFound)], None)
  {
    match FindByEmail(users, email)
    case None => (users, Reply([NotFoundError(UserNotFound)], None), None)
    case Some(i) =>
      if users[i].registerType == GOOGLE then (users, Reply([NotFoundError(UserNotFound)], None), None)
      else
        var otp := OtpCode(draw);
        var user := Deserialize(users[i]).(otp := Present(otp), otpExpiration := Present(now + OTP_LIFETIME));
        assert FindByEmail(users, Some(user.email)) == Some(i);
        (UpdateUserByEmail(users, user), Reply([], Some(OK)), Some(otp))
  }

  /**
   * verifyOTP, as written: refused only when both otp and email are
   * missing; no answer at all when no user matches; INVALID_OTP on a
   * mismatch, then OTP_EXPIRED on a passed expiry (never, since the DTO's
   * expiry is unset); on success the code is cleared to null and
   * otpVerified set to false.
   */
  function VerifyOtp(users: seq<User>, otp: Option<string>, email: Option<string>, now: int): (r: (seq<User>, Reply))
    ensures !Truthy(otp) && !Truthy(email) ==> r == (users, Reply([BadRequestError(IncorrectParameters)], None))
    ensures (Truthy(otp) || Truthy(email)) && FindByEmail(users, email).None? ==> r == (users, Reply([], None))
    ensures (Truthy(otp) || Truthy(email)) && FindByEmail(users, email).Some?
            && !OtpMatches(Deserialize(users[FindByEmail(users, email).value]).otp, otp) ==>
              r == (users, Reply([BadRequestError(InvalidOtp)], None))
    ensures r.1.status == Some(OK) <==>
              (Truthy(otp) || Truthy(email)) && FindByEmail(users, email).Some?
              && OtpMatches(Deserialize(users[FindByEmail(users, email).value]).otp, otp)
    ensures r.1.status == Some(OK) ==>
              var i := FindByEmail(users, email).value;
              r.0 == users[i := users[i].(otp := Null, otpVerified := false)]
  {
    if !Truthy(otp) && !Truthy(email) then (users, Reply([BadRequestError(IncorrectParameters)], None))
    else match FindByEmail(users, email)
      case None => (users, Reply([], None))
      case Some(i) =>
        var user := Deserialize(users[i]);
        if !OtpMatches(user.otp, otp) then (users, Reply([BadRequestError(InvalidOtp)], None))
        else if Expired(user.otpExpiration, now) then (users, Reply([BadRequestError(OtpExpired)], None))
        else
          var cleared := user.(otp := Null, otpExpiration := Null, otpVerified := false);
          assert FindByEmail(users, Some(user.email)) == Some(i);
          (UpdateUserByEmail(users, cleared), Reply([], Some(OK)))
  }

  /** After a successful verification the same code is refused: it was cleared. */
  lemma OtpIsSingleUse(users: seq<User>, otp: Option<string>, email: Option<string>, now: int, later: int)
    requires VerifyOtp(users, otp, email, now).1.status == Some(OK)
    requires otp.Some?
    ensures VerifyOtp(VerifyOtp(users, otp, email, now).0, otp, email, later).1 == Reply([BadRequestError(InvalidOtp)], None)
  {
    var i := FindByEmail(users, email).value;
    FindAfterUpdate(users, email, i, users[i].(otp := Null, otpVerified := false));
  }

  // ---------------------------------------------------------------------
  // Finding: an OTP never expires

  /**
   * As written, a code asked for at `now` is still accepted at any later
   * time: the expiry never reaches the store.
   */
  lemma OtpNeverExpires(users: seq<User>, email: string, draw: nat, now: int, later: int)
    requires draw < 900000
    requires FindByEmail(users, Some(email)).Some? && users[FindByEmail(users, Some(email)).value].registerType != GOOGLE
    requires later > now + OTP_LIFETIME
    ensures var (afterForgot, _, code) := ForgotPassword(users, Some(email), draw, now);
            VerifyOtp(afterForgot, code, Some(email), later).1 == Reply([], Some(OK))
  {
    var i := FindByEmail(users, Some(email)).value;
    FindAfterUpdate(users, Some(email), i, users[i].(otp := Present(OtpCode(draw))));
  }

  /** The DTO as meant: the stored expiry read into `otpExpiration`. */
  function IntendedDeserialize(u: User): (dto: UserDto)
    ensures u.otExpiration.Some? <==> dto.otpExpiration.Present?
    ensures u.otExpiration.Some? ==> dto.otpExpiration.value == u.otExpiration.value
  {
    Deserialize(u).(otpExpiration := if u.otExpiration.Some? then Present(u.otExpiration.value) else Unset)
  }

  /** The write-back as meant: `otpExpiration` lands on the schema's `otExpiration`. */
  function IntendedUpdateUserByEmail(users: seq<User>, dto: UserDto): (r: seq<User>)
    ensures |r| == |users|
  {
    match FindByEmail(users, Some(dto.email))
    case None => users
    case Some(i) =>
      var expiry := match dto.otpExpiration
        case Unset => users[i].otExpiration
        case Null => None
        case Present(t) => Some(t);
      users[i := Persist(users[i], dto).(otExpiration := expiry)]
  }

  /** As meant, writing back what was read changes nothing, the stored expiry included. */
  lemma IntendedWriteBackIsNoOp(users: seq<User>, email: string)
    requires FindByEmail(users, Some(email)).Some?
    ensures IntendedUpdateUserByEmail(users, IntendedDeserialize(users[FindByEmail(users, Some(email)).value])) == users
  {
    var i := FindByEmail(users, Some(email)).value;
    assert FindByEmail(users, Some(users[i].email)) == Some(i);
  }

  /** As meant, a DTO's expiry reaches the store: a time is written, null clears it. */
  lemma IntendedUpdateWritesExpiry(users: seq<User>, dto: UserDto)
    requires FindByEmail(users, Some(dto.email)).Some?
    ensures var i := FindByEmail(users, Some(dto.email)).value;
            var stored := IntendedUpdateUserByEmail(users, dto)[i].otExpiration;
            (dto.otpExpiration.Present? ==> stored == Some(dto.otpExpiration.value))
            && (dto.otpExpiration.Null? ==> stored.None?)
            && (dto.otpExpiration.Unset? ==> stored == users[i].otExpiration)
  {
  }

  /** forgotPassword as meant: the code and its expiry, five minutes ahead, are both stored. */
  function IntendedForgotPassword(users: seq<User>, email: Option<string>, draw: nat, now: int): (r: (seq<User>, Reply, Option<string>))
    requires draw < 900000
    ensures r.1.status == Some(OK) ==>
              FindByEmail(users, email).Some?
              && var i := FindByEmail(users, email).value;
                 r.0 == users[i := users[i].(otp := Present(OtpCode(draw)), otExpiration := Some(now + OTP_LIFETIME))]
    ensures r.1.status != Some(OK) ==> r == (users, Reply([NotFoundError(UserNotFound)], None), None)
  {
    match FindByEmail(users, email)
    case None => (users, Reply([NotFoundError(UserNotFound)], None), None)
    case Some(i) =>
      if users[i].registerType == GOOGLE then (users, Reply([NotFoundError(UserNotFound)], None), None)
      else
        var otp := OtpCode(draw);
        var user := IntendedDeserialize(users[i]).(otp := Present(otp), otpExpiration := Present(now + OTP_LIFETIME));
        assert FindByEmail(users, Some(user.email)) == Some(i);
        (IntendedUpdateUserByEmail(users, user), Reply([], Some(OK)), Some(otp))
  }

  /**
   * verifyOTP as meant: both the code and the email are required, and the
   * stored expiry is enforced.
   */
  function IntendedVerifyOtp(users: seq<User>, otp: Option<string>, email: Option<string>, now: int): (r: (seq<User>, Reply))
    ensures !Truthy(otp) || !Truthy(email) ==> r == (users, Reply([BadRequestError(IncorrectParameters)], None))
    ensures r.1.status == Some(OK) ==>
              FindByEmail(users, email).Some?
              && var i := FindByEmail(users, email).value;
                 users[i].otp == Present(otp.value)
                 && (users[i].otExpiration.None? || users[i].otExpiration.value >= now)
                 && r.0 == users[i := users[i].(otp := Null, otExpiration := None, otpVerified := false)]
  {
    if !Truthy(otp) || !Truthy(email) then (users, Reply([BadRequestError(IncorrectParameters)], None))
    else match FindByEmail(users, email)
      case None => (users, Reply([], None))
      case Some(i) =>
        var user := IntendedDeserialize(users[i]);
        if !OtpMatches(user.otp, otp) then (users, Reply([BadRequestError(InvalidOtp)], None))
        else if Expired(user.otpExpiration, now) then (users, Reply([BadRequestError(OtpExpired)], None))
        else
          var cleared := user.(otp := Null, otpExpiration := Null, otpVerified := false);
          assert FindByEmail(users, Some(user.email)) == Some(i);
          (IntendedUpdateUserByEmail(users, cleared), Reply([], Some(OK)))
  }

  /** As meant, a code is accepted up to five minutes after it was issued and refused as expired after that. */
  lemma IntendedOtpExpires(users: seq<User>, email: string, draw: nat, now: int, later: int)
    requires draw < 900000 && email != ""
    requires FindByEmail(users, Some(email)).Some? && users[FindByEmail(users, Some(email)).value].registerType != GOOGLE
    requires later >= now
    ensures var (afterForgot, _, code) := IntendedForgotPassword(users, Some(email), draw, now);
            IntendedVerifyOtp(afterForgot, code, Some(email), later).1 ==
              if later > now + OTP_LIFETIME then Reply([BadRequestError(OtpExpired)], None) else Reply([], Some(OK))
  {
    var i := FindByEmail(users, Some(email)).value;
    FindAfterUpdate(users, Some(email), i,
                    users[i].(otp := Present(OtpCode(draw)), otExpiration := Some(now + OTP_LIFETIME)));
  }

  // ---------------------------------------------------------------------
  // Finding: verification without a code

  /**
   * As written, a request with an email and no code succeeds for any user
   * holding no code (never asked for one, or already verified it), and so
   * hands out a reset token.
   */
  lemma VerifyWithoutCodeSucceeds(users: seq<User>, email: string, now: int)
    requires email != ""
    requires FindByEmail(users, Some(email)).Some? && !users[FindByEmail(users, Some(email)).value].otp.Present?
    ensures VerifyOtp(users, None, Some(email), now).1 == Reply([], Some(OK))
  {
  }

  /** As meant, a request without a code is refused and changes nothing. */
  lemma IntendedVerifyNeedsCode(users: seq<User>, email: Option<string>, now: int)
    ensures IntendedVerifyOtp(users, None, email, now) == (users, Reply([BadRequestError(IncorrectParameters)], None))
  {
  }
}

=== FILE: user_repository.dfy ===
/**
 * The user repository's reads and writes on the document store, each the
 * UserModel function of the same name.
 */
module UserRepository {
  import opened Wrappers
  import opened Documents
  import opened Errors
  import opened Query
  import opened UserModel

  class UserRepository {
    const db: DocumentStore

    constructor (db: DocumentStore)
      ensures this.db == db
    {
      this.db := db;
    }

    /** findByEmail: the first user with that email, deserialised, or nothing. */
    method FindByEmail(email: Option<string>) returns (user: Option<UserDto>)
      ensures user == ReadByEmail(db.users, email)
    {
      var found := IndexWhere(db.users, EmailIs(email));
      if found.None? {
        return None;
      }
      user := Some(Deserialize(db.users[found.value]));
    }

    /** create: `user` carries the `_id` the store assigns to the new record. */
    method Create(user: User) returns (savedUser: Result<User, RepoError>)
      modifies db
      ensures (db.users, savedUser) == CreateUser(old(db.users), user)
      ensures db.State() == old(db.State()).(users := db.users)
    {
      if !SchemaValid(user) {
        return Err(SchemaValidationError);
      }
      if exists v :: v in db.users && (v.email == user.email || v.id == user.id) {
        return Err(StoreError);
      }
      db.users := db.users + [user];
      savedUser := Ok(user);
    }

    /** updateUserByEmail: `$set` the DTO on the first user with its email. */
    method UpdateUserByEmail(userData: UserDto)
      modifies db
      ensures db.users == UserModel.UpdateUserByEmail(old(db.users), userData)
      ensures db.State() == old(db.State()).(users := db.users)
    {
      var found := IndexWhere(db.users, EmailIs(Some(userData.email)));
      if found.Some? {
        var i := found.value;
        db.users := db.users[i := Persist(db.users[i], userData)];
      }
    }
  }
}

=== FILE: wrappers.dfy ===
/** Optional values and results with an error, used across the model. */
module Wrappers {

  datatype Option<+T> = None | Some(value: T)

  datatype Result<+T, +E> = Ok(value: T) | Err(error: E)
}
